=== FILE: README.md ===
# CellConstructor dynamical matrices, modelled in Dafny

This project models the text-format core of CellConstructor's `Phonons`
class. That class holds the dynamical matrices of a crystal, one per q point,
grouped into stars of symmetry-equivalent q points. The model covers:

- **Loading** Quantum ESPRESSO `ph.x` dynamical-matrix ("fildyn") files with
  `LoadFromQE`:
  - the argument checks and the file naming (`prefix1 .. prefixN`, or the bare
    name in full-name mode);
  - the header read at fixed line offsets, with the four padding lines for
    `ibrav != 0`;
  - the line-driven block loop and its marker substrings;
  - the dielectric, effective-charge and Raman modes;
  - the bookkeeping of stars, `q_tot` and stored matrices.
- **Saving** with `save_qe`:
  - species numbered by first appearance;
  - the header lines at the offsets the loader reads;
  - one block per q point of every star, its matrix taken from a running index.
- **The round trip** (`SaveLoad.SaveThenLoad`): the files `save_qe` writes,
  read back by `Phonons(prefix, nqirr)`, load without error. The object
  loaded has:
  - the labels of the saved structure unchanged;
  - its positions, cell rows and masses after one trip through the format and
    the parser, and the lattice parameter after the trip through Bohr;
  - the stars in file order, each q point after one trip, and `q_tot` their
    concatenation;
  - for every q point, its matrix after one trip, cut to 3N x 3N.

  Each number passes once through the formatter and the parser on the way.
  The proof goes through the header (`HeaderRead`), one block (`StarRead`),
  one star and its trailer (`FileRead`), and then file by file (`SaveLoad`).
- **Modes**:
  - the per-atom mass array;
  - the mass scaling `DyagDinQ` applies before it diagonalizes;
  - the post-processing of the eigenpairs: signed frequencies for unstable
    modes, then an argsort applied to both the frequencies and the
    polarization columns.
- **`get_energy_forces`**: energy `E = ½ r·Φr` and forces `F = Φr · A_TO_BOHR`.
- **`CheckCompatibility`**.

## How the model is built

- **Python's exceptions** are values of `Result<T, Error>`, one error kind per
  exception the source raises:
  - `ValueError` is `NonPositiveQCount`, `FullNameWithSupercell`, `MissingFile` or `BadValue`;
  - `IndexError` is `BadIndex`;
  - `KeyError` is `UnknownKey`;
  - the `TypeError` of writing into a `None` tensor is `NoneTensor`.

  Errors are checked in the order the source runs into them.
- **Lines** are strings. `strip()` and `split()` use ASCII whitespace, as
  Python 2 byte strings do. Marker tests are substring tests.
- **Numbers in text**:
  - `int()` of a token is modelled exactly.
  - `float()` of a token is a parameter `parse: string -> Option<real>`, and
    the `%f` formatting of `save_qe` is a parameter `show: real -> string`.
  - `save_qe` prints with three formats: `%.8f` (the counts line and the
    masses) and `%12.8f` (the cell and the matrix entries), whose width only
    pads; `%.9f` (q points); and `%15.10f` (positions). Each precision is its
    own parameter (`Saver.Formats`).
  - The round trip assumes only three laws linking each format to `float`
    (`RoundTrip.Codec`): every formatted number is a non-empty run of digits,
    signs and points; `float` accepts it; and `float` reads a printed natural
    number exactly. A value read back is `R(x) = parse(show(x))`, so nothing
    assumes the formatting to be exact.
- **numpy behaviour**: negative indices wrap around (`PyIndex`), and a
  length-1 row is broadcast to length 3 (`Broadcast3`).
- **Abstracted callees**:
  - the file system is a map from path to lines;
  - `Methods.get_unit_cell_from_ibrav` is the parameter `cellFromIbrav`;
  - `np.linalg.eig` is the parameter `eig`;
  - `np.sqrt` is a parameter assumed to be a square root (`Modes.IsSqrt`);
  - the weight `1/sqrt(m1 m2)` of the mass scaling is a parameter
    `invRoot`, assumed to be the reciprocal of a positive square root on
    positive numbers (`Modes.IsInvRoot`);
  - `Structure.get_displacement` enters as the array it returns.

## Model

| member | source | states |
|---|---|---|
| Loader.LoadFromQE | cellconstructor/Phonons.py:118-122 | `nqirr <= 0` and full-name mode with `nqirr > 1` are rejected before any file is read; a successful load is marked initialized |
| Loader.LoadFromQEBookkeeping | cellconstructor/Phonons.py:128-136 | a load reads exactly the files `prefix1 .. prefixN` (or `prefix` in full-name mode); once files 0..j-1 have loaded, a missing file j is a ValueError naming it; every file adds one star whose points are appended to `q_tot` in order plus at least one new matrix after the existing ones; no tensor is written while it is None |
| Loader.LoadFileContribution | cellconstructor/Phonons.py:207-332 | one file adds exactly one star, `q_tot` grows by exactly that star, at least one 3N x 3N matrix is appended, and later files keep the structure of the first |
| Loader.ScanFileContribution | cellconstructor/Phonons.py:208-332 | the block loop of one file keeps the structure and lattice parameter, appends one star and square matrices, and never raises the None-tensor TypeError |
| Loader.ParseHeaderSpec | cellconstructor/Phonons.py:143-204 | a parsed header fixes N from the second count and `alat = celldm(1) * 0.52918`; the masses are the table of the species lines; atom i is read from line `7 + ntyp + i`, its label the species its truncated second number names and its position the rest times `alat`; the cell is lines 4..6 times `alat` for ibrav 0, otherwise the ibrav helper's cell with four padding lines after line 3 |
| Loader.ReadStructureSpec | cellconstructor/Phonons.py:163-204 | after the counts: N atoms, `alat` from celldm(1) in Angstrom, the masses the table of the species lines, each atom's label and scaled position read from its own line, and the cell rows read (ibrav 0) or given by the ibrav helper |
| Loader.ReadBodySpec | cellconstructor/Phonons.py:182-204 | the species and atom lines give `nat` atoms: the masses are the table of the species lines, atom i's label is `atoms_dict[int(info[1])]` and its position `info[2:] * alat`, each label one with a mass |
| Loader.ReadLattice | cellconstructor/Phonons.py:170-175 | ibrav 0 reads cell row i from line 4 + i, three numbers times `alat`, and fails exactly when a line is missing or unreadable; any other ibrav takes the cell from the ibrav helper unchanged |
| Loader.ReadCounts | cellconstructor/Phonons.py:146-162 | the third line yields ntyp, nat, ibrav and the six celldm values from tokens 0..8, in the source's order of evaluation |
| Loader.Celldm | cellconstructor/Phonons.py:150-156 | `celldm[k]` is `float` of token `3 + k` for k = 0..5 |
| Loader.ReadCell | cellconstructor/Phonons.py:171-173 | cell row j is line 4 + j read as three numbers times `alat`; the read fails exactly when one of those lines is missing or unreadable |
| Loader.ReadSpecies | cellconstructor/Phonons.py:185-190 | species line `6 + k` gives the label between the first two quotes, stripped, and the mass after the last quote; the read fails exactly when one of the ntyp lines is missing or unreadable |
| Loader.MassTable | cellconstructor/Phonons.py:184-192 | the mass table has exactly the labels read, and no other |
| Loader.MassTableLast | cellconstructor/Phonons.py:184-192 | a label named by several species lines keeps the mass of the last one |
| Loader.ReadAtoms | cellconstructor/Phonons.py:199-204 | atom i comes from line `7 + ntyp + i`: its label is the species its truncated second number names, its position the remaining numbers times `alat` |
| Loader.Trunc | cellconstructor/Phonons.py:203 | `int()` truncates toward zero: the floor for non-negative values, the ceiling for negative ones |
| Loader.Floats | cellconstructor/Phonons.py:173 | a list of floats is read exactly when every token parses, entry by entry |
| Loader.Broadcast3 | cellconstructor/Phonons.py:204 | a row assignment takes three values or broadcasts one, and raises ValueError for any other length |
| Loader.SkipToMatrixSpec | cellconstructor/Phonons.py:211-216 | the lines up to and including the first "cartesian axes" line are dropped; without such a line the reader fails |
| Loader.StepKeepsInvariant | cellconstructor/Phonons.py:236-328 | each line keeps `q_tot == q_tot0 + star`, keeps the stored matrices as a prefix, stores only 3N x 3N matrices, and never fills an absent tensor |
| Loader.ScanKeepsInvariant | cellconstructor/Phonons.py:236-329 | the whole block loop keeps that invariant and stores at least one matrix before "Diagonalizing" stops it |
| Loader.FillRowWrites | cellconstructor/Phonons.py:324-328 | a six-number row writes exactly the entries `(3 atm_i + coordline, 3 atm_j + k)`, k = 0..2, as `re + i im`; every other entry is unchanged |
| Loader.PairLine | cellconstructor/Phonons.py:319-323 | a two-number line "i j" selects the pair (i - 1, j - 1) and resets the row cursor, touching nothing else |
| Loader.RowLine | cellconstructor/Phonons.py:324-328 | a six-number line in matrix mode writes its three entries and advances the row cursor |
| Loader.SelectPair | cellconstructor/Phonons.py:321-323 | the pair line changes only the atom pair and the row cursor |
| Loader.WriteRow | cellconstructor/Phonons.py:326-328 | a row line changes only the accumulator and the row cursor |
| Loader.MatrixLine | cellconstructor/Phonons.py:317-328 | a matrix-mode line changes only the accumulator, the atom pair and the row cursor |
| Loader.DielectricLine | cellconstructor/Phonons.py:297-301 | a dielectric-mode line changes only the dielectric tensor and its row counter, and fails with TypeError only if the tensor is absent |
| Loader.EffectiveLine | cellconstructor/Phonons.py:302-308 | an effective-charge line changes only the charges, the atom index and the row counter |
| Loader.RamanLine | cellconstructor/Phonons.py:309-316 | a Raman line changes only the Raman tensor, the atom, the polarization and the row counter |
| Loader.ScanFile | cellconstructor/Phonons.py:207-332 | reading the blocks of a file keeps `nqirr`; what the loop adds to the object is stated by `Loader.ScanFileContribution` |
| Loader.ForFilesContribution | cellconstructor/Phonons.py:128-332 | the loop over files adds one star and at least one matrix per file, in file order |
| Scanning.AuxiliaryMarker | cellconstructor/Phonons.py:246-273 | "Dielectric", "Effective" and "Raman" each raise exactly their own flag and reset their tensor to zeros of its shape (3x3, Nx3x3, 3x3x3N), leaving the matrix, star and stored matrices alone |
| Scanning.MatrixMarker | cellconstructor/Phonons.py:274-289 | "q = " appends the same q point to the star and to `q_tot`; "ynamical" stores a copy of the accumulator; both lower all three flags |
| Scanning.RamanRow | cellconstructor/Phonons.py:314-316 | three numbers in Raman mode write column `3 atm_i + pol_read` of row `dielectric_read`, and nothing else |
| Scanning.DielectricOverflow | cellconstructor/Phonons.py:300 | a fourth dielectric row raises IndexError |
| Scanning.DielectricBlock | cellconstructor/Phonons.py:246-301 | a "Dielectric" line followed by three lines of three numbers leaves dielectric mode on and the dielectric tensor equal to exactly those three rows, in order; the scan then carries on from the next line with nothing else changed |
| Scanning.EffectiveBlock | cellconstructor/Phonons.py:302-308 | in effective-charge mode, an "atom # N" line followed by three rows of three numbers replaces block N - 1 (counted from the end when negative) of the effective charges with those rows and leaves every other atom's block unchanged |
| Scanning.RamanBlock | cellconstructor/Phonons.py:309-316 | in Raman mode, an "atom # N pol. # P" line followed by three rows of three numbers sets column 3(N - 1) + (P - 1) of every slice, row d into slice d, and leaves every other entry of the Raman tensor unchanged |
| Scanning.RamanRows | cellconstructor/Phonons.py:314-316 | once an "atom # N pol. # P" line has set `atm_i = N - 1`, `pol_read = P - 1` and `dielectric_read = 0`, the next three rows of three numbers set column 3(N - 1) + (P - 1) of the three slices, row d into slice d, and change nothing else |
| Saver.Types | cellconstructor/Phonons.py:776-781 | the species list holds every label of the structure, no other, each once |
| Saver.SpeciesNumber | cellconstructor/Phonons.py:784-786 | a label gets a number in 1..n_types that points back at it |
| Saver.TypesOrder | cellconstructor/Phonons.py:776-786 | species are numbered in the order their labels first occur among the atoms |
| Saver.SpeciesNumbering | cellconstructor/Phonons.py:804-809 | every atom's species number is in range, equal numbers mean equal labels, and the earlier species gets the smaller number |
| Saver.HeaderText | cellconstructor/Phonons.py:773-809 | the header is 7 lines plus one per species plus one per atom: the banner, the credit line, the counts with ibrav 0 and `alat` in Bohr, the basis title and the three cell rows in units of `alat` |
| Saver.HeaderSpeciesLines | cellconstructor/Phonons.py:799-801 | species k + 1 is written on line 7 + k with its label and mass, where the loader reads it |
| Saver.HeaderAtomLines | cellconstructor/Phonons.py:803-809 | the atom lines, numbered from 1 with their species numbers and positions in units of `alat`, follow the title and species lines |
| Saver.SaveFile | cellconstructor/Phonons.py:765-854 | a file is written unless a mass is missing (KeyError), a star, matrix or q point is missing (IndexError), or the star's first matrix, which `DyagDinQ` diagonalizes, is not 3N x 3N (ValueError) |
| Saver.SaveQELayout | cellconstructor/Phonons.py:758-842 | `save_qe` writes file k with star k's blocks taken from the matrices after those of the earlier stars, and leaves every other file alone |
| Saver.WriteFilesSucceeds | cellconstructor/Phonons.py:765-772 | all files are written exactly when each can be |
| Saver.WriteFilesLayout | cellconstructor/Phonons.py:764-842 | file k holds what star k produces from the running index; other paths keep their contents |
| Saver.StarStartNext | cellconstructor/Phonons.py:817-842 | the running matrix index grows by the size of each star written |
| Saver.FilePathDistinct | cellconstructor/Phonons.py:767-769 | different irreducible points are written to different files |
| RoundTrip.SpeciesLineRead | cellconstructor/Phonons.py:185-190 | a species line `save_qe` writes for a quote-free, trimmed label is read back as that label and the mass after one trip |
| BlockRead.PairsWalk | cellconstructor/Phonons.py:317-328 | the atom-pair lines and row lines `save_qe` writes for a matrix, read in matrix mode, fill the accumulator with every entry after one trip and change nothing else |
| StarRead.BlockWalk | cellconstructor/Phonons.py:274-289 | a later block of a star stores the matrix read so far, reads its q point, and leaves its own matrix in the accumulator |
| FileRead.StarTextStrip | cellconstructor/Phonons.py:819-842 | the blocks `save_qe` writes for a star, stripped, are the first title and then each member's lines |
| FileRead.TrailerScan | cellconstructor/Phonons.py:241-245 | the trailer stops the block loop at "Diagonalizing", storing the last matrix and changing nothing else |
| FileRead.StarScan | cellconstructor/Phonons.py:236-329 | a written star and its trailer are read as that star: every q point after one trip appended to the star and to `q_tot`, every matrix after one trip stored, the tensors untouched |
| FileRead.SkipHeader | cellconstructor/Phonons.py:211-216 | lines without "cartesian axes" before the first block title are all dropped, and reading starts after that title |
| HeaderRead.HeaderLinesAt | cellconstructor/Phonons.py:773-809 | the header `save_qe` writes, stripped, has the banner, credit, counts, basis title and cell rows on lines 0..6, species k on line 7 + k and atom i on line 7 + n_types + i |
| HeaderRead.HeaderBack | cellconstructor/Phonons.py:143-204 | the header written for a structure with plain labels is parsed back: N atoms, the labels unchanged, the masses, cell rows and positions after one trip, and `alat` after the trip through Bohr |
| HeaderRead.HeaderNoAxes | cellconstructor/Phonons.py:211-216 | no line of the written header contains "cartesian axes", so none is taken for the start of the matrices |
| SaveLoad.FileLines | cellconstructor/Phonons.py:772-851 | a written file, stripped, is its header, the blocks of its star and the trailer for the star's first point |
| SaveLoad.ScanSaved | cellconstructor/Phonons.py:207-332 | after a header, the star and trailer of a written file add the star after one trip, `q_tot` grown by it, and its matrices after one trip |
| SaveLoad.LoadSaved | cellconstructor/Phonons.py:128-332 | a file `save_qe` wrote loads: the first sets the structure and `alat` read from its header, and every file adds its star and matrices after one trip |
| SaveLoad.SaveThenLoad | cellconstructor/Phonons.py:758-851 | loading what `save_qe` wrote succeeds, with the labels unchanged, the structure, `alat`, stars and matrices after one trip, `q_tot` the stars' concatenation, and no tensors |
| Modes.ExpandMasses | cellconstructor/Phonons.py:493-495 | the mass array has length 3N, entry k is the (weighted) mass of atom k / 3, and a label without mass raises KeyError |
| Modes.MassScaled | cellconstructor/Phonons.py:364-372 | entry (r, c) is multiplied by the weight of atoms r/3 and c/3; a missing mass is KeyError, a matrix of another shape ValueError |
| Modes.MassWeightLaw | cellconstructor/Phonons.py:364-372 | for positive masses the weight is positive and its square times `m1 m2` is 1, i.e. it is `1/sqrt(m1 m2)` |
| Modes.MassScaledHermitian | cellconstructor/Phonons.py:364-372 | mass scaling keeps a Hermitian matrix Hermitian |
| Modes.Frequency | cellconstructor/Phonons.py:379-381 | a frequency has the sign of its eigenvalue, is zero for a zero eigenvalue, and squares back to it (`w abs(w) = f2`) |
| Modes.Frequencies | cellconstructor/Phonons.py:376-381 | one signed frequency per eigenvalue, each squaring back to the eigenvalue's real part |
| Modes.ArgSort | cellconstructor/Phonons.py:384 | the argsort is a permutation of the indices that orders the values non-decreasingly |
| Modes.Insert | cellconstructor/Phonons.py:384 | inserting an index keeps the order and adds exactly that index |
| Modes.ArgSortPrefix | cellconstructor/Phonons.py:384 | the first m indices, ordered, each once |
| Modes.SortedByAll | cellconstructor/Phonons.py:384-385 | sorted neighbours give sorted pairs |
| Modes.PermutationDistinct | cellconstructor/Phonons.py:384-386 | a permutation lists every index in range, each once |
| Modes.Permute | cellconstructor/Phonons.py:385 | `frequencies[mask]` takes entry `mask[k]` at position k |
| Modes.PermuteColumns | cellconstructor/Phonons.py:386 | `pol_vects[:, mask]` takes column `mask[k]` at column k |
| Modes.SortModesSpec | cellconstructor/Phonons.py:376-388 | the frequencies come out non-decreasing, each the signed root of the eigenvalue it came from, every eigenvalue used once, and each polarization column moves with its frequency |
| Modes.DyagDinQ | cellconstructor/Phonons.py:337-388 | `DyagDinQ` fails exactly for a missing mass (KeyError, checked first), an index out of range (IndexError) or a matrix of the wrong shape (ValueError); otherwise it returns 3N non-decreasing frequencies, each the signed root of an eigenvalue of the mass-scaled matrix, every eigenvalue used once, with polarization column k the eigenvector of frequency k |
| Harmonic.EnergyForces | cellconstructor/Phonons.py:1083-1100 | energy and forces exist exactly when the shapes agree, otherwise ValueError (IndexError with no matrices); the forces are flat for `vector1d` and N x 3 otherwise |
| Harmonic.EnergyFromForces | cellconstructor/Phonons.py:1089-1095 | the energy is half the scalar product of the displacement (Bohr) with the forces converted back to Ry/Bohr |
| Harmonic.ZeroDisplacement | cellconstructor/Phonons.py:1089-1100 | no displacement gives zero energy and zero forces |
| Harmonic.ReshapedForces | cellconstructor/Phonons.py:1097-1098 | the N x 3 forces are the flat forces row by row |
| Harmonic.ForcesAdd | cellconstructor/Phonons.py:1089-1095 | the forces are additive in the displacement |
| Harmonic.CompatibleEquivalence | cellconstructor/Phonons.py:409-437 | compatibility (same atom count, same `nqirr`) is reflexive, symmetric and transitive |

## Left out

- Eigendecomposition and the numerics built on it (`np.linalg.eig`, `GetUpsilonMatrix`, `GetProbability`, `GetRatioProbability`, `ForcePositiveDefinite`, `GetRamanResponce`): floating-point linear algebra; the eigenpairs are an input of `Modes.DyagDinQ`.
- `GetStrainMatrix` and `ExtractRandomStructures`: a nonlinear solver, code from `Methods` that is not part of this model, and random sampling.
- `Copy`, and the constructor path that takes a `Structure`: aliasing and an iteration over an int, not part of the file format.
- The frequency and polarization lines `save_qe` writes after "Diagonalizing": the loader never reads them. They need `DyagDinQ`, which is numerics. As written, the sixth number of each polarization line repeats the imaginary part of component `3i + 1` where `3i + 2` is meant.
- Column widths of `%5d%5d`, `%12.8f` and `%15.10f`: numeric lines are modelled as tokens joined by single spaces. For values too wide for their column the source prints two fields with no space between them, which the loader would then read as one token.
- Exact lengths after a round trip: the reader converts with 0.52918 and the writer with 1.889725989, which are not exact inverses. The round trip therefore states what the lattice parameter and positions become rather than claiming equality.
- complex64 precision of the accumulator and the mass-scaled matrix: entries are exact complex numbers over reals.
- Files already written when `save_qe` fails half-way: the model returns the error and discards the partial writes.
- Saver.SaveFile: requires a nonzero lattice parameter; with zero the source writes `inf`/`nan` text, which has no counterpart over reals.
- Saver.SaveQELayout: requires a nonzero lattice parameter, for the same reason as Saver.SaveFile.
- SaveLoad.SaveThenLoad: requires a nonzero lattice parameter, for the same reason as Saver.SaveFile.
- Modes.MassScaled: a matrix of any other shape is a ValueError, although numpy would also broadcast a (1, 3N) or scalar-shaped array.
- Modes.ArgSort: ties are broken by index; numpy's default quicksort leaves the order of equal frequencies unspecified.
- Harmonic.EnergyForces: the displacement is taken as the N x 3 array `get_displacement` returns. `Structure` is not part of this model.
- Harmonic.CompatibleEquivalence: the `type(other) != type(self)` test cannot fail in a typed model.
- Loader.LoadFromQE: when a file fails, the source leaves the object partly loaded. By then the structure has been reset (Phonons.py:125) and the stars, `q_tot` entries and matrices of the earlier files have been appended, while `initialized` keeps its old value. The model returns only the error and does not describe that partial object.
- Loader.LoadFromQEBookkeeping: it states at least one new matrix per file, not the exact count. The count depends on how many "ynamical" lines a file holds. The round trip states the exact matrices for files `save_qe` wrote.
- SaveLoad.SaveThenLoad: assumes every label is plain, with no quote, no newline, no blanks around it and no "cartesian axes" in it (`HeaderRead.PlainLabel`). The loader takes the text between the first two quotes and strips it, so other labels do not come back unchanged; a newline inside a label splits the written species line in two when the file is read back, and the mass of the first half then fails to parse. It also assumes at least one file is written.
- SaveLoad.LoadSaved: makes the same plain-label assumption.
- HeaderRead.HeaderBack: makes the same plain-label assumption.
- Modes.MassWeightLaw: states the weight only for positive masses; numpy yields `inf` or `nan` for the others.
- File-system errors other than a missing file (permissions, unreadable bytes): outside the model.

=== FILE: blocks.dfy ===
/**
 * Reading back the matrix blocks that `save_qe` wrote: the pair lines and
 * their rows rebuild the 3N x 3N matrix entry by entry. The walks here are
 * stated for any line reader that obeys the laws the block loop's step obeys
 * on the lines `save_qe` writes, so that each proof sees those laws and not
 * the step itself.
 */
module BlockRead {
  import opened Results
  import opened Text
  import opened Container
  import opened Loader
  import opened Saver
  import opened RoundTrip

  /** Everything but the matrix cursor (accumulator, atom pair, row) is as in `st`. */
  predicate SameBesidesMatrix(s: ScanState, st: ScanState)
  {
    Rest(s) == Rest(st)
  }

  /** Everything in a scan state but the matrix and its cursor. */
  datatype RestOfState = RestOfState(dielectricRead: int, polRead: int, flags: (bool, bool, bool), star: seq<Vector>,
    dynmats: seq<Matrix>, qTot: seq<Vector>, tensors: (Option<seq<Vector>>, Option<seq<seq<Vector>>>, Option<seq<seq<Vector>>>))

  function Rest(st: ScanState): RestOfState
  {
    RestOfState(st.dielectricRead, st.polRead, (st.readingDielectric, st.readingEffective, st.readingRaman), st.star,
      st.dynmats, st.qTot, (st.dielectric, st.effective, st.raman))
  }

  // ---------------------------------------------------------------- rows

  /** `acc` with entries `(r, c .. c + 2)` replaced by those of `m` after one trip. */
  function RowWritten(parse: string -> Option<real>, show: real -> string, acc: Matrix, m: Matrix, r: nat, c: nat): (a: Matrix)
    requires Codec(parse, show) && r < |m| && c + 3 <= |m[r]| && r < |acc| && c + 3 <= |acc[r]|
    ensures |a| == |acc| && forall x :: 0 <= x < |acc| ==> |a[x]| == |acc[x]|
  {
    acc[r := acc[r][c := RC(parse, show, m[r][c])][c + 1 := RC(parse, show, m[r][c + 1])][c + 2 := RC(parse, show, m[r][c + 2])]]
  }

  /** A row write changes exactly the entries `(r, c .. c + 2)`, to those of `m` after one trip. */
  lemma RowWrittenEntries(parse: string -> Option<real>, show: real -> string, acc: Matrix, m: Matrix, r: nat, c: nat)
    requires Codec(parse, show) && r < |m| && c + 3 <= |m[r]| && r < |acc| && c + 3 <= |acc[r]|
    ensures var a := RowWritten(parse, show, acc, m, r, c);
      forall x, y :: 0 <= x < |acc| && 0 <= y < |acc[x]| ==>
        a[x][y] == if x == r && c <= y < c + 3 then RC(parse, show, m[x][y]) else acc[x][y]
  {
  }

  /** The six numbers of a row line, as written. */
  function RowTokens(show: real -> string, m: Matrix, r: nat, c: nat): (ts: seq<string>)
    requires r < |m| && c + 3 <= |m[r]|
    ensures Join(ts) == RowText(show, m, r, c)
  {
    [show(m[r][c].re), show(m[r][c].im), show(m[r][c + 1].re), show(m[r][c + 1].im),
     show(m[r][c + 2].re), show(m[r][c + 2].im)]
  }

  /** Two matrices of the same shape with the same entries are equal. */
  lemma SameEntries(a: Matrix, b: Matrix)
    requires |a| == |b| && forall x :: 0 <= x < |a| ==> |a[x]| == |b[x]|
    requires forall x, y :: 0 <= x < |a| && 0 <= y < |a[x]| ==> a[x][y] == b[x][y]
    ensures a == b
  {
    forall x | 0 <= x < |a|
      ensures a[x] == b[x]
    {
    }
  }

  /** The six numbers of a row, in matrix mode, write the row back after one trip. */
  lemma RowRead(parse: string -> Option<real>, show: real -> string, st: ScanState, m: Matrix, r: nat, c: nat)
    requires Codec(parse, show)
    requires r < |m| && c + 3 <= |m[r]|
    requires r < |st.acc| && c + 3 <= |st.acc[r]|
    requires 3 * st.atmI + st.coordLine == r && 3 * st.atmJ == c
    ensures MatrixLine(parse, st, RowTokens(show, m, r, c))
         == Ok(st.(acc := RowWritten(parse, show, st.acc, m, r, c), coordLine := st.coordLine + 1))
  {
    var ts := RowTokens(show, m, r, c);
    assert forall k :: 0 <= k < |ts| ==> parse(ts[k]).Some?;
    RowLine(parse, st, ts);
    RowEntries(parse, show, st.acc, MatrixLine(parse, st, ts).value.acc, m, r, c);
  }

  /** The entries a row line writes are those of `m` after one trip. */
  lemma RowEntries(parse: string -> Option<real>, show: real -> string, acc: Matrix, a: Matrix, m: Matrix, r: nat, c: nat)
    requires Codec(parse, show)
    requires r < |m| && c + 3 <= |m[r]| && r < |acc| && c + 3 <= |acc[r]|
    requires |a| == |acc| && forall x :: 0 <= x < |acc| ==> |a[x]| == |acc[x]|
    requires var ts := RowTokens(show, m, r, c);
      forall x, y :: 0 <= x < |acc| && 0 <= y < |acc[x]| ==>
        a[x][y] == if x == r && c <= y < c + 3
                   then Complex(parse(ts[2 * (y - c)]).value, parse(ts[2 * (y - c) + 1]).value)
                   else acc[x][y]
    ensures a == RowWritten(parse, show, acc, m, r, c)
  {
    var ts := RowTokens(show, m, r, c);
    var w := RowWritten(parse, show, acc, m, r, c);
    RowWrittenEntries(parse, show, acc, m, r, c);
    forall x, y | 0 <= x < |acc| && 0 <= y < |acc[x]|
      ensures a[x][y] == w[x][y]
    {
      if x == r && c <= y < c + 3 {
        var k := y - c;
        assert ts[2 * k] == show(m[r][y].re) && ts[2 * k + 1] == show(m[r][y].im) by {
          if k == 0 {} else if k == 1 {} else {}
        }
      }
    }
    SameEntries(a, w);
  }

  /** A row line, read where the cursor points at row `r`, columns `c .. c + 2`, writes those entries back after one trip. */
  lemma StepRow(parse: string -> Option<real>, show: real -> string, n: nat, st: ScanState, m: Matrix, r: nat, c: nat)
    requires Codec(parse, show) && MatrixMode(st)
    requires r < |m| && c + 3 <= |m[r]|
    requires r < |st.acc| && c + 3 <= |st.acc[r]|
    requires 3 * st.atmI + st.coordLine == r && 3 * st.atmJ == c
    ensures Strip(RowText(show, m, r, c)) == RowText(show, m, r, c)
    ensures Step(parse, n, st, RowText(show, m, r, c))
         == Ok(Continue(st.(acc := RowWritten(parse, show, st.acc, m, r, c), coordLine := st.coordLine + 1)))
  {
    var ts := RowTokens(show, m, r, c);
    assert forall k :: 0 <= k < |ts| ==> Numeral(ts[k]);
    RowRead(parse, show, st, m, r, c);
    StepNumeric(parse, n, st, ts);
  }

  // ---------------------------------------------------------------- the laws of a line reader

  /** A blank line changes nothing. */
  ghost predicate ReadsBlank(f: LineReader)
  {
    forall st {:trigger f(st, "")} :: f(st, "") == Ok(Continue(st))
  }

  /** In matrix mode, the pair line "a b" points the cursor at the first row of block (a - 1, b - 1). */
  ghost predicate ReadsPairs(f: LineReader)
  {
    forall st, a: nat, b: nat {:trigger f(st, PairText(a, b))} :: MatrixMode(st) ==>
      f(st, PairText(a, b)) == Ok(Continue(st.(atmI := a - 1, atmJ := b - 1, coordLine := 0)))
  }

  /** In matrix mode, a row line writes its three entries where the cursor points, after one trip, and moves down. */
  ghost predicate ReadsRows(f: LineReader, parse: string -> Option<real>, show: real -> string)
  {
    && Codec(parse, show)
    && forall st, m: Matrix, r: nat, c: nat {:trigger f(st, RowText(show, m, r, c))} ::
         && MatrixMode(st) && r < |m| && c + 3 <= |m[r]| && r < |st.acc| && c + 3 <= |st.acc[r]|
         && 3 * st.atmI + st.coordLine == r && 3 * st.atmJ == c
         ==> f(st, RowText(show, m, r, c))
             == Ok(Continue(st.(acc := RowWritten(parse, show, st.acc, m, r, c), coordLine := st.coordLine + 1)))
  }

  /** The stripped q line appends the q point, after one trip, to the star and to `q_tot`. */
  ghost predicate ReadsQ(f: LineReader, parse: string -> Option<real>, show: real -> string)
  {
    && Codec(parse, show)
    && forall st, q: Vector {:trigger f(st, QBody(show, q))} :: |q| >= 3 ==>
         f(st, QBody(show, q))
         == Ok(Continue(st.(star := st.star + [RQ(parse, show, q)], qTot := st.qTot + [RQ(parse, show, q)],
                            readingDielectric := false, readingEffective := false, readingRaman := false)))
  }

  /** The stripped block title stores the matrix read so far; the trailer's title does so and stops. */
  ghost predicate ReadsTitles(f: LineReader)
  {
    && (forall st {:trigger f(st, BlockTitleText)} ::
          f(st, BlockTitleText)
          == Ok(Continue(st.(dynmats := st.dynmats + [st.acc],
                             readingDielectric := false, readingEffective := false, readingRaman := false))))
    && (forall st {:trigger f(st, DiagTitleText)} :: f(st, DiagTitleText) == Ok(Stop(st.(dynmats := st.dynmats + [st.acc]))))
  }

  /** The laws for the lines `save_qe` writes: rows in the matrix format, q lines in the q-point format. */
  ghost predicate Laws(f: LineReader, parse: string -> Option<real>, fmt: Formats)
  {
    ReadsBlank(f) && ReadsPairs(f) && ReadsRows(f, parse, fmt.fixed8) && ReadsQ(f, parse, fmt.fixed9) && ReadsTitles(f)
  }

  lemma ReaderBlank(parse: string -> Option<real>, n: nat)
    ensures ReadsBlank(Reader(parse, n))
  {
    forall st
      ensures Reader(parse, n)(st, "") == Ok(Continue(st))
    {
      StepBlank(parse, n, st);
    }
  }

  lemma ReaderPairs(parse: string -> Option<real>, n: nat)
    ensures ReadsPairs(Reader(parse, n))
  {
    forall st, a: nat, b: nat | MatrixMode(st)
      ensures Reader(parse, n)(st, PairText(a, b)) == Ok(Continue(st.(atmI := a - 1, atmJ := b - 1, coordLine := 0)))
    {
      StepPair(parse, n, st, a, b);
    }
  }

  lemma ReaderRows(parse: string -> Option<real>, show: real -> string, n: nat)
    requires Codec(parse, show)
    ensures ReadsRows(Reader(parse, n), parse, show)
  {
    forall st, m: Matrix, r: nat, c: nat |
      && MatrixMode(st) && r < |m| && c + 3 <= |m[r]| && r < |st.acc| && c + 3 <= |st.acc[r]|
      && 3 * st.atmI + st.coordLine == r && 3 * st.atmJ == c
      ensures Reader(parse, n)(st, RowText(show, m, r, c))
              == Ok(Continue(st.(acc := RowWritten(parse, show, st.acc, m, r, c), coordLine := st.coordLine + 1)))
    {
      StepRow(parse, show, n, st, m, r, c);
    }
  }

  lemma ReaderQ(parse: string -> Option<real>, show: real -> string, n: nat)
    requires Codec(parse, show)
    ensures ReadsQ(Reader(parse, n), parse, show)
  {
    forall st, q: Vector | |q| >= 3
      ensures Reader(parse, n)(st, QBody(show, q))
              == Ok(Continue(st.(star := st.star + [RQ(parse, show, q)], qTot := st.qTot + [RQ(parse, show, q)],
                                 readingDielectric := false, readingEffective := false, readingRaman := false)))
    {
      QTextStrip(show, q);
      StepQ(parse, show, n, st, q);
    }
  }

  lemma ReaderTitles(parse: string -> Option<real>, n: nat)
    ensures ReadsTitles(Reader(parse, n))
  {
    forall st
      ensures Reader(parse, n)(st, BlockTitleText)
              == Ok(Continue(st.(dynmats := st.dynmats + [st.acc],
                                 readingDielectric := false, readingEffective := false, readingRaman := false)))
      ensures Reader(parse, n)(st, DiagTitleText) == Ok(Stop(st.(dynmats := st.dynmats + [st.acc])))
    {
      TitlesStrip();
      StepBlockTitle(parse, n, st);
      StepDiagTitle(parse, n, st);
    }
  }

  /** The block loop's step obeys the laws. */
  lemma ReaderLaws(parse: string -> Option<real>, fmt: Formats, n: nat)
    requires Codec(parse, fmt.fixed8) && Codec(parse, fmt.fixed9)
    ensures Laws(Reader(parse, n), parse, fmt)
  {
    ReaderBlank(parse, n);
    ReaderPairs(parse, n);
    ReaderRows(parse, fmt.fixed8, n);
    ReaderQ(parse, fmt.fixed9, n);
    ReaderTitles(parse, n);
  }

  // ---------------------------------------------------------------- one atom pair

  /** `acc` with the 3 x 3 block of atoms `(i, j)` replaced by that of `m` after one trip: its three rows, top down. */
  function BlockWritten(parse: string -> Option<real>, show: real -> string, acc: Matrix, m: Matrix, n: nat, i: nat, j: nat): (a: Matrix)
    requires Codec(parse, show) && Covers(m, 3 * n) && Square(acc, 3 * n) && i < n && j < n
    ensures Square(a, 3 * n)
  {
    var a1 := RowWritten(parse, show, acc, m, 3 * i, 3 * j);
    var a2 := RowWritten(parse, show, a1, m, 3 * i + 1, 3 * j);
    RowWritten(parse, show, a2, m, 3 * i + 2, 3 * j)
  }

  /** `a` is `acc` with entries `(r, c .. c + 2)` taken from `v`; all three are `d` x `d`. */
  predicate RowFrom(a: Matrix, acc: Matrix, v: Matrix, d: nat, r: int, c: int)
  {
    && Square(a, d) && Square(acc, d) && Square(v, d)
    && forall x, y :: 0 <= x < d && 0 <= y < d ==> a[x][y] == if x == r && c <= y < c + 3 then v[x][y] else acc[x][y]
  }

  /** A row write takes its three entries from the matrix after one trip. */
  lemma RowWrittenFrom(parse: string -> Option<real>, show: real -> string, acc: Matrix, m: Matrix, d: nat, r: nat, c: nat)
    requires Codec(parse, show) && Covers(m, d) && Square(acc, d) && r < d && c + 3 <= d
    ensures RowFrom(RowWritten(parse, show, acc, m, r, c), acc, RM(parse, show, m, d), d, r, c)
  {
    RowWrittenEntries(parse, show, acc, m, r, c);
  }

  /** Three row writes, one under the other, fill a 3 x 3 block from `v`. */
  lemma ComposeRows(acc: Matrix, a1: Matrix, a2: Matrix, a3: Matrix, v: Matrix, d: nat, r: int, c: int)
    requires RowFrom(a1, acc, v, d, r, c) && RowFrom(a2, a1, v, d, r + 1, c) && RowFrom(a3, a2, v, d, r + 2, c)
    ensures forall x, y :: 0 <= x < d && 0 <= y < d ==>
      a3[x][y] == if r <= x < r + 3 && c <= y < c + 3 then v[x][y] else acc[x][y]
  {
  }

  /** The three row writes of a block write, each from the matrix after one trip. */
  lemma BlockRowsFrom(parse: string -> Option<real>, show: real -> string, acc: Matrix, m: Matrix, n: nat, i: nat, j: nat)
    requires Codec(parse, show) && Covers(m, 3 * n) && Square(acc, 3 * n) && i < n && j < n
    ensures var v := RM(parse, show, m, 3 * n);
      var a1 := RowWritten(parse, show, acc, m, 3 * i, 3 * j);
      var a2 := RowWritten(parse, show, a1, m, 3 * i + 1, 3 * j);
      && RowFrom(a1, acc, v, 3 * n, 3 * i, 3 * j) && RowFrom(a2, a1, v, 3 * n, 3 * i + 1, 3 * j)
      && RowFrom(BlockWritten(parse, show, acc, m, n, i, j), a2, v, 3 * n, 3 * i + 2, 3 * j)
  {
    var a1 := RowWritten(parse, show, acc, m, 3 * i, 3 * j);
    RowWrittenFrom(parse, show, acc, m, 3 * n, 3 * i, 3 * j);
    RowWrittenFrom(parse, show, a1, m, 3 * n, 3 * i + 1, 3 * j);
    RowWrittenFrom(parse, show, RowWritten(parse, show, a1, m, 3 * i + 1, 3 * j), m, 3 * n, 3 * i + 2, 3 * j);
  }

  /** A block write changes exactly the entries of block `(i, j)`, to those of `m` after one trip. */
  lemma BlockWrittenEntries(parse: string -> Option<real>, show: real -> string, acc: Matrix, m: Matrix, n: nat, i: nat, j: nat)
    requires Codec(parse, show) && Covers(m, 3 * n) && Square(acc, 3 * n) && i < n && j < n
    ensures var a := BlockWritten(parse, show, acc, m, n, i, j);
      var v := RM(parse, show, m, 3 * n);
      forall x, y :: 0 <= x < 3 * n && 0 <= y < 3 * n ==> a[x][y] == if InBlock(x, y, i, j) then v[x][y] else acc[x][y]
  {
    var a1 := RowWritten(parse, show, acc, m, 3 * i, 3 * j);
    BlockRowsFrom(parse, show, acc, m, n, i, j);
    ComposeRows(acc, a1, RowWritten(parse, show, a1, m, 3 * i + 1, 3 * j), BlockWritten(parse, show, acc, m, n, i, j),
                RM(parse, show, m, 3 * n), 3 * n, 3 * i, 3 * j);
  }

  /** The pair line of `(i, j)` points the cursor at the block's first row. */
  lemma PairStep(f: LineReader, st: ScanState, i: nat, j: nat)
    requires ReadsPairs(f) && MatrixMode(st)
    ensures f(st, PairText(i + 1, j + 1)) == Ok(Continue(st.(atmI := i, atmJ := j, coordLine := 0)))
  {
  }

  /** The cursor stands on row `k` of block `(i, j)` of a square matrix, in matrix mode. */
  predicate AtRow(st: ScanState, n: nat, m: Matrix, i: nat, j: nat, k: nat)
  {
    && MatrixMode(st) && Covers(m, 3 * n) && Square(st.acc, 3 * n) && i < n && j < n && k < 3
    && st.atmI == i && st.atmJ == j && st.coordLine == k
  }

  /** The state after row `k` of block `(i, j)`: the row written, the cursor one row on. */
  function NextRow(parse: string -> Option<real>, show: real -> string, n: nat, st: ScanState, m: Matrix, i: nat, j: nat, k: nat): (s: ScanState)
    requires Codec(parse, show) && AtRow(st, n, m, i, j, k)
    ensures k < 2 ==> AtRow(s, n, m, i, j, k + 1)
  {
    st.(acc := RowWritten(parse, show, st.acc, m, 3 * i + k, 3 * j), coordLine := k + 1)
  }

  /** Row `k` of the block `(i, j)`, read with the cursor on it. */
  lemma RowStep(f: LineReader, parse: string -> Option<real>, show: real -> string, n: nat, st: ScanState, m: Matrix,
                i: nat, j: nat, k: nat)
    requires ReadsRows(f, parse, show) && AtRow(st, n, m, i, j, k)
    ensures f(st, RowText(show, m, 3 * i + k, 3 * j)) == Ok(Continue(NextRow(parse, show, n, st, m, i, j, k)))
  {
    AtRowBounds(st, n, m, i, j, k);
    RowLaw(f, parse, show, st, m, 3 * i + k, 3 * j);
  }

  /** The cursor of `AtRow` points inside both the source matrix and the accumulator. */
  lemma AtRowBounds(st: ScanState, n: nat, m: Matrix, i: nat, j: nat, k: nat)
    requires AtRow(st, n, m, i, j, k)
    ensures 3 * i + k < |m| && 3 * j + 3 <= |m[3 * i + k]|
    ensures 3 * i + k < |st.acc| && 3 * j + 3 <= |st.acc[3 * i + k]|
  {
  }

  /** One instance of the row law. */
  lemma RowLaw(f: LineReader, parse: string -> Option<real>, show: real -> string, st: ScanState, m: Matrix, r: nat, c: nat)
    requires ReadsRows(f, parse, show) && MatrixMode(st)
    requires r < |m| && c + 3 <= |m[r]| && r < |st.acc| && c + 3 <= |st.acc[r]|
    requires 3 * st.atmI + st.coordLine == r && 3 * st.atmJ == c
    ensures f(st, RowText(show, m, r, c))
            == Ok(Continue(st.(acc := RowWritten(parse, show, st.acc, m, r, c), coordLine := st.coordLine + 1)))
  {
  }

  /** Rows `k` to 2 of block `(i, j)`. */
  function RowsFrom(show: real -> string, n: nat, m: Matrix, i: nat, j: nat, k: nat): seq<string>
    requires Covers(m, 3 * n) && i < n && j < n && k <= 3
    decreases 3 - k
  {
    if k == 3 then [] else [RowText(show, m, 3 * i + k, 3 * j)] + RowsFrom(show, n, m, i, j, k + 1)
  }

  /** Rows 0 to 2 are the block's rows as written. */
  lemma RowsFromText(show: real -> string, n: nat, m: Matrix, i: nat, j: nat)
    requires Covers(m, 3 * n) && i < n && j < n
    ensures RowsFrom(show, n, m, i, j, 0) == RowsText(show, n, m, i, j)
  {
    assert RowsFrom(show, n, m, i, j, 2) == [RowText(show, m, 3 * i + 2, 3 * j)];
    assert RowsFrom(show, n, m, i, j, 1) == [RowText(show, m, 3 * i + 1, 3 * j), RowText(show, m, 3 * i + 2, 3 * j)];
  }

  /** The state after rows `k` to 2 of block `(i, j)`, read one after the other. */
  function ReadFrom(parse: string -> Option<real>, show: real -> string, n: nat, st: ScanState, m: Matrix, i: nat, j: nat, k: nat): ScanState
    requires Codec(parse, show) && k <= 3 && (k < 3 ==> AtRow(st, n, m, i, j, k))
    decreases 3 - k
  {
    if k == 3 then st else ReadFrom(parse, show, n, NextRow(parse, show, n, st, m, i, j, k), m, i, j, k + 1)
  }

  /** The three rows write the block and leave the cursor after it. */
  lemma ReadFromBlock(parse: string -> Option<real>, show: real -> string, n: nat, st: ScanState, m: Matrix, i: nat, j: nat)
    requires Codec(parse, show) && AtRow(st, n, m, i, j, 0)
    ensures ReadFrom(parse, show, n, st, m, i, j, 0) == st.(acc := BlockWritten(parse, show, st.acc, m, n, i, j), coordLine := 3)
  {
    var s1 := NextRow(parse, show, n, st, m, i, j, 0);
    var s2 := NextRow(parse, show, n, s1, m, i, j, 1);
    var s3 := NextRow(parse, show, n, s2, m, i, j, 2);
    assert ReadFrom(parse, show, n, s2, m, i, j, 2) == s3;
    assert ReadFrom(parse, show, n, s1, m, i, j, 1) == s3;
  }

  /** Rows `k` to 2, read one line at a time with the cursor on row `k`. */
  lemma {:induction false} WalkFrom(f: LineReader, parse: string -> Option<real>, show: real -> string, n: nat, st: ScanState, m: Matrix,
                                    i: nat, j: nat, k: nat)
    requires ReadsRows(f, parse, show) && Covers(m, 3 * n) && i < n && j < n && k <= 3
    requires k < 3 ==> AtRow(st, n, m, i, j, k)
    ensures Walk(f, st, RowsFrom(show, n, m, i, j, k)) == Ok(Continue(ReadFrom(parse, show, n, st, m, i, j, k)))
    decreases 3 - k
  {
    if k < 3 {
      var s := NextRow(parse, show, n, st, m, i, j, k);
      RowFromStep(f, parse, show, n, st, m, i, j, k);
      WalkFrom(f, parse, show, n, s, m, i, j, k + 1);
    }
  }

  /** Row `k` read, the walk goes on from row `k + 1`. */
  lemma RowFromStep(f: LineReader, parse: string -> Option<real>, show: real -> string, n: nat, st: ScanState, m: Matrix,
                    i: nat, j: nat, k: nat)
    requires ReadsRows(f, parse, show) && AtRow(st, n, m, i, j, k)
    ensures Walk(f, st, RowsFrom(show, n, m, i, j, k))
            == Walk(f, NextRow(parse, show, n, st, m, i, j, k), RowsFrom(show, n, m, i, j, k + 1))
  {
    RowStep(f, parse, show, n, st, m, i, j, k);
    WalkCons(f, st, RowText(show, m, 3 * i + k, 3 * j), RowsFrom(show, n, m, i, j, k + 1), NextRow(parse, show, n, st, m, i, j, k));
  }

  /** The three rows of block `(i, j)`, read with the cursor on its first row. */
  lemma RowsSteps(f: LineReader, parse: string -> Option<real>, show: real -> string, n: nat, st: ScanState, m: Matrix, i: nat, j: nat)
    requires ReadsRows(f, parse, show) && AtRow(st, n, m, i, j, 0)
    ensures Walk(f, st, RowsText(show, n, m, i, j)) == Ok(Continue(st.(acc := BlockWritten(parse, show, st.acc, m, n, i, j), coordLine := 3)))
  {
    WalkFrom(f, parse, show, n, st, m, i, j, 0);
    RowsFromText(show, n, m, i, j);
    ReadFromBlock(parse, show, n, st, m, i, j);
  }

  /** The state after the pair line of `(i, j)` and its three rows. */
  function PairRead(parse: string -> Option<real>, show: real -> string, n: nat, st: ScanState, m: Matrix, i: nat, j: nat): ScanState
    requires Codec(parse, show) && Covers(m, 3 * n) && Square(st.acc, 3 * n) && i < n && j < n
  {
    st.(acc := BlockWritten(parse, show, st.acc, m, n, i, j), atmI := i, atmJ := j, coordLine := 3)
  }

  /** The four lines of pair `(i, j)`, under the reader's laws. */
  lemma PairSteps(f: LineReader, parse: string -> Option<real>, show: real -> string, n: nat, st: ScanState, m: Matrix, i: nat, j: nat)
    requires ReadsPairs(f) && ReadsRows(f, parse, show)
    requires MatrixMode(st) && Covers(m, 3 * n) && Square(st.acc, 3 * n) && i < n && j < n
    ensures Walk(f, st, PairLines(show, n, m, i, j)) == Ok(Continue(PairRead(parse, show, n, st, m, i, j)))
  {
    var s0 := st.(atmI := i, atmJ := j, coordLine := 0);
    PairStep(f, st, i, j);
    RowsSteps(f, parse, show, n, s0, m, i, j);
    WalkCons(f, st, PairText(i + 1, j + 1), RowsText(show, n, m, i, j), s0);
  }

  /** What the pair's walk leaves: its block written, and the rest of the state as before. */
  lemma PairReadState(parse: string -> Option<real>, show: real -> string, n: nat, st: ScanState, m: Matrix, i: nat, j: nat)
    requires Codec(parse, show) && Covers(m, 3 * n) && Square(st.acc, 3 * n) && i < n && j < n
    ensures var s := PairRead(parse, show, n, st, m, i, j);
      SameBesidesMatrix(s, st) && s.acc == BlockWritten(parse, show, st.acc, m, n, i, j)
  {
  }

  /** A pair line and its three rows write block `(i, j)` back after one trip and leave the rest of the state alone. */
  lemma WalkPair(f: LineReader, parse: string -> Option<real>, show: real -> string, n: nat, st: ScanState, m: Matrix, i: nat, j: nat)
    requires ReadsPairs(f) && ReadsRows(f, parse, show)
    requires MatrixMode(st) && Covers(m, 3 * n) && Square(st.acc, 3 * n) && i < n && j < n
    ensures var r := Walk(f, st, PairLines(show, n, m, i, j));
      && r.Ok? && r.value.Continue? && SameBesidesMatrix(r.value.state, st)
      && r.value.state.acc == BlockWritten(parse, show, st.acc, m, n, i, j)
  {
    PairSteps(f, parse, show, n, st, m, i, j);
    PairReadState(parse, show, n, st, m, i, j);
  }

  // ---------------------------------------------------------------- all pairs

  /** Atom pair `(x / 3, y / 3)` comes at or after pair `(i, j)` in row-major order. */
  predicate AtOrAfter(x: int, y: int, i: int, j: int)
  {
    x >= 3 * i + 3 || (x >= 3 * i && y >= 3 * j)
  }

  /** Entry `(x, y)` lies in the 3 x 3 block of atoms `(i, j)`. */
  predicate InBlock(x: int, y: int, i: int, j: int)
  {
    3 * i <= x < 3 * i + 3 && 3 * j <= y < 3 * j + 3
  }

  /** `acc` after `write(acc, i, j)` for every pair from `(i, j)` on, in row-major order. */
  function ApplyPairs(write: (Matrix, nat, nat) -> Matrix, acc: Matrix, n: nat, i: nat, j: nat): Matrix
    requires i <= n && j <= n
    decreases n - i, n - j
  {
    if i == n then acc
    else if j == n then ApplyPairs(write, acc, n, i + 1, 0)
    else ApplyPairs(write, write(acc, i, j), n, i, j + 1)
  }

  /** `write(a, i, j)` puts the entries of `v` into block `(i, j)` of a square `a` and changes nothing else. */
  ghost predicate WritesBlocks(write: (Matrix, nat, nat) -> Matrix, n: nat, v: Matrix)
  {
    && Square(v, 3 * n)
    && forall a, i: nat, j: nat {:trigger write(a, i, j)} :: Square(a, 3 * n) && i < n && j < n ==>
         && Square(write(a, i, j), 3 * n)
         && forall x, y :: 0 <= x < 3 * n && 0 <= y < 3 * n ==>
              write(a, i, j)[x][y] == if InBlock(x, y, i, j) then v[x][y] else a[x][y]
  }

  /** Written one after the other, the blocks from `(i, j)` on replace exactly their own entries. */
  lemma {:induction false} AppliedEntries(write: (Matrix, nat, nat) -> Matrix, n: nat, v: Matrix, acc: Matrix, i: nat, j: nat)
    requires WritesBlocks(write, n, v) && Square(acc, 3 * n) && i <= n && j <= n
    ensures var a := ApplyPairs(write, acc, n, i, j);
      && Square(a, 3 * n)
      && forall x, y :: 0 <= x < 3 * n && 0 <= y < 3 * n ==>
           a[x][y] == if AtOrAfter(x, y, i, j) then v[x][y] else acc[x][y]
    decreases n - i, n - j
  {
    if i == n {
    } else if j == n {
      AppliedEntries(write, n, v, acc, i + 1, 0);
    } else {
      AppliedEntries(write, n, v, write(acc, i, j), i, j + 1);
    }
  }

  /** Writing every pair from the first gives `v`, whatever was there before. */
  lemma AllApplied(write: (Matrix, nat, nat) -> Matrix, n: nat, v: Matrix, acc: Matrix)
    requires WritesBlocks(write, n, v) && Square(acc, 3 * n)
    ensures ApplyPairs(write, acc, n, 0, 0) == v
  {
    AppliedEntries(write, n, v, acc, 0, 0);
    SameEntries(ApplyPairs(write, acc, n, 0, 0), v);
  }

  /** Walking the lines of any single pair from a square matrix writes that pair's block. */
  ghost predicate WalksPairs(f: LineReader, n: nat, lines: (nat, nat) -> seq<string>, write: (Matrix, nat, nat) -> Matrix)
  {
    forall st, i: nat, j: nat {:trigger Walk(f, st, lines(i, j))} ::
      MatrixMode(st) && Square(st.acc, 3 * n) && i < n && j < n ==>
        var r := Walk(f, st, lines(i, j));
        && r.Ok? && r.value.Continue? && SameBesidesMatrix(r.value.state, st)
        && r.value.state.acc == write(st.acc, i, j) && Square(r.value.state.acc, 3 * n)
  }

  /** Two walks that continue, one after the other. */
  lemma WalkThen(f: LineReader, st: ScanState, a: seq<string>, b: seq<string>, mid: ScanState, s: ScanState)
    requires Walk(f, st, a) == Ok(Continue(mid)) && Walk(f, mid, b) == Ok(Continue(s))
    ensures Walk(f, st, a + b) == Ok(Continue(s))
  {
    WalkAppend(f, st, a, b, mid);
  }

  /** Pair after pair, the loop's lines are read back as the blocks written in the loop's order. */
  lemma {:induction false} ChainWalk(f: LineReader, n: nat, st: ScanState, lines: (nat, nat) -> seq<string>,
                                     write: (Matrix, nat, nat) -> Matrix, i: nat, j: nat)
    requires WalksPairs(f, n, lines, write)
    requires MatrixMode(st) && Square(st.acc, 3 * n) && i <= n && j <= n
    ensures var r := Walk(f, st, RowMajor(lines, n, i, j));
      && r.Ok? && r.value.Continue? && SameBesidesMatrix(r.value.state, st)
      && r.value.state.acc == ApplyPairs(write, st.acc, n, i, j)
    decreases n - i, n - j
  {
    if i == n {
    } else if j == n {
      ChainWalk(f, n, st, lines, write, i + 1, 0);
    } else {
      var s1 := Walk(f, st, lines(i, j)).value.state;
      ChainWalk(f, n, s1, lines, write, i, j + 1);
      var s := Walk(f, s1, RowMajor(lines, n, i, j + 1)).value.state;
      WalkThen(f, st, lines(i, j), RowMajor(lines, n, i, j + 1), s1, s);
    }
  }

  /** `BlockWritten` for square matrices and pairs that exist. */
  function BlockWriter(parse: string -> Option<real>, show: real -> string, m: Matrix, n: nat): (Matrix, nat, nat) -> Matrix
    requires Codec(parse, show) && Covers(m, 3 * n)
  {
    (a: Matrix, i: nat, j: nat) => if Square(a, 3 * n) && i < n && j < n then BlockWritten(parse, show, a, m, n, i, j) else a
  }

  /** Each block write puts the entries of `m` after one trip into its block. */
  lemma BlockWriterWrites(parse: string -> Option<real>, show: real -> string, m: Matrix, n: nat)
    requires Codec(parse, show) && Covers(m, 3 * n)
    ensures WritesBlocks(BlockWriter(parse, show, m, n), n, RM(parse, show, m, 3 * n))
  {
    var write := BlockWriter(parse, show, m, n);
    var v := RM(parse, show, m, 3 * n);
    forall a, i: nat, j: nat | Square(a, 3 * n) && i < n && j < n
      ensures && Square(write(a, i, j), 3 * n)
              && forall x, y :: 0 <= x < 3 * n && 0 <= y < 3 * n ==>
                   write(a, i, j)[x][y] == if InBlock(x, y, i, j) then v[x][y] else a[x][y]
    {
      BlockWrittenEntries(parse, show, a, m, n, i, j);
    }
  }

  /** One pair's lines, taken from the pair loop's source, write that pair's block. */
  lemma PairSourceWalk(f: LineReader, parse: string -> Option<real>, show: real -> string, n: nat, m: Matrix,
                       st: ScanState, i: nat, j: nat)
    requires ReadsPairs(f) && ReadsRows(f, parse, show)
    requires MatrixMode(st) && Covers(m, 3 * n) && Square(st.acc, 3 * n) && i < n && j < n
    ensures var r := Walk(f, st, PairSource(show, n, m)(i, j));
      && r.Ok? && r.value.Continue? && SameBesidesMatrix(r.value.state, st)
      && r.value.state.acc == BlockWriter(parse, show, m, n)(st.acc, i, j) && Square(r.value.state.acc, 3 * n)
  {
    WalkPair(f, parse, show, n, st, m, i, j);
  }

  /** Under the reader's laws, the lines of each pair write that pair's block. */
  lemma PairSourceWalks(f: LineReader, parse: string -> Option<real>, show: real -> string, n: nat, m: Matrix)
    requires ReadsPairs(f) && ReadsRows(f, parse, show) && Covers(m, 3 * n)
    ensures WalksPairs(f, n, PairSource(show, n, m), BlockWriter(parse, show, m, n))
  {
    forall st, i: nat, j: nat {:trigger Walk(f, st, PairSource(show, n, m)(i, j))}
      | MatrixMode(st) && Square(st.acc, 3 * n) && i < n && j < n
      ensures var r := Walk(f, st, PairSource(show, n, m)(i, j));
        && r.Ok? && r.value.Continue? && SameBesidesMatrix(r.value.state, st)
        && r.value.state.acc == BlockWriter(parse, show, m, n)(st.acc, i, j) && Square(r.value.state.acc, 3 * n)
    {
      PairSourceWalk(f, parse, show, n, m, st, i, j);
    }
  }

  /** The pair lines of `save_qe` are read back as the matrix after one trip; only the matrix and its cursor change. */
  lemma PairsWalk(f: LineReader, parse: string -> Option<real>, show: real -> string, n: nat, st: ScanState, m: Matrix)
    requires ReadsPairs(f) && ReadsRows(f, parse, show)
    requires MatrixMode(st) && Covers(m, 3 * n) && Square(st.acc, 3 * n)
    ensures var r := Walk(f, st, PairsText(show, n, m));
      && r.Ok? && r.value.Continue? && SameBesidesMatrix(r.value.state, st)
      && r.value.state.acc == RM(parse, show, m, 3 * n)
  {
    var write := BlockWriter(parse, show, m, n);
    PairSourceWalks(f, parse, show, n, m);
    ChainWalk(f, n, st, PairSource(show, n, m), write, 0, 0);
    BlockWriterWrites(parse, show, m, n);
    AllApplied(write, n, RM(parse, show, m, 3 * n), st.acc);
  }
}

=== FILE: container.dfy ===
/**
 * The in-memory dynamical-matrix set (the `Phonons` class) and the atomic
 * structure it owns, as immutable values.
 */
module Container {
  import opened Results

  /** One Rydberg-atomic-unit length in Angstrom, as the reader uses it. */
  const BohrToAngstrom: real := 0.52918
  /** One Angstrom in Bohr, as the writer and the energy routine use it. */
  const AngstromToBohr: real := 1.889725989

  datatype Complex = Complex(re: real, im: real)

  const ComplexZero := Complex(0.0, 0.0)

  /** A 3N x 3N complex matrix, stored row by row. */
  type Matrix = seq<seq<Complex>>

  type Vector = seq<real>

  predicate Square(m: Matrix, n: nat)
  {
    |m| == n && forall r :: 0 <= r < n ==> |m[r]| == n
  }

  /** `np.zeros((n, n), dtype=complex)`. */
  function ZeroMatrix(n: nat): (m: Matrix)
    ensures Square(m, n)
    ensures forall r, c :: 0 <= r < n && 0 <= c < n ==> m[r][c] == ComplexZero
  {
    seq(n, _ => seq(n, _ => ComplexZero))
  }

  /** `np.zeros((rows, cols))`. */
  function ZeroTable(rows: nat, cols: nat): (t: seq<Vector>)
    ensures |t| == rows && forall r :: 0 <= r < rows ==> t[r] == seq(cols, _ => 0.0)
  {
    seq(rows, _ => seq(cols, _ => 0.0))
  }

  /** `np.zeros((a, b, c))`. */
  function ZeroBlock(a: nat, b: nat, c: nat): (t: seq<seq<Vector>>)
    ensures |t| == a && forall i :: 0 <= i < a ==> t[i] == ZeroTable(b, c)
  {
    seq(a, _ => ZeroTable(b, c))
  }

  /** `m[r, c] = v`. */
  function SetEntry(m: Matrix, r: nat, c: nat, v: Complex): (m': Matrix)
    requires r < |m| && c < |m[r]|
    ensures |m'| == |m| && forall k :: 0 <= k < |m| ==> |m'[k]| == |m[k]|
    ensures m'[r][c] == v
    ensures forall a, b :: 0 <= a < |m| && 0 <= b < |m[a]| && (a, b) != (r, c) ==> m'[a][b] == m[a][b]
  {
    m[r := m[r][c := v]]
  }

  /**
   * Python/numpy indexing of an axis of length `n`: negative indices count
   * from the end, anything else out of range raises IndexError.
   */
  function PyIndex(i: int, n: nat): (r: Option<nat>)
    ensures r.Some? <==> -(n as int) <= i < n
    ensures r.Some? ==> r.value < n && r.value as int == (if i < 0 then i + n else i)
  {
    if 0 <= i < n then Some(i) else if -(n as int) <= i < 0 then Some(i + n) else None
  }

  /**
   * The atomic structure, an external collaborator of which only the fields
   * the dynamical-matrix code reads and writes appear here.
   */
  datatype Structure = Structure(
    nAtoms: int,
    atoms: seq<string>,           // species label of each atom
    coords: seq<Vector>,          // Angstrom
    cell: seq<Vector>,            // unit-cell rows, Angstrom
    masses: map<string, real>)    // species label -> mass

  /** The fields `Structure.Structure()` starts with. */
  const EmptyStructure := Structure(0, [], [], [], map[])

  /** The invariants the structure class keeps: one label and one 3-vector per atom, a 3 x 3 cell. */
  predicate WellFormed(s: Structure)
  {
    && s.nAtoms >= 0
    && |s.atoms| == s.nAtoms
    && |s.coords| == s.nAtoms
    && (forall i :: 0 <= i < |s.coords| ==> |s.coords[i]| == 3)
    && |s.cell| == 3
    && (forall i :: 0 <= i < 3 ==> |s.cell[i]| == 3)
  }

  /** Every label has a mass: otherwise `masses[label]` raises KeyError. */
  predicate MassesKnown(s: Structure)
  {
    forall i :: 0 <= i < |s.atoms| ==> s.atoms[i] in s.masses
  }

  /** The `Phonons` object. */
  datatype Phonons = Phonons(
    structure: Structure,
    alat: real,                           // lattice parameter, Angstrom
    nqirr: int,                           // number of irreducible q points
    dynmats: seq<Matrix>,                 // one matrix per q point read, in file order
    qTot: seq<Vector>,                    // every q point read, in file order
    qStars: seq<seq<Vector>>,             // the q points of each irreducible star
    dielectric: Option<seq<Vector>>,      // 3 x 3
    effective: Option<seq<seq<Vector>>>,  // N x 3 x 3
    raman: Option<seq<seq<Vector>>>,      // 3 x 3 x 3N
    initialized: bool)

  /** The object `Phonons(path, nqirr)` creates before it loads the files. */
  function Init(nqirr: int): Phonons
  {
    Phonons(EmptyStructure, 1.0, nqirr, [], [], [], None, None, None, false)
  }

  /** The exceptions the modelled code raises. */
  datatype Error =
    | NonPositiveQCount        // ValueError: nqirr <= 0
    | FullNameWithSupercell    // ValueError: full_name with nqirr > 1
    | MissingFile(path: string)  // ValueError: the file does not exist
    | BadValue                 // ValueError: int()/float() of a bad token, shape mismatch
    | BadIndex                 // IndexError: a missing line, token or array entry
    | UnknownKey               // KeyError: a species index or label not in a dict
    | NoneTensor               // TypeError: item assignment into None

  function Concat<T>(ss: seq<seq<T>>): (r: seq<T>)
    decreases |ss|
  {
    if |ss| == 0 then [] else Concat(ss[..|ss| - 1]) + ss[|ss| - 1]
  }

  lemma ConcatSnoc<T>(ss: seq<seq<T>>, s: seq<T>)
    ensures Concat(ss + [s]) == Concat(ss) + s
  {
    assert (ss + [s])[..|ss|] == ss;
  }

  lemma {:induction false} ConcatAppend<T>(a: seq<seq<T>>, b: seq<seq<T>>)
    ensures Concat(a + b) == Concat(a) + Concat(b)
    decreases |b|
  {
    if |b| == 0 {
      assert a + b == a;
    } else {
      var b' := b[..|b| - 1];
      assert a + b == (a + b') + [b[|b| - 1]];
      ConcatSnoc(a + b', b[|b| - 1]);
      ConcatAppend(a, b');
      ConcatSnoc(b', b[|b| - 1]);
      assert b' + [b[|b| - 1]] == b;
    }
  }

  lemma {:induction false} ConcatLength<T>(ss: seq<seq<T>>)
    ensures |Concat(ss)| == Total(ss)
    decreases |ss|
  {
    if |ss| > 0 {
      ConcatLength(ss[..|ss| - 1]);
    }
  }

  /** Sum of the lengths. */
  function Total<T>(ss: seq<seq<T>>): nat
    decreases |ss|
  {
    if |ss| == 0 then 0 else Total(ss[..|ss| - 1]) + |ss[|ss| - 1]|
  }
}

=== FILE: fileread.dfy ===
/**
 * Reading back the matrix part of a file `save_qe` wrote: after the header,
 * the blocks of every member of the star and the trailer are read by the
 * block loop as one star, each q point appended to `q_tot` and each matrix
 * stored, every number passed once through its format and the parser.
 */
module FileRead {
  import opened Results
  import opened Text
  import opened Container
  import opened Loader
  import opened Saver
  import opened RoundTrip
  import opened BlockRead
  import opened StarRead

  // ---------------------------------------------------------------- the star's lines

  /** Every member has a q point of three components and a matrix covering 3N x 3N. */
  predicate StarCovered(star: seq<Vector>, dynmats: seq<Matrix>, first: nat, n: nat)
  {
    forall jq :: 0 <= jq < |star| ==> |star[jq]| >= 3 && Covers(StarMatrix(dynmats, first, jq), 3 * n)
  }

  /** A star `save_qe` can write is covered: without atoms every matrix covers the empty corner. */
  lemma WritableCovered(star: seq<Vector>, dynmats: seq<Matrix>, first: nat, n: nat)
    requires StarWritable(star, dynmats, first, n)
    ensures StarCovered(star, dynmats, first, n)
  {
    forall jq | 0 <= jq < |star|
      ensures Covers(StarMatrix(dynmats, first, jq), 3 * n)
    {
      if n == 0 {
        assert Covers(StarMatrix(dynmats, first, jq), 0);
      } else {
        assert |star[jq]| >= 3;
      }
    }
  }

  /** `strip()` part by part. */
  lemma {:induction false} StripBlocks(raw: nat -> seq<string>, clean: nat -> seq<string>, count: nat)
    requires forall j :: 0 <= j < count ==> StripAll(raw(j)) == clean(j)
    ensures StripAll(Blocks(raw, count)) == Blocks(clean, count)
    decreases count
  {
    if count > 0 {
      StripBlocks(raw, clean, count - 1);
      StripAllAppend(Blocks(raw, count - 1), raw(count - 1));
    }
  }

  /**
   * Parts 0 .. count - 1 with the first part's opening lines left out: `body(0)`
   * stands for part 0 without them.
   */
  function Tail(body: nat -> seq<string>, part: nat -> seq<string>, count: nat): seq<string>
    requires count >= 1
    decreases count
  {
    if count == 1 then body(0) else Tail(body, part, count - 1) + part(count - 1)
  }

  lemma {:induction false} BlocksTail(open: seq<string>, body: nat -> seq<string>, part: nat -> seq<string>, count: nat)
    requires count >= 1 && part(0) == open + body(0)
    ensures Blocks(part, count) == open + Tail(body, part, count)
    decreases count
  {
    if count == 1 {
      assert Blocks(part, 1) == Blocks(part, 0) + part(0);
    } else {
      BlocksTail(open, body, part, count - 1);
    }
  }

  /** The block of member j after `strip()`. */
  function Cleaned(fmt: Formats, n: nat, star: seq<Vector>, dynmats: seq<Matrix>, first: nat): nat -> seq<string>
  {
    (j: nat) => if j < |star| && |star[j]| >= 3 && Covers(StarMatrix(dynmats, first, j), 3 * n)
                then Stripped(fmt, n, star[j], StarMatrix(dynmats, first, j)) else []
  }

  /** The block of member j after `strip()`, from the blank line before its q line on. */
  function Bodies(fmt: Formats, n: nat, star: seq<Vector>, dynmats: seq<Matrix>, first: nat): nat -> seq<string>
  {
    (j: nat) => if j < |star| && |star[j]| >= 3 && Covers(StarMatrix(dynmats, first, j), 3 * n)
                then Body(fmt, n, star[j], StarMatrix(dynmats, first, j)) else []
  }

  lemma CleanedBlocks(parse: string -> Option<real>, fmt: Formats, n: nat, star: seq<Vector>, dynmats: seq<Matrix>, first: nat)
    requires Codec(parse, fmt.fixed8)
    ensures forall j :: 0 <= j < |star| ==>
      StripAll(MemberBlock(fmt, n, star, dynmats, first)(j)) == Cleaned(fmt, n, star, dynmats, first)(j)
  {
    forall j | 0 <= j < |star|
      ensures StripAll(MemberBlock(fmt, n, star, dynmats, first)(j)) == Cleaned(fmt, n, star, dynmats, first)(j)
    {
      if |star[j]| >= 3 && Covers(StarMatrix(dynmats, first, j), 3 * n) {
        BlockStrip(parse, fmt, n, star[j], StarMatrix(dynmats, first, j));
      }
    }
  }

  lemma CleanedOpen(fmt: Formats, n: nat, star: seq<Vector>, dynmats: seq<Matrix>, first: nat)
    requires 1 <= |star| && StarCovered(star, dynmats, first, n)
    ensures Cleaned(fmt, n, star, dynmats, first)(0) == ["", BlockTitleText] + Bodies(fmt, n, star, dynmats, first)(0)
  {
    assert |star[0]| >= 3 && Covers(StarMatrix(dynmats, first, 0), 3 * n);
  }

  /**
   * `strip()` of the written star: a blank line, the first title, then the
   * rest of the first block and every later block whole.
   */
  lemma StarTextStrip(parse: string -> Option<real>, fmt: Formats, n: nat, star: seq<Vector>, dynmats: seq<Matrix>, first: nat)
    requires Codec(parse, fmt.fixed8) && 1 <= |star| && StarCovered(star, dynmats, first, n)
    ensures StripAll(StarText(fmt, n, star, dynmats, first))
         == ["", BlockTitleText] + Tail(Bodies(fmt, n, star, dynmats, first), Cleaned(fmt, n, star, dynmats, first), |star|)
  {
    CleanedBlocks(parse, fmt, n, star, dynmats, first);
    StripBlocks(MemberBlock(fmt, n, star, dynmats, first), Cleaned(fmt, n, star, dynmats, first), |star|);
    CleanedOpen(fmt, n, star, dynmats, first);
    BlocksTail(["", BlockTitleText], Bodies(fmt, n, star, dynmats, first), Cleaned(fmt, n, star, dynmats, first), |star|);
  }

  // ---------------------------------------------------------------- walking a star

  /** `st` after a q line that reads as `p`: appended to the star and to `q_tot`, the auxiliary flags down. */
  function WithPoint(st: ScanState, p: Vector): ScanState
  {
    st.(star := st.star + [p], qTot := st.qTot + [p], readingDielectric := false, readingEffective := false, readingRaman := false)
  }

  /**
   * From any state holding a d x d matrix, `lines` walk on to a state that
   * holds `m` and has `p` appended; a later member (`later`) first stores the
   * matrix read so far.
   */
  ghost predicate ReadsMember(f: LineReader, lines: seq<string>, d: nat, later: bool, p: Vector, m: Matrix)
  {
    forall s: ScanState {:trigger Walk(f, s, lines)} :: Square(s.acc, d) ==>
      && Walk(f, s, lines).Ok? && Walk(f, s, lines).value.Continue?
      && Walk(f, s, lines).value.state.acc == m
      && Rest(Walk(f, s, lines).value.state) == Rest(WithPoint(if later then Stored(s) else s, p))
  }

  /**
   * The state, but for the matrix being read, after members 0 .. count - 1:
   * their points appended to the star and to `q_tot`, the matrices of all but
   * the last stored.
   */
  function AfterMembers(st: ScanState, points: seq<Vector>, mats: seq<Matrix>, count: nat): ScanState
    requires 1 <= count <= |points| && count <= |mats|
  {
    st.(star := st.star + points[..count], qTot := st.qTot + points[..count], dynmats := st.dynmats + mats[..count - 1],
        readingDielectric := false, readingEffective := false, readingRaman := false)
  }

  /** Members read one after another add up to `AfterMembers`, holding the last member's matrix. */
  lemma {:induction false} TailWalk(f: LineReader, body: nat -> seq<string>, part: nat -> seq<string>, d: nat, st: ScanState,
                                    points: seq<Vector>, mats: seq<Matrix>, count: nat)
    requires 1 <= count <= |points| && count <= |mats| && Square(st.acc, d)
    requires forall j :: 0 <= j < count ==> Square(mats[j], d)
    requires ReadsMember(f, body(0), d, false, points[0], mats[0])
    requires forall j :: 1 <= j < count ==> ReadsMember(f, part(j), d, true, points[j], mats[j])
    ensures var r := Walk(f, st, Tail(body, part, count));
      && r.Ok? && r.value.Continue? && r.value.state.acc == mats[count - 1]
      && Rest(r.value.state) == Rest(AfterMembers(st, points, mats, count))
    decreases count
  {
    if count == 1 {
      var r := Walk(f, st, body(0));
      assert points[..1] == [points[0]] && mats[..0] == [];
    } else {
      var c := count - 1;
      TailWalk(f, body, part, d, st, points, mats, c);
      var s := Walk(f, st, Tail(body, part, c)).value.state;
      assert Square(s.acc, d);
      var r := Walk(f, s, part(c));
      WalkAppend(f, st, Tail(body, part, c), part(c), s);
      assert points[..count] == points[..c] + [points[c]];
      assert mats[..c] == mats[..c - 1] + [mats[c - 1]];
    }
  }

  // ---------------------------------------------------------------- what the star reads as

  /** The q points of the star's members after one trip. */
  function StarPoints(parse: string -> Option<real>, fmt: Formats, star: seq<Vector>): (r: seq<Vector>)
    requires Codec(parse, fmt.fixed9) && forall j :: 0 <= j < |star| ==> |star[j]| >= 3
    ensures |r| == |star|
    ensures forall j :: 0 <= j < |star| ==> r[j] == RQ(parse, fmt.fixed9, star[j])
  {
    seq(|star|, j requires 0 <= j < |star| => RQ(parse, fmt.fixed9, star[j]))
  }

  /** The matrices of the star's members after one trip, cut to 3N x 3N. */
  function StarMatrices(parse: string -> Option<real>, fmt: Formats, n: nat, star: seq<Vector>, dynmats: seq<Matrix>, first: nat)
    : (r: seq<Matrix>)
    requires Codec(parse, fmt.fixed8) && StarCovered(star, dynmats, first, n)
    ensures |r| == |star|
    ensures forall j :: 0 <= j < |star| ==> r[j] == RM(parse, fmt.fixed8, StarMatrix(dynmats, first, j), 3 * n)
  {
    seq(|star|, j requires 0 <= j < |star| => RM(parse, fmt.fixed8, StarMatrix(dynmats, first, j), 3 * n))
  }

  /** A first block's body reads as its point and matrix after one trip. */
  lemma BodyReads(f: LineReader, parse: string -> Option<real>, fmt: Formats, n: nat, q: Vector, m: Matrix)
    requires Laws(f, parse, fmt) && |q| >= 3 && Covers(m, 3 * n)
    ensures ReadsMember(f, Body(fmt, n, q, m), 3 * n, false, RQ(parse, fmt.fixed9, q), RM(parse, fmt.fixed8, m, 3 * n))
  {
    forall s: ScanState | Square(s.acc, 3 * n)
      ensures var r := Walk(f, s, Body(fmt, n, q, m));
        && r.Ok? && r.value.Continue? && r.value.state.acc == RM(parse, fmt.fixed8, m, 3 * n)
        && Rest(r.value.state) == Rest(WithPoint(s, RQ(parse, fmt.fixed9, q)))
    {
      BodyWalk(f, parse, fmt, n, s, q, m);
    }
  }

  /** A later block stores the matrix read so far, then reads as its point and matrix after one trip. */
  lemma StrippedReads(f: LineReader, parse: string -> Option<real>, fmt: Formats, n: nat, q: Vector, m: Matrix)
    requires Laws(f, parse, fmt) && |q| >= 3 && Covers(m, 3 * n)
    ensures ReadsMember(f, Stripped(fmt, n, q, m), 3 * n, true, RQ(parse, fmt.fixed9, q), RM(parse, fmt.fixed8, m, 3 * n))
  {
    forall s: ScanState | Square(s.acc, 3 * n)
      ensures var r := Walk(f, s, Stripped(fmt, n, q, m));
        && r.Ok? && r.value.Continue? && r.value.state.acc == RM(parse, fmt.fixed8, m, 3 * n)
        && Rest(r.value.state) == Rest(WithPoint(Stored(s), RQ(parse, fmt.fixed9, q)))
    {
      BlockWalk(f, parse, fmt, n, s, q, m);
    }
  }

  /** Member j's lines read as its point and matrix after one trip. */
  lemma MemberRead(f: LineReader, parse: string -> Option<real>, fmt: Formats, n: nat, star: seq<Vector>, dynmats: seq<Matrix>,
                   first: nat, j: nat)
    requires Laws(f, parse, fmt) && StarCovered(star, dynmats, first, n) && j < |star|
    ensures ReadsMember(f, Bodies(fmt, n, star, dynmats, first)(j), 3 * n, false,
                        RQ(parse, fmt.fixed9, star[j]), RM(parse, fmt.fixed8, StarMatrix(dynmats, first, j), 3 * n))
    ensures ReadsMember(f, Cleaned(fmt, n, star, dynmats, first)(j), 3 * n, true,
                        RQ(parse, fmt.fixed9, star[j]), RM(parse, fmt.fixed8, StarMatrix(dynmats, first, j), 3 * n))
  {
    var q, m := star[j], StarMatrix(dynmats, first, j);
    assert |q| >= 3 && Covers(m, 3 * n);
    BodyReads(f, parse, fmt, n, q, m);
    StrippedReads(f, parse, fmt, n, q, m);
  }

  /**
   * The block loop walks the star's lines, after the first title, to the state
   * with every point appended and every matrix but the last stored, holding
   * the last matrix after one trip.
   */
  lemma StarWalk(f: LineReader, parse: string -> Option<real>, fmt: Formats, n: nat, st: ScanState,
                 star: seq<Vector>, dynmats: seq<Matrix>, first: nat)
    requires Laws(f, parse, fmt) && Square(st.acc, 3 * n) && 1 <= |star| && StarCovered(star, dynmats, first, n)
    ensures var r := Walk(f, st, Tail(Bodies(fmt, n, star, dynmats, first), Cleaned(fmt, n, star, dynmats, first), |star|));
      && r.Ok? && r.value.Continue?
      && r.value.state.acc == RM(parse, fmt.fixed8, StarMatrix(dynmats, first, |star| - 1), 3 * n)
      && Rest(r.value.state)
         == Rest(AfterMembers(st, StarPoints(parse, fmt, star), StarMatrices(parse, fmt, n, star, dynmats, first), |star|))
  {
    MembersRead(f, parse, fmt, n, star, dynmats, first);
    TailWalk(f, Bodies(fmt, n, star, dynmats, first), Cleaned(fmt, n, star, dynmats, first), 3 * n, st,
             StarPoints(parse, fmt, star), StarMatrices(parse, fmt, n, star, dynmats, first), |star|);
  }

  /** Every member's lines read as its point and matrix after one trip. */
  lemma MembersRead(f: LineReader, parse: string -> Option<real>, fmt: Formats, n: nat, star: seq<Vector>, dynmats: seq<Matrix>,
                 first: nat)
    requires Laws(f, parse, fmt) && 1 <= |star| && StarCovered(star, dynmats, first, n)
    ensures var points, mats := StarPoints(parse, fmt, star), StarMatrices(parse, fmt, n, star, dynmats, first);
      && (forall j :: 0 <= j < |star| ==> Square(mats[j], 3 * n))
      && ReadsMember(f, Bodies(fmt, n, star, dynmats, first)(0), 3 * n, false, points[0], mats[0])
      && forall j :: 1 <= j < |star| ==> ReadsMember(f, Cleaned(fmt, n, star, dynmats, first)(j), 3 * n, true, points[j], mats[j])
  {
    MemberRead(f, parse, fmt, n, star, dynmats, first, 0);
    forall j | 1 <= j < |star|
      ensures ReadsMember(f, Cleaned(fmt, n, star, dynmats, first)(j), 3 * n, true,
                          StarPoints(parse, fmt, star)[j], StarMatrices(parse, fmt, n, star, dynmats, first)[j])
    {
      MemberRead(f, parse, fmt, n, star, dynmats, first, j);
    }
  }

  // ---------------------------------------------------------------- one file

  lemma AxesInTitle()
    ensures Contains(BlockTitleText, CartesianAxes) && !Contains("", CartesianAxes)
  {
    forall i | 0 <= i < 14
      ensures BlockTitleText[20..34][i] == CartesianAxes[i]
    {
    }
    assert Occurs(BlockTitleText, CartesianAxes, 20);
  }

  /** Lines without "cartesian axes" are passed over. */
  lemma {:induction false} SkipPast(head: seq<string>, rest: seq<string>)
    requires forall k :: 0 <= k < |head| ==> !Contains(head[k], CartesianAxes)
    ensures SkipToMatrix(head + rest) == SkipToMatrix(rest)
    decreases |head|
  {
    if |head| > 0 {
      assert (head + rest)[0] == head[0];
      assert (head + rest)[1..] == head[1..] + rest;
      SkipPast(head[1..], rest);
    } else {
      assert head + rest == rest;
    }
  }

  /** The first block's blank line is passed and its title ends the search. */
  lemma SkipTitle(rest: seq<string>)
    ensures SkipToMatrix(["", BlockTitleText] + rest) == Ok(rest)
  {
    var lines := ["", BlockTitleText] + rest;
    AxesInTitle();
    assert lines[0] == "";
    assert lines[1..] == [BlockTitleText] + rest;
    assert ([BlockTitleText] + rest)[0] == BlockTitleText;
    assert ([BlockTitleText] + rest)[1..] == rest;
  }

  /** The search for "cartesian axes" passes a header without it and stops at the first block's title. */
  lemma SkipHeader(head: seq<string>, rest: seq<string>)
    requires forall k :: 0 <= k < |head| ==> !Contains(head[k], CartesianAxes)
    ensures SkipToMatrix(head + (["", BlockTitleText] + rest)) == Ok(rest)
  {
    SkipPast(head, ["", BlockTitleText] + rest);
    SkipTitle(rest);
  }

  /** The trailer's blank line passes, its title stores the last matrix and ends the block loop. */
  lemma TrailerScan(parse: string -> Option<real>, fmt: Formats, n: nat, st: ScanState, q: Vector)
    requires |q| >= 3
    ensures Scan(parse, n, st, StripAll(TrailerText(fmt, q))) == Ok(st.(dynmats := st.dynmats + [st.acc]))
  {
    var lines := StripAll(TrailerText(fmt, q));
    assert Strip("") == "";
    StepBlank(parse, n, st);
    StepDiagTitle(parse, n, st);
    assert lines[0] == "" && lines[1] == Strip(DiagTitle);
    ScanStop(parse, n, st, lines[1], lines[2..], st.(dynmats := st.dynmats + [st.acc]));
    assert lines[1..] == [lines[1]] + lines[2..];
  }

  /**
   * From the first block's title on, the block loop reads the star and stops
   * at the trailer: every point appended to the star and to `q_tot`, every
   * matrix after one trip stored, the auxiliary tensors untouched.
   */
  lemma StarScan(parse: string -> Option<real>, fmt: Formats, n: nat, st: ScanState, star: seq<Vector>, dynmats: seq<Matrix>,
                 first: nat, q: Vector)
    requires Codec(parse, fmt.fixed8) && Codec(parse, fmt.fixed9)
    requires Square(st.acc, 3 * n) && 1 <= |star| && StarCovered(star, dynmats, first, n) && |q| >= 3
    ensures var r := Scan(parse, n, st, Tail(Bodies(fmt, n, star, dynmats, first), Cleaned(fmt, n, star, dynmats, first), |star|)
                                         + StripAll(TrailerText(fmt, q)));
      && r.Ok?
      && r.value.star == st.star + StarPoints(parse, fmt, star)
      && r.value.qTot == st.qTot + StarPoints(parse, fmt, star)
      && r.value.dynmats == st.dynmats + StarMatrices(parse, fmt, n, star, dynmats, first)
      && r.value.dielectric == st.dielectric && r.value.effective == st.effective && r.value.raman == st.raman
  {
    var tail := Tail(Bodies(fmt, n, star, dynmats, first), Cleaned(fmt, n, star, dynmats, first), |star|);
    var mats := StarMatrices(parse, fmt, n, star, dynmats, first);
    ReaderWalksStar(parse, fmt, n, st, star, dynmats, first);
    var mid := Walk(Reader(parse, n), st, tail).value.state;
    ScanAfterWalk(parse, n, st, tail, StripAll(TrailerText(fmt, q)), mid);
    TrailerScan(parse, fmt, n, mid, q);
    AfterAll(st, mid, StarPoints(parse, fmt, star), mats, |star|);
  }

  /** Once every member is read, storing the last matrix leaves all of them stored. */
  lemma AfterAll(st: ScanState, mid: ScanState, points: seq<Vector>, mats: seq<Matrix>, count: nat)
    requires 1 <= count == |points| == |mats|
    requires Rest(mid) == Rest(AfterMembers(st, points, mats, count)) && mid.acc == mats[count - 1]
    ensures mid.star == st.star + points && mid.qTot == st.qTot + points && mid.dynmats + [mid.acc] == st.dynmats + mats
    ensures mid.dielectric == st.dielectric && mid.effective == st.effective && mid.raman == st.raman
  {
    assert mats == mats[..count - 1] + [mats[count - 1]];
    assert points[..count] == points;
  }

  /** The block loop's own step walks the star as `StarWalk` says. */
  lemma ReaderWalksStar(parse: string -> Option<real>, fmt: Formats, n: nat, st: ScanState, star: seq<Vector>, dynmats: seq<Matrix>,
                        first: nat)
    requires Codec(parse, fmt.fixed8) && Codec(parse, fmt.fixed9)
    requires Square(st.acc, 3 * n) && 1 <= |star| && StarCovered(star, dynmats, first, n)
    ensures var r := Walk(Reader(parse, n), st, Tail(Bodies(fmt, n, star, dynmats, first), Cleaned(fmt, n, star, dynmats, first), |star|));
      && r.Ok? && r.value.Continue?
      && r.value.state.acc == RM(parse, fmt.fixed8, StarMatrix(dynmats, first, |star| - 1), 3 * n)
      && Rest(r.value.state)
         == Rest(AfterMembers(st, StarPoints(parse, fmt, star), StarMatrices(parse, fmt, n, star, dynmats, first), |star|))
  {
    ReaderLaws(parse, fmt, n);
    StarWalk(Reader(parse, n), parse, fmt, n, st, star, dynmats, first);
  }
}

=== FILE: harmonic.dfy ===
/**
 * The harmonic energy and forces of a displaced structure (`get_energy_forces`)
 * and the compatibility test between two dynamical-matrix sets.
 *
 * The displacement itself comes from `Structure.get_displacement`, which is
 * not part of this model: it enters as the N x 3 array that call returns.
 */
module Harmonic {
  import opened Results
  import opened Container

  /** The scalar product of two real vectors of equal length. */
  function RDot(a: seq<real>, b: seq<real>): real
    requires |a| == |b|
    decreases |a|
  {
    if |a| == 0 then 0.0 else a[0] * b[0] + RDot(a[1..], b[1..])
  }

  function Re(v: seq<Complex>): (r: seq<real>)
    ensures |r| == |v| && forall k :: 0 <= k < |v| ==> r[k] == v[k].re
  {
    seq(|v|, k requires 0 <= k < |v| => v[k].re)
  }

  function Im(v: seq<Complex>): (r: seq<real>)
    ensures |r| == |v| && forall k :: 0 <= k < |v| ==> r[k] == v[k].im
  {
    seq(|v|, k requires 0 <= k < |v| => v[k].im)
  }

  /** `Phi.dot(r)` for a complex matrix and a real vector. */
  function MatVec(phi: Matrix, r: seq<real>): (y: seq<Complex>)
    requires forall i :: 0 <= i < |phi| ==> |phi[i]| == |r|
    ensures |y| == |phi|
  {
    seq(|phi|, i requires 0 <= i < |phi| => Complex(RDot(Re(phi[i]), r), RDot(Im(phi[i]), r)))
  }

  /** `r.dot(y)` for a real vector and a complex one. */
  function VecDot(r: seq<real>, y: seq<Complex>): Complex
    requires |r| == |y|
  {
    Complex(RDot(r, Re(y)), RDot(r, Im(y)))
  }

  /** `displacement.reshape(N * 3) * A_TO_BOHR`: atom i, axis c goes to entry 3 i + c. */
  function Flatten(u: seq<Vector>): (rv: seq<real>)
    requires forall i :: 0 <= i < |u| ==> |u[i]| == 3
    ensures |rv| == 3 * |u|
    ensures forall i, c :: 0 <= i < |u| && 0 <= c < 3 ==> rv[3 * i + c] == u[i][c] * AngstromToBohr
  {
    seq(3 * |u|, k requires 0 <= k < 3 * |u| => u[k / 3][k % 3] * AngstromToBohr)
  }

  /** The forces as one 3N vector (`vector1d`) or as N rows of three. */
  datatype Forces = Flat(f: seq<Complex>) | PerAtom(rows: seq<seq<Complex>>)

  /** `forces.reshape((N, 3))`. */
  function Rows(f: seq<Complex>, n: nat): (rows: seq<seq<Complex>>)
    requires |f| == 3 * n
    ensures |rows| == n && forall i :: 0 <= i < n ==> |rows[i]| == 3
    ensures forall i, c :: 0 <= i < n && 0 <= c < 3 ==> rows[i][c] == f[3 * i + c]
  {
    seq(n, i requires 0 <= i < n => [f[3 * i], f[3 * i + 1], f[3 * i + 2]])
  }

  /** The matrix of the first q point has 3n columns. */
  predicate Columns(phi: Matrix, w: nat)
  {
    forall i :: 0 <= i < |phi| ==> |phi[i]| == w
  }

  /**
   * `get_energy_forces`, given the displacement `u` that
   * `structure.get_displacement(self.structure)` returns and the atom count
   * `n` of the displaced structure. Shape mismatches raise ValueError, a set
   * without matrices IndexError.
   */
  function EnergyForces(ph: Phonons, n: nat, u: seq<Vector>, vector1d: bool): (r: Result<(Complex, Forces), Error>)
    requires forall i :: 0 <= i < |u| ==> |u[i]| == 3
    ensures r.Err? <==> (|| |u| != n || |ph.dynmats| == 0 || !Columns(ph.dynmats[0], 3 * n)
                         || |ph.dynmats[0]| != 3 * n || (!vector1d && 3 * n != 3 * ph.structure.nAtoms))
    ensures r.Err? ==> r.error == (if |u| == n && |ph.dynmats| == 0 then BadIndex else BadValue)
    ensures r.Ok? ==> (vector1d <==> r.value.1.Flat?)
    ensures r.Ok? && vector1d ==> |r.value.1.f| == 3 * n
    ensures r.Ok? && !vector1d ==> |r.value.1.rows| == n
  {
    if |u| != n then Err(BadValue)
    else
      var rv := Flatten(u);
      if |ph.dynmats| == 0 then Err(BadIndex)
      else
        var phi := ph.dynmats[0];
        if !Columns(phi, 3 * n) || |phi| != 3 * n then Err(BadValue)
        else
          var energy := Energy(phi, rv);
          var forces := FlatForces(phi, rv);
          if vector1d then Ok((energy, Flat(forces)))
          else if 3 * n != 3 * ph.structure.nAtoms then Err(BadValue)
          else Ok((energy, PerAtom(Rows(forces, n))))
  }

  // ---------------------------------------------------------------- scalar-product algebra

  lemma {:induction false} RDotZeroLeft(a: seq<real>, b: seq<real>)
    requires |a| == |b| && forall k :: 0 <= k < |a| ==> a[k] == 0.0
    ensures RDot(a, b) == 0.0
    decreases |a|
  {
    if |a| > 0 {
      RDotZeroLeft(a[1..], b[1..]);
    }
  }

  lemma {:induction false} RDotSymmetric(a: seq<real>, b: seq<real>)
    requires |a| == |b|
    ensures RDot(a, b) == RDot(b, a)
    decreases |a|
  {
    if |a| > 0 {
      RDotSymmetric(a[1..], b[1..]);
    }
  }

  lemma {:induction false} RDotScaleLeft(c: real, a: seq<real>, ca: seq<real>, b: seq<real>)
    requires |a| == |b| == |ca| && forall k :: 0 <= k < |a| ==> ca[k] == c * a[k]
    ensures RDot(ca, b) == c * RDot(a, b)
    decreases |a|
  {
    if |a| > 0 {
      RDotScaleLeft(c, a[1..], ca[1..], b[1..]);
      assert ca[0] * b[0] == c * (a[0] * b[0]);
    }
  }

  lemma {:induction false} RDotAddLeft(a: seq<real>, a': seq<real>, s: seq<real>, b: seq<real>)
    requires |a| == |a'| == |s| == |b| && forall k :: 0 <= k < |a| ==> s[k] == a[k] + a'[k]
    ensures RDot(s, b) == RDot(a, b) + RDot(a', b)
    decreases |a|
  {
    if |a| > 0 {
      RDotAddLeft(a[1..], a'[1..], s[1..], b[1..]);
    }
  }

  // ---------------------------------------------------------------- properties of the harmonic model

  /** `0.5 * r.dot(Phi.dot(r))`. */
  function Energy(phi: Matrix, rv: seq<real>): Complex
    requires Columns(phi, |rv|) && |phi| == |rv|
  {
    var half := VecDot(rv, MatVec(phi, rv));
    Complex(0.5 * half.re, 0.5 * half.im)
  }

  /** The flat forces: entry k is A_TO_BOHR times row k of the matrix applied to the displacement. */
  function FlatForces(phi: Matrix, rv: seq<real>): (f: seq<Complex>)
    requires Columns(phi, |rv|)
    ensures |f| == |phi|
  {
    var y := MatVec(phi, rv);
    seq(|phi|, k requires 0 <= k < |phi| => Complex(y[k].re * AngstromToBohr, y[k].im * AngstromToBohr))
  }

  /** On a well-shaped input: the energy and the flat forces of the first matrix. */
  lemma EnergyForcesFlat(ph: Phonons, n: nat, u: seq<Vector>)
    requires forall i :: 0 <= i < |u| ==> |u[i]| == 3
    requires EnergyForces(ph, n, u, true).Ok?
    ensures |u| == n && |ph.dynmats| > 0 && Columns(ph.dynmats[0], 3 * n) && |ph.dynmats[0]| == 3 * n
    ensures EnergyForces(ph, n, u, true).value == (Energy(ph.dynmats[0], Flatten(u)), Flat(FlatForces(ph.dynmats[0], Flatten(u))))
  {
  }

  /**
   * The energy is half the scalar product of the displacement with the
   * forces, the forces brought back from Ry/Angstrom to Ry/Bohr.
   */
  lemma EnergyFromForces(ph: Phonons, n: nat, u: seq<Vector>)
    requires forall i :: 0 <= i < |u| ==> |u[i]| == 3
    requires EnergyForces(ph, n, u, true).Ok?
    ensures var (e, f) := EnergyForces(ph, n, u, true).value;
      && e.re * AngstromToBohr == 0.5 * RDot(Flatten(u), Re(f.f))
      && e.im * AngstromToBohr == 0.5 * RDot(Flatten(u), Im(f.f))
  {
    EnergyForcesFlat(ph, n, u);
    HalfForcesRe(ph.dynmats[0], Flatten(u));
    HalfForcesIm(ph.dynmats[0], Flatten(u));
  }

  lemma HalfForcesRe(phi: Matrix, rv: seq<real>)
    requires Columns(phi, |rv|) && |phi| == |rv|
    ensures Energy(phi, rv).re * AngstromToBohr == 0.5 * RDot(rv, Re(FlatForces(phi, rv)))
  {
    var y := MatVec(phi, rv);
    assert Energy(phi, rv).re == 0.5 * RDot(rv, Re(y));
    HalfPart(Re(y), Re(FlatForces(phi, rv)), rv);
  }

  lemma HalfForcesIm(phi: Matrix, rv: seq<real>)
    requires Columns(phi, |rv|) && |phi| == |rv|
    ensures Energy(phi, rv).im * AngstromToBohr == 0.5 * RDot(rv, Im(FlatForces(phi, rv)))
  {
    var y := MatVec(phi, rv);
    assert Energy(phi, rv).im == 0.5 * RDot(rv, Im(y));
    HalfPart(Im(y), Im(FlatForces(phi, rv)), rv);
  }

  /** One component: scaling the right factor of a scalar product by A_TO_BOHR scales the product. */
  lemma HalfPart(y: seq<real>, f: seq<real>, rv: seq<real>)
    requires |y| == |f| == |rv|
    requires forall k :: 0 <= k < |f| ==> f[k] == y[k] * AngstromToBohr
    ensures 0.5 * RDot(rv, y) * AngstromToBohr == 0.5 * RDot(rv, f)
  {
    RDotScaleLeft(AngstromToBohr, y, f, rv);
    RDotSymmetric(y, rv);
    RDotSymmetric(f, rv);
  }

  /** Without displacement there is neither energy nor force. */
  lemma ZeroDisplacement(ph: Phonons, n: nat, u: seq<Vector>, vector1d: bool)
    requires forall i :: 0 <= i < |u| ==> |u[i]| == 3 && u[i] == [0.0, 0.0, 0.0]
    requires EnergyForces(ph, n, u, vector1d).Ok?
    ensures EnergyForces(ph, n, u, vector1d).value.0 == ComplexZero
    ensures var f := EnergyForces(ph, n, u, vector1d).value.1;
      if vector1d then forall k :: 0 <= k < |f.f| ==> f.f[k] == ComplexZero
      else forall i, c :: 0 <= i < |f.rows| && 0 <= c < |f.rows[i]| ==> f.rows[i][c] == ComplexZero
  {
    var rv := Flatten(u);
    forall k | 0 <= k < |rv|
      ensures rv[k] == 0.0
    {
      assert rv[3 * (k / 3) + k % 3] == u[k / 3][k % 3] * AngstromToBohr;
    }
    var phi := ph.dynmats[0];
    ZeroCore(phi, rv);
  }

  lemma ZeroCore(phi: Matrix, rv: seq<real>)
    requires Columns(phi, |rv|) && |phi| == |rv|
    requires forall k :: 0 <= k < |rv| ==> rv[k] == 0.0
    ensures Energy(phi, rv) == ComplexZero
    ensures forall k :: 0 <= k < |phi| ==> FlatForces(phi, rv)[k] == ComplexZero
  {
    var y := MatVec(phi, rv);
    forall k | 0 <= k < |y|
      ensures y[k] == ComplexZero
    {
      RDotSymmetric(Re(phi[k]), rv);
      RDotSymmetric(Im(phi[k]), rv);
      RDotZeroLeft(rv, Re(phi[k]));
      RDotZeroLeft(rv, Im(phi[k]));
    }
    RDotZeroLeft(rv, Re(y));
    RDotZeroLeft(rv, Im(y));
  }

  /** Reshaping changes only the layout: row i, axis c of the per-atom forces is entry 3 i + c of the flat ones. */
  lemma ReshapedForces(ph: Phonons, n: nat, u: seq<Vector>)
    requires forall i :: 0 <= i < |u| ==> |u[i]| == 3
    requires EnergyForces(ph, n, u, false).Ok?
    ensures EnergyForces(ph, n, u, true).Ok?
    ensures EnergyForces(ph, n, u, false).value.0 == EnergyForces(ph, n, u, true).value.0
    ensures var rows := EnergyForces(ph, n, u, false).value.1.rows;
      var flat := EnergyForces(ph, n, u, true).value.1.f;
      forall i, c :: 0 <= i < n && 0 <= c < 3 ==> rows[i][c] == flat[3 * i + c]
  {
  }

  /** The forces are linear in the displacement. */
  lemma ForcesAdd(ph: Phonons, n: nat, u: seq<Vector>, v: seq<Vector>, w: seq<Vector>)
    requires |u| == |v| == |w|
    requires forall i :: 0 <= i < |u| ==> |u[i]| == 3 && |v[i]| == 3 && |w[i]| == 3
    requires forall i, c :: 0 <= i < |u| && 0 <= c < 3 ==> w[i][c] == u[i][c] + v[i][c]
    requires EnergyForces(ph, n, u, true).Ok?
    ensures EnergyForces(ph, n, v, true).Ok? && EnergyForces(ph, n, w, true).Ok?
    ensures var fu := EnergyForces(ph, n, u, true).value.1.f;
      var fv := EnergyForces(ph, n, v, true).value.1.f;
      var fw := EnergyForces(ph, n, w, true).value.1.f;
      forall k :: 0 <= k < |fw| ==> fw[k] == Complex(fu[k].re + fv[k].re, fu[k].im + fv[k].im)
  {
    var phi := ph.dynmats[0];
    var ru, rv, rw := Flatten(u), Flatten(v), Flatten(w);
    forall k | 0 <= k < |rw|
      ensures rw[k] == ru[k] + rv[k]
    {
      assert rw[3 * (k / 3) + k % 3] == w[k / 3][k % 3] * AngstromToBohr;
      assert ru[3 * (k / 3) + k % 3] == u[k / 3][k % 3] * AngstromToBohr;
      assert rv[3 * (k / 3) + k % 3] == v[k / 3][k % 3] * AngstromToBohr;
    }
    forall k | 0 <= k < |phi|
      ensures RDot(Re(phi[k]), rw) == RDot(Re(phi[k]), ru) + RDot(Re(phi[k]), rv)
      ensures RDot(Im(phi[k]), rw) == RDot(Im(phi[k]), ru) + RDot(Im(phi[k]), rv)
    {
      RowAdd(Re(phi[k]), ru, rv, rw);
      RowAdd(Im(phi[k]), ru, rv, rw);
    }
  }

  lemma RowAdd(row: seq<real>, a: seq<real>, b: seq<real>, s: seq<real>)
    requires |row| == |a| == |b| == |s| && forall k :: 0 <= k < |a| ==> s[k] == a[k] + b[k]
    ensures RDot(row, s) == RDot(row, a) + RDot(row, b)
  {
    RDotAddLeft(a, b, s, row);
    RDotSymmetric(row, s);
    RDotSymmetric(row, a);
    RDotSymmetric(row, b);
  }

  /** `CheckCompatibility`: the same number of atoms and the same number of irreducible q points. */
  function Compatible(a: Phonons, b: Phonons): bool
  {
    a.structure.nAtoms == b.structure.nAtoms && a.nqirr == b.nqirr
  }

  /** Compatibility is an equivalence between dynamical-matrix sets. */
  lemma CompatibleEquivalence(a: Phonons, b: Phonons, c: Phonons)
    ensures Compatible(a, a)
    ensures Compatible(a, b) ==> Compatible(b, a)
    ensures Compatible(a, b) && Compatible(b, c) ==> Compatible(a, c)
  {
  }
}

=== FILE: headerread.dfy ===
/**
 * Reading back the header `save_qe` writes: the loader, given the first
 * file's lines, finds the counts with ibrav 0, the cell rows and positions in
 * units of the lattice parameter it read, the species with their masses and
 * the label of every atom; and none of the header's lines is taken for the
 * start of the matrix blocks.
 */
module HeaderRead {
  import opened Results
  import opened Text
  import opened Container
  import opened Loader
  import opened Saver
  import opened RoundTrip

  /**
   * A label written between quotes and read back unchanged: no quote, no
   * newline (which would split the species line in two when the file is read
   * back line by line), no blanks around it, no "cartesian axes" in it.
   */
  predicate PlainLabel(name: string)
  {
    '\'' !in name && '\n' !in name && Trimmed(name) && !Contains(name, CartesianAxes)
  }

  predicate PlainLabels(s: Structure)
  {
    forall i :: 0 <= i < |s.atoms| ==> PlainLabel(s.atoms[i])
  }

  // ---------------------------------------------------------------- numeric lines

  /** A line of numerals joined by spaces is its own `strip()`, splits into them, and holds no "cartesian axes". */
  lemma NumericLine(ts: seq<string>)
    requires forall k :: 0 <= k < |ts| ==> Numeral(ts[k])
    ensures Strip(Join(ts)) == Join(ts) && Words(Join(ts)) == ts && !Contains(Join(ts), CartesianAxes)
  {
    NumericText(ts);
    JoinNumeralChars(ts);
    NoAxesInNumbers(Join(ts));
  }

  lemma NoAxesInNumbers(s: string)
    requires OnlyChars(s, NumeralChars + {' '})
    ensures !Contains(s, CartesianAxes)
  {
    assert CartesianAxes[0] == 'c' && 'c' !in NumeralChars + {' '};
    AbsentChar(s, NumeralChars + {' '}, CartesianAxes, 0);
  }

  /** The lattice parameter the loader reads: `alat` in Bohr after one trip, back in Angstrom. */
  function ReadAlat(parse: string -> Option<real>, fmt: Formats, alat: real): real
    requires Codec(parse, fmt.fixed8)
  {
    R(parse, fmt.fixed8, alat * AngstromToBohr) * BohrToAngstrom
  }

  /** Six parameters whose words are numbers are read in order. */
  lemma {:induction false} CelldmRead(parse: string -> Option<real>, info: seq<string>, k: nat)
    requires k <= 6 && |info| >= 9 && forall j :: 3 + k <= j < 9 ==> parse(info[j]).Some?
    ensures Celldm(parse, info, k).Ok?
    decreases 6 - k
  {
    if k < 6 {
      CelldmRead(parse, info, k + 1);
    }
  }

  /** Nine words: two counts, ibrav 0 and six numbers, read as such. */
  lemma CountsOf(parse: string -> Option<real>, ts: seq<string>, ntypes: nat, natoms: nat, celldm: Vector)
    requires |ts| == 9 && |celldm| == 6
    requires ParseInt(ts[0]) == Some(ntypes as int) && ParseInt(ts[1]) == Some(natoms as int) && ParseInt(ts[2]) == Some(0)
    requires forall j :: 3 <= j < 9 ==> parse(ts[j]) == Some(celldm[j - 3])
    ensures ReadCounts(parse, ts) == Ok(Counts(ntypes, natoms, 0, celldm))
  {
    CelldmRead(parse, ts, 0);
    assert Celldm(parse, ts, 0).value == celldm;
  }

  /** The counts line: N types, N atoms, ibrav 0 and the six lattice parameters, the first `alat` in Bohr. */
  lemma CountsRead(parse: string -> Option<real>, show: real -> string, ntypes: nat, natoms: nat, alat: real)
    requires Codec(parse, show)
    ensures var line := CountsText(show, ntypes, natoms, alat);
      && Strip(line) == line && !Contains(line, CartesianAxes)
      && ReadCounts(parse, Words(line))
         == Ok(Counts(ntypes, natoms, 0, [R(parse, show, alat * AngstromToBohr), R(parse, show, 0.0), R(parse, show, 0.0),
                                          R(parse, show, 0.0), R(parse, show, 0.0), R(parse, show, 0.0)]))
  {
    var ts := [ShowNat(ntypes), ShowNat(natoms), ShowNat(0), show(alat * AngstromToBohr),
               show(0.0), show(0.0), show(0.0), show(0.0), show(0.0)];
    ShowNatNumeral(ntypes);
    ShowNatNumeral(natoms);
    ShowNatNumeral(0);
    ShowNumeral(parse, show, alat * AngstromToBohr);
    ShowNumeral(parse, show, 0.0);
    NumericLine(ts);
    ParseShowNat(ntypes);
    ParseShowNat(natoms);
    ParseShowNat(0);
    CountsOf(parse, ts, ntypes, natoms, [R(parse, show, alat * AngstromToBohr), R(parse, show, 0.0), R(parse, show, 0.0),
                                         R(parse, show, 0.0), R(parse, show, 0.0), R(parse, show, 0.0)]);
  }

  /** A cell row in units of `alat`, read back and scaled by `alat2`. */
  lemma CellRead(parse: string -> Option<real>, show: real -> string, row: Vector, alat: real, alat2: real)
    requires Codec(parse, show) && |row| == 3 && alat != 0.0
    ensures var line := CellText(show, row, alat);
      && Strip(line) == line && !Contains(line, CartesianAxes)
      && RowReadable(parse, line, alat2) && RowOf(parse, line, alat2, RV(parse, show, row, alat, alat2))
  {
    var ts := [show(row[0] / alat), show(row[1] / alat), show(row[2] / alat)];
    ShowNumeral(parse, show, row[0] / alat);
    ShowNumeral(parse, show, row[1] / alat);
    ShowNumeral(parse, show, row[2] / alat);
    NumericLine(ts);
    var v := Floats(parse, ts).value;
    assert v == [R(parse, show, row[0] / alat), R(parse, show, row[1] / alat), R(parse, show, row[2] / alat)];
    ScaledRow(parse, show, row, alat, alat2);
    assert Broadcast3(Scale(v, alat2)) == Ok(RV(parse, show, row, alat, alat2));
  }

  /** An atom line: its index, its species number and its position in units of `alat`, each read as a number. */
  lemma AtomTextRead(parse: string -> Option<real>, show: real -> string, i: nat, species: nat, pos: Vector, alat: real)
    requires Codec(parse, show) && |pos| == 3 && alat != 0.0
    ensures var line := AtomText(show, i, species, pos, alat);
      && Strip(line) == line && !Contains(line, CartesianAxes)
      && Floats(parse, Words(line))
         == Ok([i as real, species as real, R(parse, show, pos[0] / alat), R(parse, show, pos[1] / alat), R(parse, show, pos[2] / alat)])
  {
    var ts := [ShowNat(i), ShowNat(species), show(pos[0] / alat), show(pos[1] / alat), show(pos[2] / alat)];
    ShowNatNumeral(i);
    ShowNatNumeral(species);
    ShowNumeral(parse, show, pos[0] / alat);
    ShowNumeral(parse, show, pos[1] / alat);
    ShowNumeral(parse, show, pos[2] / alat);
    NumericLine(ts);
    assert parse(ts[0]) == Some(i as real) && parse(ts[1]) == Some(species as real);
    var v := Floats(parse, ts).value;
    assert v[0] == i as real && v[1] == species as real;
    assert v[2] == R(parse, show, pos[0] / alat) && v[3] == R(parse, show, pos[1] / alat) && v[4] == R(parse, show, pos[2] / alat);
    assert v == [i as real, species as real, R(parse, show, pos[0] / alat), R(parse, show, pos[1] / alat), R(parse, show, pos[2] / alat)];
  }

  /** Python's `int()` of a whole number is that number. */
  lemma TruncWhole(k: nat)
    ensures Trunc(k as real) == k
  {
  }

  /** An atom line whose numbers are an index, a species number k and a position is read as species k's label at that position. */
  lemma ReadAtomFrom(parse: string -> Option<real>, lines: seq<string>, types: seq<string>, alat2: real, a: nat,
                     x: real, k: nat, p: Vector)
    requires 7 + |types| + a < |lines| && 1 <= k <= |types| && |p| == 3
    requires Floats(parse, Words(lines[7 + |types| + a])) == Ok([x, k as real] + p)
    ensures ReadAtom(parse, lines, |types|, types, alat2, a) == Ok((types[k - 1], Scale(p, alat2)))
  {
    TruncWhole(k);
    assert ([x, k as real] + p)[1] == k as real && ([x, k as real] + p)[2..] == p;
  }

  /** Atom `a` is read back with the label of its species number and its position scaled by `alat2`. */
  lemma AtomRead(parse: string -> Option<real>, show: real -> string, lines: seq<string>, types: seq<string>, alat2: real, a: nat,
                 name: string, pos: Vector, alat: real)
    requires Codec(parse, show) && |pos| == 3 && alat != 0.0 && name in types
    requires 7 + |types| + a < |lines|
    requires Floats(parse, Words(lines[7 + |types| + a]))
             == Ok([(a + 1) as real, SpeciesNumber(types, name) as real,
                    R(parse, show, pos[0] / alat), R(parse, show, pos[1] / alat), R(parse, show, pos[2] / alat)])
    ensures ReadAtom(parse, lines, |types|, types, alat2, a) == Ok((name, RV(parse, show, pos, alat, alat2)))
  {
    var k := SpeciesNumber(types, name);
    var p := [R(parse, show, pos[0] / alat), R(parse, show, pos[1] / alat), R(parse, show, pos[2] / alat)];
    assert [(a + 1) as real, k as real, p[0], p[1], p[2]] == [(a + 1) as real, k as real] + p;
    ReadAtomFrom(parse, lines, types, alat2, a, (a + 1) as real, k, p);
    ScaledRow(parse, show, pos, alat, alat2);
  }

  /** The three numbers read from a row in units of `alat`, scaled by `alat2`. */
  lemma ScaledRow(parse: string -> Option<real>, show: real -> string, v: Vector, alat: real, alat2: real)
    requires Codec(parse, show) && |v| == 3 && alat != 0.0
    ensures Scale([R(parse, show, v[0] / alat), R(parse, show, v[1] / alat), R(parse, show, v[2] / alat)], alat2)
         == RV(parse, show, v, alat, alat2)
  {
    var w := Scale([R(parse, show, v[0] / alat), R(parse, show, v[1] / alat), R(parse, show, v[2] / alat)], alat2);
    assert w[0] == RV(parse, show, v, alat, alat2)[0] && w[1] == RV(parse, show, v, alat, alat2)[1];
    assert w[2] == RV(parse, show, v, alat, alat2)[2];
  }

  /** A species line with a plain label holds no "cartesian axes": an occurrence cannot cross a quote. */
  lemma SpeciesNoAxes(show: real -> string, k: nat, name: string, mass: real)
    requires Numeral(show(mass)) && PlainLabel(name)
    ensures !Contains(Strip(SpeciesText(show, k, name, mass)), CartesianAxes)
  {
    SpeciesTextStrip(show, k, name, mass);
    var num := ShowNat(k);
    var a, m, b := num + "  ", name + " ", "  " + show(mass);
    var cs := NumeralChars + {' '};
    ShowNatNumeral(k);
    assert OnlyChars(a, cs) && OnlyChars(b, cs);
    NoAxesInNumbers(a);
    NoAxesInNumbers(b);
    assert CartesianAxes[|CartesianAxes| - 1] != ' ';
    if Contains(m, CartesianAxes) {
      ContainsDropLast(name, ' ', CartesianAxes);
    }
    assert '\'' !in CartesianAxes;
    assert num + "  '" + name + " '  " + show(mass) == a + ['\''] + (m + ['\''] + b);
    if Contains(m + ['\''] + b, CartesianAxes) {
      ContainsAround(m, '\'', b, CartesianAxes);
    }
    if Contains(a + ['\''] + (m + ['\''] + b), CartesianAxes) {
      ContainsAround(a, '\'', m + ['\''] + b, CartesianAxes);
    }
  }

  // ---------------------------------------------------------------- the whole header

  /** The structure the loader rebuilds: positions and cell rows after one trip, the masses of the labels present. */
  function StructureRead(parse: string -> Option<real>, fmt: Formats, s: Structure, alat: real): (r: Structure)
    requires Codecs(parse, fmt) && WellFormed(s) && MassesKnown(s) && alat != 0.0
    ensures WellFormed(r) && MassesKnown(r) && r.atoms == s.atoms
  {
    var alat2 := ReadAlat(parse, fmt, alat);
    Structure(s.nAtoms, s.atoms,
      seq(s.nAtoms, i requires 0 <= i < s.nAtoms => RV(parse, fmt.fixed10, s.coords[i], alat, alat2)),
      seq(3, i requires 0 <= i < 3 => RV(parse, fmt.fixed8, s.cell[i], alat, alat2)),
      map a | a in s.atoms :: R(parse, fmt.fixed8, s.masses[a]))
  }

  /** The species `save_qe` lists, each with its mass after one trip. */
  function SpeciesList(parse: string -> Option<real>, show: real -> string, types: seq<string>, masses: map<string, real>)
    : (r: seq<(string, real)>)
    requires Codec(parse, show) && forall k :: 0 <= k < |types| ==> types[k] in masses
    ensures |r| == |types| && forall k :: 0 <= k < |types| ==> r[k] == (types[k], R(parse, show, masses[types[k]]))
  {
    seq(|types|, k requires 0 <= k < |types| => (types[k], R(parse, show, masses[types[k]])))
  }

  /** The species lines are read back as the species list. */
  lemma SpeciesBack(parse: string -> Option<real>, show: real -> string, lines: seq<string>, types: seq<string>, masses: map<string, real>)
    requires Codec(parse, show) && forall k :: 0 <= k < |types| ==> types[k] in masses
    requires forall k :: 0 <= k < |types| ==> PlainLabel(types[k]) && SpeciesLineWritten(show, lines, types, masses, k)
    ensures ReadSpecies(parse, lines, |types|, 1) == Ok(SpeciesList(parse, show, types, masses))
  {
    forall j | 7 <= j <= 6 + |types|
      ensures j < |lines| && types[j - 7] in masses
      ensures SpeciesLabel(lines[j]) == Ok(types[j - 7])
      ensures SpeciesMass(parse, lines[j]) == Ok(R(parse, show, masses[types[j - 7]]))
    {
      assert SpeciesLineWritten(show, lines, types, masses, j - 7);
      SpeciesLineRead(parse, show, j - 6, types[j - 7], masses[types[j - 7]]);
    }
    if |types| > 0 {
      assert SpeciesLineWritten(show, lines, types, masses, |types| - 1);
    }
    var r := ReadSpecies(parse, lines, |types|, 1);
    assert r.value == SpeciesList(parse, show, types, masses);
  }

  /** A label present has the mass of its one species line. */
  lemma MassListed(parse: string -> Option<real>, show: real -> string, s: Structure, a: string)
    requires Codec(parse, show) && MassesKnown(s) && a in s.atoms
    ensures TypesHaveMassesFact(s)
    ensures var sp := SpeciesList(parse, show, Types(s.atoms), s.masses);
      a in MassTable(sp) && MassTable(sp)[a] == R(parse, show, s.masses[a])
  {
    TypesHaveMasses(s);
    var t := Types(s.atoms);
    var sp := SpeciesList(parse, show, t, s.masses);
    var k := IndexOf(t, a);
    assert sp[k].0 == a;
    MassTableLast(sp, k);
  }

  /** Every species has a mass, so the species list can be formed. */
  predicate TypesHaveMassesFact(s: Structure)
  {
    forall k :: 0 <= k < |Types(s.atoms)| ==> Types(s.atoms)[k] in s.masses
  }

  /** Labels listed once each: the mass table holds exactly the labels present, each with its mass after one trip. */
  lemma MassesBack(parse: string -> Option<real>, show: real -> string, s: Structure)
    requires Codec(parse, show) && MassesKnown(s)
    ensures TypesHaveMassesFact(s)
    ensures MassTable(SpeciesList(parse, show, Types(s.atoms), s.masses)) == map a | a in s.atoms :: R(parse, show, s.masses[a])
  {
    TypesHaveMasses(s);
    var m := MassTable(SpeciesList(parse, show, Types(s.atoms), s.masses));
    var want := map a | a in s.atoms :: R(parse, show, s.masses[a]);
    forall a | a in want
      ensures a in m && m[a] == want[a]
    {
      MassListed(parse, show, s, a);
    }
    forall a | a in m
      ensures a in want
    {
      var j :| 0 <= j < |Types(s.atoms)| && Types(s.atoms)[j] == a;
    }
    SameMaps(m, want);
  }

  lemma SameMaps(m: map<string, real>, n: map<string, real>)
    requires forall a :: a in n ==> a in m && m[a] == n[a]
    requires forall a :: a in m ==> a in n
    ensures m == n
  {
  }

  lemma SliceCons<T>(s: seq<T>, i: nat)
    requires i < |s|
    ensures s[i..] == [s[i]] + s[i + 1..]
  {
  }

  /** One atom read, then the rest. */
  lemma ReadAtomsCons(parse: string -> Option<real>, lines: seq<string>, ntyp: int, labels: seq<string>, alat2: real,
                      count: nat, i: nat, atom: (string, Vector), rest: (seq<string>, seq<Vector>))
    requires i < count
    requires ReadAtom(parse, lines, ntyp, labels, alat2, i) == Ok(atom)
    requires ReadAtoms(parse, lines, ntyp, labels, alat2, count, i + 1) == Ok(rest)
    ensures ReadAtoms(parse, lines, ntyp, labels, alat2, count, i) == Ok(([atom.0] + rest.0, [atom.1] + rest.1))
  {
  }

  /** Atoms from line `i` on are read as the given labels and positions when each of their lines is. */
  lemma {:induction false} AtomsBack(parse: string -> Option<real>, lines: seq<string>, ntyp: int, labels: seq<string>, alat2: real,
                                     i: nat, names: seq<string>, positions: seq<Vector>)
    requires i <= |names| == |positions|
    requires forall j :: i <= j < |names| ==> ReadAtom(parse, lines, ntyp, labels, alat2, j) == Ok((names[j], positions[j]))
    ensures ReadAtoms(parse, lines, ntyp, labels, alat2, |names|, i) == Ok((names[i..], positions[i..]))
    decreases |names| - i
  {
    if i < |names| {
      AtomsBack(parse, lines, ntyp, labels, alat2, i + 1, names, positions);
      SliceCons(names, i);
      SliceCons(positions, i);
      ReadAtomsCons(parse, lines, ntyp, labels, alat2, |names|, i, (names[i], positions[i]), (names[i + 1..], positions[i + 1..]));
    } else {
      assert names[i..] == [] && positions[i..] == [];
    }
  }

  /** The three cell rows are read back, scaled by the lattice parameter read. */
  lemma CellBack(parse: string -> Option<real>, show: real -> string, lines: seq<string>, cell: seq<Vector>, alat: real, alat2: real)
    requires Codec(parse, show) && |lines| > 6 && alat != 0.0
    requires |cell| == 3 && forall i :: 0 <= i < 3 ==> |cell[i]| == 3 && lines[4 + i] == CellText(show, cell[i], alat)
    ensures ReadCell(parse, lines, alat2, 0) == Ok(seq(3, i requires 0 <= i < 3 => RV(parse, show, cell[i], alat, alat2)))
  {
    forall j | 4 <= j < 7
      ensures RowReadable(parse, lines[j], alat2) && RowOf(parse, lines[j], alat2, RV(parse, show, cell[j - 4], alat, alat2))
    {
      CellRead(parse, show, cell[j - 4], alat, alat2);
    }
    var r := ReadCell(parse, lines, alat2, 0);
    assert r.Ok?;
    forall i | 0 <= i < 3
      ensures r.value[i] == RV(parse, show, cell[i], alat, alat2)
    {
      assert RowOf(parse, lines[4 + i], alat2, r.value[i]);
    }
    assert r.value == seq(3, i requires 0 <= i < 3 => RV(parse, show, cell[i], alat, alat2));
  }

  // ---------------------------------------------------------------- the lines of the header, stripped

  /** Species k + 1 is written, stripped, on line `7 + k`: its label and its mass. */
  predicate SpeciesLineWritten(show: real -> string, lines: seq<string>, t: seq<string>, masses: map<string, real>, k: nat)
    requires k < |t|
  {
    t[k] in masses && 7 + k < |lines| && lines[7 + k] == Strip(SpeciesText(show, k + 1, t[k], masses[t[k]]))
  }

  /** Atom a is written on line `7 + |t| + a`: its number from 1, its species number and its position in units of `alat`. */
  predicate AtomLineWritten(show: real -> string, lines: seq<string>, t: seq<string>, s: Structure, alat: real, a: nat)
    requires WellFormed(s) && alat != 0.0 && a < s.nAtoms
  {
    && 7 + |t| + a < |lines| && s.atoms[a] in t
    && lines[7 + |t| + a] == AtomText(show, a + 1, SpeciesNumber(t, s.atoms[a]), s.coords[a], alat)
  }

  /** The lines of a header `save_qe` writes for `s`, stripped, at the offsets the loader reads them. */
  predicate HeaderWritten(fmt: Formats, lines: seq<string>, s: Structure, alat: real)
    requires WellFormed(s) && alat != 0.0
  {
    var t := Types(s.atoms);
    && |lines| >= 7 + |t| + s.nAtoms
    && lines[0] == Banner && lines[1] == Credit && lines[3] == BasisTitle
    && lines[2] == CountsText(fmt.fixed8, |t|, s.nAtoms, alat)
    && (forall i :: 0 <= i < 3 ==> lines[4 + i] == CellText(fmt.fixed8, s.cell[i], alat))
    && (forall k :: 0 <= k < |t| ==> SpeciesLineWritten(fmt.fixed8, lines, t, s.masses, k))
    && (forall a :: 0 <= a < s.nAtoms ==> AtomLineWritten(fmt.fixed10, lines, t, s, alat, a))
  }

  /** `(a + b)[k]` is `a[k]` for an index of `a`. */
  lemma FrontAt<T>(a: seq<T>, b: seq<T>, k: nat)
    requires k < |a|
    ensures (a + b)[k] == a[k]
  {
  }

  /** The header `save_qe` writes, stripped and followed by any lines, has every line where the loader looks for it. */
  lemma HeaderLinesAt(parse: string -> Option<real>, fmt: Formats, s: Structure, alat: real, rest: seq<string>)
    requires Codecs(parse, fmt) && WellFormed(s) && MassesKnown(s) && alat != 0.0
    ensures HeaderWritten(fmt, StripAll(HeaderText(fmt, s, alat)) + rest, s, alat)
  {
    TitleLinesAt(parse, fmt, s, alat, rest);
    CountsCellAt(parse, fmt, s, alat, rest);
    SpeciesLinesAt(fmt, s, alat, rest);
    AtomLinesAt(parse, fmt, s, alat, rest);
  }

  /** The three title lines are their own `strip()`. */
  lemma TitlesTrimmed()
    ensures Strip(Banner) == Banner && Strip(Credit) == Credit && Strip(BasisTitle) == BasisTitle
  {
    BannerTrimmed();
    CreditTrimmed();
    BasisTitleTrimmed();
  }

  lemma BannerTrimmed()
    ensures Strip(Banner) == Banner
  {
    assert Banner[0] == 'D' && Banner[|Banner| - 1] == 'e';
    StripTrimmed(Banner);
  }

  lemma CreditTrimmed()
    ensures Strip(Credit) == Credit
  {
    assert Credit[0] == 'F' && Credit[|Credit| - 1] == 'i';
    StripTrimmed(Credit);
  }

  lemma BasisTitleTrimmed()
    ensures Strip(BasisTitle) == BasisTitle
  {
    assert BasisTitle[0] == 'B' && BasisTitle[|BasisTitle| - 1] == 's';
    StripTrimmed(BasisTitle);
  }

  /** The title lines, the counts line and the cell rows. */
  lemma TitleLinesAt(parse: string -> Option<real>, fmt: Formats, s: Structure, alat: real, rest: seq<string>)
    requires Codecs(parse, fmt) && WellFormed(s) && MassesKnown(s) && alat != 0.0
    ensures var lines := StripAll(HeaderText(fmt, s, alat)) + rest;
      && |lines| == 7 + |Types(s.atoms)| + s.nAtoms + |rest|
      && lines[0] == Banner && lines[1] == Credit && lines[3] == BasisTitle
  {
    var h := HeaderText(fmt, s, alat);
    TitlesTrimmed();
    FrontAt(StripAll(h), rest, 0);
    FrontAt(StripAll(h), rest, 1);
    FrontAt(StripAll(h), rest, 3);
  }

  /** The counts line and the cell rows. */
  lemma CountsCellAt(parse: string -> Option<real>, fmt: Formats, s: Structure, alat: real, rest: seq<string>)
    requires Codecs(parse, fmt) && WellFormed(s) && MassesKnown(s) && alat != 0.0
    ensures var lines := StripAll(HeaderText(fmt, s, alat)) + rest;
      && lines[2] == CountsText(fmt.fixed8, |Types(s.atoms)|, s.nAtoms, alat)
      && forall i :: 0 <= i < 3 ==> lines[4 + i] == CellText(fmt.fixed8, s.cell[i], alat)
  {
    var h := HeaderText(fmt, s, alat);
    CountsRead(parse, fmt.fixed8, |Types(s.atoms)|, s.nAtoms, alat);
    FrontAt(StripAll(h), rest, 2);
    forall i | 0 <= i < 3
      ensures (StripAll(h) + rest)[4 + i] == CellText(fmt.fixed8, s.cell[i], alat)
    {
      CellRead(parse, fmt.fixed8, s.cell[i], alat, 1.0);
      FrontAt(StripAll(h), rest, 4 + i);
    }
  }

  /** The species lines. */
  lemma SpeciesLinesAt(fmt: Formats, s: Structure, alat: real, rest: seq<string>)
    requires WellFormed(s) && MassesKnown(s) && alat != 0.0
    ensures var t := Types(s.atoms);
      forall k :: 0 <= k < |t| ==> SpeciesLineWritten(fmt.fixed8, StripAll(HeaderText(fmt, s, alat)) + rest, t, s.masses, k)
  {
    var t := Types(s.atoms);
    forall k | 0 <= k < |t|
      ensures SpeciesLineWritten(fmt.fixed8, StripAll(HeaderText(fmt, s, alat)) + rest, t, s.masses, k)
    {
      SpeciesLineAt(fmt, s, alat, rest, k);
    }
  }

  lemma SpeciesLineAt(fmt: Formats, s: Structure, alat: real, rest: seq<string>, k: nat)
    requires WellFormed(s) && MassesKnown(s) && alat != 0.0 && k < |Types(s.atoms)|
    ensures SpeciesLineWritten(fmt.fixed8, StripAll(HeaderText(fmt, s, alat)) + rest, Types(s.atoms), s.masses, k)
  {
    var h := HeaderText(fmt, s, alat);
    HeaderSpeciesLines(fmt, s, alat);
    FrontAt(StripAll(h), rest, 7 + k);
  }

  /** The atom lines. */
  lemma AtomLinesAt(parse: string -> Option<real>, fmt: Formats, s: Structure, alat: real, rest: seq<string>)
    requires Codecs(parse, fmt) && WellFormed(s) && MassesKnown(s) && alat != 0.0
    ensures forall a :: 0 <= a < s.nAtoms ==>
      AtomLineWritten(fmt.fixed10, StripAll(HeaderText(fmt, s, alat)) + rest, Types(s.atoms), s, alat, a)
  {
    forall a | 0 <= a < s.nAtoms
      ensures AtomLineWritten(fmt.fixed10, StripAll(HeaderText(fmt, s, alat)) + rest, Types(s.atoms), s, alat, a)
    {
      AtomLineAt(parse, fmt, s, alat, rest, a);
    }
  }

  lemma AtomLineAt(parse: string -> Option<real>, fmt: Formats, s: Structure, alat: real, rest: seq<string>, a: nat)
    requires Codecs(parse, fmt) && WellFormed(s) && MassesKnown(s) && alat != 0.0 && a < s.nAtoms
    ensures AtomLineWritten(fmt.fixed10, StripAll(HeaderText(fmt, s, alat)) + rest, Types(s.atoms), s, alat, a)
  {
    var t := Types(s.atoms);
    HeaderAtomLine(fmt, s, alat, a);
    AtomTextRead(parse, fmt.fixed10, a + 1, SpeciesNumber(t, s.atoms[a]), s.coords[a], alat);
    StrippedAt(HeaderText(fmt, s, alat), rest, 7 + |t| + a, AtomText(fmt.fixed10, a + 1, SpeciesNumber(t, s.atoms[a]), s.coords[a], alat));
  }

  /** Atom a's line of the header, before stripping. */
  lemma HeaderAtomLine(fmt: Formats, s: Structure, alat: real, a: nat)
    requires WellFormed(s) && MassesKnown(s) && alat != 0.0 && a < s.nAtoms
    ensures var t := Types(s.atoms);
      && s.atoms[a] in t && 7 + |t| + a < |HeaderText(fmt, s, alat)|
      && HeaderText(fmt, s, alat)[7 + |t| + a] == AtomText(fmt.fixed10, a + 1, SpeciesNumber(t, s.atoms[a]), s.coords[a], alat)
  {
    var h := HeaderText(fmt, s, alat);
    var t := Types(s.atoms);
    HeaderAtomLines(fmt, s, alat);
    assert h[7 + |t| + a] == h[7 + |t|..][a];
  }

  /** A line that stripping leaves unchanged is found at its own offset in the stripped lines. */
  lemma StrippedAt(h: seq<string>, rest: seq<string>, k: nat, line: string)
    requires k < |h| && h[k] == line && Strip(line) == line
    ensures k < |StripAll(h) + rest| && (StripAll(h) + rest)[k] == line
  {
    FrontAt(StripAll(h), rest, k);
  }

  // ---------------------------------------------------------------- reading the written header back

  /** Atom a's line is read as its label and its position after one trip, scaled by the lattice parameter read. */
  lemma AtomBack(parse: string -> Option<real>, show: real -> string, lines: seq<string>, t: seq<string>, s: Structure,
                 alat: real, alat2: real, a: nat)
    requires Codec(parse, show) && WellFormed(s) && alat != 0.0 && a < s.nAtoms
    requires AtomLineWritten(show, lines, t, s, alat, a)
    ensures ReadAtom(parse, lines, |t|, t, alat2, a) == Ok((s.atoms[a], RV(parse, show, s.coords[a], alat, alat2)))
  {
    AtomLineNumbers(parse, show, lines, t, s, alat, a);
    AtomRead(parse, show, lines, t, alat2, a, s.atoms[a], s.coords[a], alat);
  }

  lemma AtomLineNumbers(parse: string -> Option<real>, show: real -> string, lines: seq<string>, t: seq<string>, s: Structure,
                        alat: real, a: nat)
    requires Codec(parse, show) && WellFormed(s) && alat != 0.0 && a < s.nAtoms
    requires AtomLineWritten(show, lines, t, s, alat, a)
    ensures 7 + |t| + a < |lines| && s.atoms[a] in t
    ensures Floats(parse, Words(lines[7 + |t| + a]))
         == Ok([(a + 1) as real, SpeciesNumber(t, s.atoms[a]) as real, R(parse, show, s.coords[a][0] / alat),
                R(parse, show, s.coords[a][1] / alat), R(parse, show, s.coords[a][2] / alat)])
  {
    AtomTextRead(parse, show, a + 1, SpeciesNumber(t, s.atoms[a]), s.coords[a], alat);
  }

  /** The positions the loader rebuilds: each after one trip, scaled by the lattice parameter read. */
  function PositionsRead(parse: string -> Option<real>, show: real -> string, s: Structure, alat: real, alat2: real)
    : (r: seq<Vector>)
    requires Codec(parse, show) && WellFormed(s) && alat != 0.0
    ensures |r| == s.nAtoms && forall i :: 0 <= i < s.nAtoms ==> r[i] == RV(parse, show, s.coords[i], alat, alat2)
  {
    seq(s.nAtoms, i requires 0 <= i < s.nAtoms => RV(parse, show, s.coords[i], alat, alat2))
  }

  /** Every atom line written is read back: the labels unchanged, the positions after one trip. */
  lemma AtomsWrittenBack(parse: string -> Option<real>, show: real -> string, lines: seq<string>, t: seq<string>, s: Structure,
                         alat: real, alat2: real)
    requires Codec(parse, show) && WellFormed(s) && alat != 0.0
    requires forall a :: 0 <= a < s.nAtoms ==> AtomLineWritten(show, lines, t, s, alat, a)
    ensures ReadAtoms(parse, lines, |t|, t, alat2, s.nAtoms, 0) == Ok((s.atoms, PositionsRead(parse, show, s, alat, alat2)))
  {
    var ps := PositionsRead(parse, show, s, alat, alat2);
    forall a | 0 <= a < |s.atoms|
      ensures ReadAtom(parse, lines, |t|, t, alat2, a) == Ok((s.atoms[a], ps[a]))
    {
      AtomBack(parse, show, lines, t, s, alat, alat2, a);
    }
    AtomsBack(parse, lines, |t|, t, alat2, 0, s.atoms, ps);
    assert s.atoms[0..] == s.atoms && ps[0..] == ps;
  }

  /** The species of a structure with plain labels have plain labels. */
  lemma TypesPlain(s: Structure)
    requires PlainLabels(s)
    ensures forall k :: 0 <= k < |Types(s.atoms)| ==> PlainLabel(Types(s.atoms)[k])
  {
    var t := Types(s.atoms);
    forall k | 0 <= k < |t|
      ensures PlainLabel(t[k])
    {
      var i :| 0 <= i < |s.atoms| && s.atoms[i] == t[k];
    }
  }

  /** The labels of the species list are the species written. */
  lemma SpeciesLabels(parse: string -> Option<real>, show: real -> string, types: seq<string>, masses: map<string, real>)
    requires Codec(parse, show) && forall k :: 0 <= k < |types| ==> types[k] in masses
    ensures Labels(SpeciesList(parse, show, types, masses)) == types
  {
  }

  /** The species lines written are read back as the species list. */
  lemma SpeciesWrittenBack(parse: string -> Option<real>, fmt: Formats, lines: seq<string>, s: Structure, alat: real)
    requires Codecs(parse, fmt) && WellFormed(s) && MassesKnown(s) && PlainLabels(s) && alat != 0.0
    requires HeaderWritten(fmt, lines, s, alat)
    ensures TypesHaveMassesFact(s)
    ensures ReadSpecies(parse, lines, |Types(s.atoms)|, 1) == Ok(SpeciesList(parse, fmt.fixed8, Types(s.atoms), s.masses))
  {
    var t := Types(s.atoms);
    TypesHaveMasses(s);
    TypesPlain(s);
    SpeciesBack(parse, fmt.fixed8, lines, t, s.masses);
  }

  /** The species and atom lines written are read back as the structure: labels, positions and masses. */
  lemma BodyWrittenBack(parse: string -> Option<real>, fmt: Formats, lines: seq<string>, s: Structure, alat: real)
    requires Codecs(parse, fmt) && WellFormed(s) && MassesKnown(s) && PlainLabels(s) && alat != 0.0
    requires HeaderWritten(fmt, lines, s, alat)
    ensures var r := StructureRead(parse, fmt, s, alat);
      ReadBody(parse, lines, |Types(s.atoms)|, s.nAtoms, ReadAlat(parse, fmt, alat), r.cell)
      == Ok(Header(r, ReadAlat(parse, fmt, alat), lines))
  {
    var t := Types(s.atoms);
    var alat2 := ReadAlat(parse, fmt, alat);
    SpeciesWrittenBack(parse, fmt, lines, s, alat);
    var sp := SpeciesList(parse, fmt.fixed8, t, s.masses);
    SpeciesLabels(parse, fmt.fixed8, t, s.masses);
    assert forall a :: 0 <= a < s.nAtoms ==> AtomLineWritten(fmt.fixed10, lines, t, s, alat, a);
    AtomsWrittenBack(parse, fmt.fixed10, lines, t, s, alat, alat2);
    MassesBack(parse, fmt.fixed8, s);
    var r := StructureRead(parse, fmt, s, alat);
    assert r.coords == PositionsRead(parse, fmt.fixed10, s, alat, alat2);
  }

  /** The counts line written is read back: the numbers of species and atoms, ibrav 0, `alat` in Bohr first. */
  lemma CountsWrittenBack(parse: string -> Option<real>, fmt: Formats, lines: seq<string>, s: Structure, alat: real)
    requires Codecs(parse, fmt) && WellFormed(s) && alat != 0.0
    requires HeaderWritten(fmt, lines, s, alat)
    ensures var c := ReadCounts(parse, Words(lines[2]));
      && c.Ok? && c.value.ntyp == |Types(s.atoms)| && c.value.natoms == s.nAtoms && c.value.ibrav == 0
      && |c.value.celldm| == 6 && c.value.celldm[0] * BohrToAngstrom == ReadAlat(parse, fmt, alat)
  {
    CountsRead(parse, fmt.fixed8, |Types(s.atoms)|, s.nAtoms, alat);
  }

  /** The cell rows written are read back, after one trip, in units of the lattice parameter read. */
  lemma CellWrittenBack(parse: string -> Option<real>, fmt: Formats, lines: seq<string>, s: Structure, alat: real)
    requires Codecs(parse, fmt) && WellFormed(s) && MassesKnown(s) && alat != 0.0
    requires HeaderWritten(fmt, lines, s, alat)
    ensures ReadCell(parse, lines, ReadAlat(parse, fmt, alat), 0) == Ok(StructureRead(parse, fmt, s, alat).cell)
  {
    CellBack(parse, fmt.fixed8, lines, s.cell, alat, ReadAlat(parse, fmt, alat));
  }

  /**
   * The header `save_qe` writes is read back by the loader: the structure
   * with its labels, the positions and cell rows after one trip in units of
   * the lattice parameter read, the masses of the labels present.
   */
  lemma HeaderBack(parse: string -> Option<real>, cellFromIbrav: (int, Vector) -> seq<Vector>, fmt: Formats,
                   lines: seq<string>, s: Structure, alat: real)
    requires Codecs(parse, fmt) && WellFormed(s) && MassesKnown(s) && PlainLabels(s) && alat != 0.0
    requires HeaderWritten(fmt, lines, s, alat)
    ensures ParseHeader(parse, cellFromIbrav, lines)
         == Ok(Header(StructureRead(parse, fmt, s, alat), ReadAlat(parse, fmt, alat), lines))
  {
    CountsWrittenBack(parse, fmt, lines, s, alat);
    CellWrittenBack(parse, fmt, lines, s, alat);
    BodyWrittenBack(parse, fmt, lines, s, alat);
  }

  // ---------------------------------------------------------------- no "cartesian axes" before the blocks

  /** A string without some character of `m` does not contain `m`. */
  lemma MissingChar(s: string, m: string, k: nat)
    requires k < |m| && forall i :: 0 <= i < |s| ==> s[i] != m[k]
    ensures !Contains(s, m)
  {
    var cs := set i | 0 <= i < |s| :: s[i];
    assert OnlyChars(s, cs);
    AbsentChar(s, cs, m, k);
  }

  lemma BannerNoAxes()
    ensures !Contains(Banner, CartesianAxes)
  {
    assert CartesianAxes[5] == 's';
    assert forall i :: 0 <= i < |Banner| ==> Banner[i] != 's';
    MissingChar(Banner, CartesianAxes, 5);
  }

  lemma CreditNoAxes()
    ensures !Contains(Credit, CartesianAxes)
  {
    assert CartesianAxes[11] == 'x';
    assert forall i :: 0 <= i < |Credit| ==> Credit[i] != 'x';
    MissingChar(Credit, CartesianAxes, 11);
  }

  lemma BasisTitleNoAxes()
    ensures !Contains(BasisTitle, CartesianAxes)
  {
    assert CartesianAxes[11] == 'x';
    assert forall i :: 0 <= i < |BasisTitle| ==> BasisTitle[i] != 'x';
    MissingChar(BasisTitle, CartesianAxes, 11);
  }

  /** No line of the header written holds "cartesian axes", so the search for the first block passes all of it. */
  lemma HeaderNoAxes(parse: string -> Option<real>, fmt: Formats, lines: seq<string>, s: Structure, alat: real)
    requires Codecs(parse, fmt) && WellFormed(s) && MassesKnown(s) && PlainLabels(s) && alat != 0.0
    requires HeaderWritten(fmt, lines, s, alat)
    ensures forall k :: 0 <= k < 7 + |Types(s.atoms)| + s.nAtoms ==> !Contains(lines[k], CartesianAxes)
  {
    var t := Types(s.atoms);
    TypesPlain(s);
    forall k | 0 <= k < 7 + |t| + s.nAtoms
      ensures !Contains(lines[k], CartesianAxes)
    {
      if k < 7 {
        TitleLineNoAxes(parse, fmt, lines, s, alat, k);
      } else if k < 7 + |t| {
        assert SpeciesLineWritten(fmt.fixed8, lines, t, s.masses, k - 7);
        ShowNumeral(parse, fmt.fixed8, s.masses[t[k - 7]]);
        SpeciesNoAxes(fmt.fixed8, k - 6, t[k - 7], s.masses[t[k - 7]]);
      } else {
        AtomLineNoAxes(parse, fmt, lines, t, s, alat, k - 7 - |t|);
      }
    }
  }

  lemma TitleLineNoAxes(parse: string -> Option<real>, fmt: Formats, lines: seq<string>, s: Structure, alat: real, k: nat)
    requires Codecs(parse, fmt) && WellFormed(s) && alat != 0.0 && k < 7
    requires HeaderWritten(fmt, lines, s, alat)
    ensures !Contains(lines[k], CartesianAxes)
  {
    if k == 0 {
      BannerNoAxes();
    } else if k == 1 {
      CreditNoAxes();
    } else if k == 2 {
      CountsRead(parse, fmt.fixed8, |Types(s.atoms)|, s.nAtoms, alat);
    } else if k == 3 {
      BasisTitleNoAxes();
    } else {
      CellRead(parse, fmt.fixed8, s.cell[k - 4], alat, 1.0);
    }
  }

  lemma AtomLineNoAxes(parse: string -> Option<real>, fmt: Formats, lines: seq<string>, t: seq<string>, s: Structure,
                       alat: real, a: nat)
    requires Codecs(parse, fmt) && WellFormed(s) && alat != 0.0 && a < s.nAtoms
    requires AtomLineWritten(fmt.fixed10, lines, t, s, alat, a)
    ensures !Contains(lines[7 + |t| + a], CartesianAxes)
  {
    AtomTextRead(parse, fmt.fixed10, a + 1, SpeciesNumber(t, s.atoms[a]), s.coords[a], alat);
  }
}

=== FILE: loader.dfy ===
/**
 * `Phonons.LoadFromQE`: reading the Quantum ESPRESSO `ph.x` dynamical-matrix
 * ("fildyn") files of the irreducible q points.
 *
 * Python's `float()` is the parameter `parse`, and the external helper
 * `Methods.get_unit_cell_from_ibrav` the parameter `cellFromIbrav`; the file
 * system is a map from path to the lines of the file.
 */
module Loader {
  import opened Results
  import opened Text
  import opened Container

  type FileSystem = map<string, seq<string>>

  /** The section markers the reader looks for, as substrings of a line. */
  const CartesianAxes := "cartesian axes"
  const Diagonalizing := "Diagonalizing"
  const Dielectric := "Dielectric"
  const Effective := "Effective"
  const Raman := "Raman"
  const QMarker := "q = "
  const Ynamical := "ynamical"

  /** The file of irreducible point `iq`: `prefix + str(iq + 1)`, or `prefix` itself in full-name mode. */
  function FilePath(prefix: string, iq: nat, fullName: bool): string
  {
    if fullName then prefix else prefix + ShowNat(iq + 1)
  }

  // ---------------------------------------------------------------- tokens

  function Float(parse: string -> Option<real>, t: string): Result<real, Error>
  {
    Need(parse(t), BadValue)
  }

  function Int(t: string): Result<int, Error>
  {
    Need(ParseInt(t), BadValue)
  }

  /** `[float(x) for x in ts]`. */
  function Floats(parse: string -> Option<real>, ts: seq<string>): (r: Result<Vector, Error>)
    ensures r.Ok? <==> forall k :: 0 <= k < |ts| ==> parse(ts[k]).Some?
    ensures r.Ok? ==> |r.value| == |ts| && forall k :: 0 <= k < |ts| ==> r.value[k] == parse(ts[k]).value
    ensures r.Err? ==> r.error == BadValue
    decreases |ts|
  {
    if |ts| == 0 then Ok([])
    else
      var x :- Float(parse, ts[0]);
      var rest :- Floats(parse, ts[1..]);
      assert forall k :: 1 <= k < |ts| ==> ts[k] == ts[1..][k - 1];
      Ok([x] + rest)
  }

  function Scale(v: Vector, a: real): (r: Vector)
    ensures |r| == |v| && forall k :: 0 <= k < |v| ==> r[k] == v[k] * a
  {
    seq(|v|, k requires 0 <= k < |v| => v[k] * a)
  }

  /** Assigning an array to a numpy row of length 3: length 3 is copied, length 1 broadcast, anything else is a ValueError. */
  function Broadcast3(v: Vector): (r: Result<Vector, Error>)
    ensures r.Ok? <==> |v| == 3 || |v| == 1
    ensures r.Ok? ==> |r.value| == 3 && forall k :: 0 <= k < 3 ==> r.value[k] == v[if |v| == 1 then 0 else k]
    ensures r.Err? ==> r.error == BadValue
  {
    if |v| == 3 then Ok(v)
    else if |v| == 1 then Ok([v[0], v[0], v[0]])
    else Err(BadValue)
  }

  /** Python's `int(x)` of a float: truncation toward zero. */
  function Trunc(x: real): (r: int)
    ensures 0.0 <= x ==> (r as real) <= x < (r as real) + 1.0
    ensures x < 0.0 ==> (r as real) - 1.0 < x <= r as real
  {
    if x >= 0.0 then x.Floor else -((-x).Floor)
  }

  // ---------------------------------------------------------------- header

  /** What the first file fixes: the structure, the lattice parameter and the (possibly padded) lines. */
  datatype Header = Header(structure: Structure, alat: real, lines: seq<string>)

  /** `celldm[k] = float(struct_info[3 + k])` for the six lattice parameters, in order. */
  function Celldm(parse: string -> Option<real>, info: seq<string>, k: nat): (r: Result<Vector, Error>)
    requires k <= 6
    ensures r.Ok? ==> |r.value| == 6 - k && (k < 6 ==> 9 <= |info|)
    ensures r.Ok? ==> forall j :: 0 <= j < 6 - k ==> Some(r.value[j]) == parse(info[3 + k + j])
    decreases 6 - k
    ensures r != Err(NoneTensor)
  {
    if k == 6 then Ok([])
    else if |info| <= 3 + k then Err(BadIndex)
    else
      var x :- Float(parse, info[3 + k]);
      var rest :- Celldm(parse, info, k + 1);
      Ok([x] + rest)
  }

  /** `np.array([float(item) for item in line.split()]) * alat` stored in a row of three. */
  predicate RowOf(parse: string -> Option<real>, line: string, alat: real, row: Vector)
  {
    var v := Floats(parse, Words(line));
    v.Ok? && Broadcast3(Scale(v.value, alat)) == Ok(row)
  }

  /** The line gives a row of three: every word is a number and there are three of them, or one. */
  predicate RowReadable(parse: string -> Option<real>, line: string, alat: real)
  {
    var v := Floats(parse, Words(line));
    v.Ok? && Broadcast3(Scale(v.value, alat)).Ok?
  }

  /** The three `ibrav == 0` cell rows at lines 4..6, each scaled by `alat`. */
  function ReadCell(parse: string -> Option<real>, lines: seq<string>, alat: real, i: nat): (r: Result<seq<Vector>, Error>)
    requires i <= 3
    ensures r.Ok? <==> (i < 3 ==> |lines| > 6) && forall j :: 4 + i <= j < 7 ==> RowReadable(parse, lines[j], alat)
    ensures r.Ok? ==> |r.value| == 3 - i
    ensures r.Ok? ==> forall j :: 0 <= j < 3 - i ==> |r.value[j]| == 3 && RowOf(parse, lines[4 + i + j], alat, r.value[j])
    ensures r.Err? ==> r.error in {BadIndex, BadValue}
    decreases 3 - i
  {
    if i == 3 then Ok([])
    else if |lines| <= 4 + i then Err(BadIndex)
    else
      var values :- Floats(parse, Words(lines[4 + i]));
      var row :- Broadcast3(Scale(values, alat));
      var rest :- ReadCell(parse, lines, alat, i + 1);
      Ok([row] + rest)
  }

  /** Label of a species line: the text between the first two quotes, stripped. */
  function SpeciesLabel(line: string): (r: Result<string, Error>)
    ensures r != Err(NoneTensor)
  {
    var parts := SplitOn(line, '\'');
    if |parts| < 2 then Err(BadIndex) else Ok(Strip(parts[1]))
  }

  /** Mass of a species line: `float` of the text after the last quote. */
  function SpeciesMass(parse: string -> Option<real>, line: string): (r: Result<real, Error>)
    ensures r != Err(NoneTensor)
  {
    var parts := SplitOn(line, '\'');
    Float(parse, Strip(parts[|parts| - 1]))
  }

  /** Species lines `6 + k .. 6 + ntyp`: the label and mass of species k, k + 1, ... (`atoms_dict`, `masses_dict`). */
  function ReadSpecies(parse: string -> Option<real>, lines: seq<string>, ntyp: int, k: nat): (r: Result<seq<(string, real)>, Error>)
    requires 1 <= k
    ensures r.Ok? <==> (k <= ntyp ==> 6 + ntyp < |lines|)
                       && forall j :: 6 + k <= j <= 6 + ntyp ==> SpeciesLabel(lines[j]).Ok? && SpeciesMass(parse, lines[j]).Ok?
    ensures r.Ok? ==> |r.value| == if ntyp >= k then ntyp - k + 1 else 0
    ensures r.Ok? ==> forall j :: 0 <= j < |r.value| ==>
      && 6 + k + j < |lines|
      && SpeciesLabel(lines[6 + k + j]) == Ok(r.value[j].0) && SpeciesMass(parse, lines[6 + k + j]) == Ok(r.value[j].1)
    ensures r.Err? ==> r.error in {BadIndex, BadValue}
    decreases ntyp - k + 1
  {
    if k > ntyp then Ok([])
    else if |lines| <= 6 + k then Err(BadIndex)
    else
      var name :- SpeciesLabel(lines[6 + k]);
      var mass :- SpeciesMass(parse, lines[6 + k]);
      var rest :- ReadSpecies(parse, lines, ntyp, k + 1);
      Ok([(name, mass)] + rest)
  }

  /** `masses_dict` filled in species order: a label given twice keeps its last mass. */
  function MassTable(species: seq<(string, real)>): (r: map<string, real>)
    ensures forall j :: 0 <= j < |species| ==> species[j].0 in r
    ensures forall l :: l in r ==> exists j :: 0 <= j < |species| && species[j].0 == l
    decreases |species|
  {
    if |species| == 0 then map[]
    else
      var last := species[|species| - 1];
      MassTable(species[..|species| - 1])[last.0 := last.1]
  }

  /** A label keeps the mass of the last species line that names it. */
  lemma {:induction false} MassTableLast(species: seq<(string, real)>, j: nat)
    requires j < |species|
    requires forall j2 :: j < j2 < |species| ==> species[j2].0 != species[j].0
    ensures MassTable(species)[species[j].0] == species[j].1
    decreases |species|
  {
    var n := |species| - 1;
    if j < n {
      var init := species[..n];
      assert init[j] == species[j];
      assert forall j2 :: j < j2 < |init| ==> init[j2] == species[j2];
      MassTableLast(init, j);
    }
  }

  function Labels(species: seq<(string, real)>): (r: seq<string>)
    ensures |r| == |species| && forall j :: 0 <= j < |species| ==> r[j] == species[j].0
  {
    seq(|species|, j requires 0 <= j < |species| => species[j].0)
  }

  /**
   * Atom line `7 + ntyp + a` gives `name` and `pos`: its words are numbers,
   * the second, truncated, is a species number k in 1..ntyp with label
   * `labels[k - 1]` as `name`, and the rest, times `alat`, is the position `pos`.
   */
  predicate AtomLine(parse: string -> Option<real>, lines: seq<string>, ntyp: int, labels: seq<string>, alat: real,
                     a: nat, name: string, pos: Vector)
  {
    && PyIndex(7 + ntyp + a, |lines|).Some?
    && var info := Floats(parse, Words(lines[PyIndex(7 + ntyp + a, |lines|).value]));
    && info.Ok? && |info.value| >= 2
    && var k := Trunc(info.value[1]);
    && 1 <= k <= ntyp && k <= |labels| && name == labels[k - 1]
    && Broadcast3(Scale(info.value[2..], alat)) == Ok(pos)
  }

  /** Atom line `7 + ntyp + a`: `idx species x y z`, every field read with `float`, the position scaled by `alat`. */
  function ReadAtom(parse: string -> Option<real>, lines: seq<string>, ntyp: int, labels: seq<string>, alat: real, a: nat)
    : (r: Result<(string, Vector), Error>)
    ensures r.Ok? ==> |r.value.1| == 3 && r.value.0 in labels && AtomLine(parse, lines, ntyp, labels, alat, a, r.value.0, r.value.1)
    ensures r.Err? ==> r.error in {BadIndex, BadValue, UnknownKey}
  {
    var li :- Need(PyIndex(7 + ntyp + a, |lines|), BadIndex);
    var info :- Floats(parse, Words(lines[li]));
    if |info| < 2 then Err(BadIndex)
    else
      var k := Trunc(info[1]);
      if !(1 <= k <= ntyp && k <= |labels|) then Err(UnknownKey)
      else
        var pos :- Broadcast3(Scale(info[2..], alat));
        Ok((labels[k - 1], pos))
  }

  /** The atom lines from atom `i` on. */
  function ReadAtoms(parse: string -> Option<real>, lines: seq<string>, ntyp: int, labels: seq<string>, alat: real, count: nat, i: nat)
    : (r: Result<(seq<string>, seq<Vector>), Error>)
    requires i <= count
    ensures r.Ok? ==> |r.value.0| == count - i && AtomsRead(parse, lines, ntyp, labels, alat, i, r.value)
    ensures r.Err? ==> r.error in {BadIndex, BadValue, UnknownKey}
    decreases count - i
  {
    if i == count then Ok(([], []))
    else
      var atom :- ReadAtom(parse, lines, ntyp, labels, alat, i);
      var rest :- ReadAtoms(parse, lines, ntyp, labels, alat, count, i + 1);
      AtomLinesCons(parse, lines, ntyp, labels, alat, i, atom, rest);
      Ok(([atom.0] + rest.0, [atom.1] + rest.1))
  }

  /** The atoms read from line `i` on: the contract of `ReadAtoms`, kept by putting one more atom in front. */
  predicate AtomsRead(parse: string -> Option<real>, lines: seq<string>, ntyp: int, labels: seq<string>, alat: real, i: nat,
                      atoms: (seq<string>, seq<Vector>))
  {
    && |atoms.0| == |atoms.1|
    && (forall j :: 0 <= j < |atoms.0| ==> |atoms.1[j]| == 3 && atoms.0[j] in labels)
    && (forall j :: 0 <= j < |atoms.0| ==> AtomLine(parse, lines, ntyp, labels, alat, i + j, atoms.0[j], atoms.1[j]))
  }

  lemma AtomLinesCons(parse: string -> Option<real>, lines: seq<string>, ntyp: int, labels: seq<string>, alat: real, i: nat,
                      atom: (string, Vector), rest: (seq<string>, seq<Vector>))
    requires |atom.1| == 3 && atom.0 in labels && AtomLine(parse, lines, ntyp, labels, alat, i, atom.0, atom.1)
    requires AtomsRead(parse, lines, ntyp, labels, alat, i + 1, rest)
    ensures AtomsRead(parse, lines, ntyp, labels, alat, i, ([atom.0] + rest.0, [atom.1] + rest.1))
  {
    forall j | 0 < j <= |rest.0|
      ensures AtomLine(parse, lines, ntyp, labels, alat, i + j, ([atom.0] + rest.0)[j], ([atom.1] + rest.1)[j])
    {
      assert ([atom.0] + rest.0)[j] == rest.0[j - 1] && ([atom.1] + rest.1)[j] == rest.1[j - 1];
      assert i + j == i + 1 + (j - 1);
    }
  }

  /** `dynlines.insert(3, "")` four times. */
  function PadHeader(lines: seq<string>): (r: seq<string>)
    requires |lines| >= 3
    ensures |r| == |lines| + 4
  {
    lines[..3] + ["", "", "", ""] + lines[3..]
  }

  /** The numbers of the third line: `ntyp nat ibrav celldm(1..6)`. */
  datatype Counts = Counts(ntyp: int, natoms: nat, ibrav: int, celldm: Vector)

  /** The third line, read in the order the source reads it: ibrav, celldm, nat, ntyp; a negative nat fails `np.zeros`. */
  function ReadCounts(parse: string -> Option<real>, info: seq<string>): (r: Result<Counts, Error>)
    ensures r.Ok? ==> && |info| >= 9
                      && ParseInt(info[0]) == Some(r.value.ntyp)
                      && ParseInt(info[1]) == Some(r.value.natoms as int)
                      && ParseInt(info[2]) == Some(r.value.ibrav)
                      && |r.value.celldm| == 6
                      && forall k :: 0 <= k < 6 ==> Some(r.value.celldm[k]) == parse(info[3 + k])
    ensures r != Err(NoneTensor)
  {
    if |info| < 3 then Err(BadIndex)
    else
      var ibrav :- Int(info[2]);
      var celldm :- Celldm(parse, info, 0);
      var natoms :- Int(info[1]);
      var ntyp :- Int(info[0]);
      if natoms < 0 then Err(BadValue)
      else Ok(Counts(ntyp, natoms, ibrav, celldm))
  }

  /** The header of the first file, read at fixed line offsets. */
  function ParseHeader(parse: string -> Option<real>, cellFromIbrav: (int, Vector) -> seq<Vector>, lines: seq<string>)
    : (r: Result<Header, Error>)
    ensures r != Err(NoneTensor)
  {
    if |lines| < 3 then Err(BadIndex)
    else
      var c :- ReadCounts(parse, Words(lines[2]));
      ReadStructure(parse, cellFromIbrav, lines, c)
  }

  /** The cell: read from lines 4..6 when ibrav = 0, built from ibrav and celldm otherwise. */
  function ReadLattice(parse: string -> Option<real>, cellFromIbrav: (int, Vector) -> seq<Vector>, lines: seq<string>,
                       ibrav: int, celldm: Vector, alat: real): (r: Result<seq<Vector>, Error>)
    ensures ibrav != 0 ==> r == Ok(cellFromIbrav(ibrav, celldm))
    ensures ibrav == 0 ==> (r.Ok? <==> |lines| > 6 && forall j :: 4 <= j < 7 ==> RowReadable(parse, lines[j], alat))
    ensures ibrav == 0 && r.Ok? ==> CellRows(parse, lines, alat, r.value)
    ensures r.Err? ==> r.error in {BadIndex, BadValue}
  {
    if ibrav == 0 then ReadCell(parse, lines, alat, 0) else Ok(cellFromIbrav(ibrav, celldm))
  }

  /** `unit_cell[i, :]` is line 4 + i read as numbers and scaled by `alat`, for each of the three rows. */
  predicate CellRows(parse: string -> Option<real>, lines: seq<string>, alat: real, cell: seq<Vector>)
  {
    |lines| > 6 && |cell| == 3 && forall i :: 0 <= i < 3 ==> |cell[i]| == 3 && RowOf(parse, lines[4 + i], alat, cell[i])
  }

  /**
   * The species and atoms of a header as its (padded) lines give them: the
   * species lines read, the masses their table, and atom i read from its line.
   */
  predicate SpeciesAndAtoms(parse: string -> Option<real>, h: Header, ntyp: int)
  {
    var s := h.structure;
    var sp := ReadSpecies(parse, h.lines, ntyp, 1);
    && sp.Ok? && s.masses == MassTable(sp.value)
    && |s.atoms| == s.nAtoms && |s.coords| == s.nAtoms
    && forall i :: 0 <= i < s.nAtoms ==> AtomLine(parse, h.lines, ntyp, Labels(sp.value), h.alat, i, s.atoms[i], s.coords[i])
  }

  /** Cell, species and atoms, once the counts are known. */
  function ReadStructure(parse: string -> Option<real>, cellFromIbrav: (int, Vector) -> seq<Vector>, lines: seq<string>, c: Counts)
    : (r: Result<Header, Error>)
    requires |c.celldm| == 6 && |lines| >= 3
    ensures r != Err(NoneTensor)
  {
    var alat := c.celldm[0] * BohrToAngstrom;
    var cell :- ReadLattice(parse, cellFromIbrav, lines, c.ibrav, c.celldm, alat);
    var body := if c.ibrav == 0 then lines else PadHeader(lines);
    ReadBody(parse, body, c.ntyp, c.natoms, alat, cell)
  }

  /** The species lines, then the atom lines, of the (padded) header. */
  function ReadBody(parse: string -> Option<real>, body: seq<string>, ntyp: int, natoms: nat, alat: real, cell: seq<Vector>)
    : (r: Result<Header, Error>)
    ensures r != Err(NoneTensor)
  {
    var species :- ReadSpecies(parse, body, ntyp, 1);
    var atoms :- ReadAtoms(parse, body, ntyp, Labels(species), alat, natoms, 0);
    Ok(Header(Structure(natoms, atoms.0, atoms.1, cell, MassTable(species)), alat, body))
  }

  lemma UsedLabelsHaveMasses(species: seq<(string, real)>, used: seq<string>)
    requires forall i :: 0 <= i < |used| ==> used[i] in Labels(species)
    ensures forall i :: 0 <= i < |used| ==> used[i] in MassTable(species)
  {
    forall i | 0 <= i < |used|
      ensures used[i] in MassTable(species)
    {
      var j :| 0 <= j < |species| && Labels(species)[j] == used[i];
    }
  }

  /**
   * On success the header fixes N from the second count, the lattice
   * parameter from celldm(1) in Angstrom, the species and atoms as
   * `SpeciesAndAtoms` reads them from the (padded) lines, and either the three
   * explicit cell rows (ibrav = 0) or the ibrav cell with four padding lines
   * inserted after the third line.
   */
  lemma ParseHeaderSpec(parse: string -> Option<real>, cellFromIbrav: (int, Vector) -> seq<Vector>, lines: seq<string>)
    ensures var r := ParseHeader(parse, cellFromIbrav, lines);
      r.Ok? ==>
      && |lines| >= 3
      && var c := ReadCounts(parse, Words(lines[2]));
      && var s := r.value.structure;
      && c.Ok? && s.nAtoms == c.value.natoms
      && (forall i :: 0 <= i < s.nAtoms ==> |s.coords[i]| == 3)
      && (forall i :: 0 <= i < s.nAtoms ==> s.atoms[i] in s.masses)
      && r.value.alat == c.value.celldm[0] * BohrToAngstrom
      && SpeciesAndAtoms(parse, r.value, c.value.ntyp)
      && (c.value.ibrav == 0 ==> r.value.lines == lines && CellRows(parse, lines, r.value.alat, s.cell))
      && (c.value.ibrav != 0 ==> r.value.lines == PadHeader(lines) && s.cell == cellFromIbrav(c.value.ibrav, c.value.celldm))
  {
    var r := ParseHeader(parse, cellFromIbrav, lines);
    if r.Ok? {
      var c := ReadCounts(parse, Words(lines[2])).value;
      assert r == ReadStructure(parse, cellFromIbrav, lines, c);
      ReadStructureSpec(parse, cellFromIbrav, lines, c);
    }
  }

  lemma ReadStructureSpec(parse: string -> Option<real>, cellFromIbrav: (int, Vector) -> seq<Vector>, lines: seq<string>, c: Counts)
    requires |c.celldm| == 6 && |lines| >= 3
    ensures var r := ReadStructure(parse, cellFromIbrav, lines, c);
      r.Ok? ==>
      var s := r.value.structure;
      && s.nAtoms == c.natoms
      && (forall i :: 0 <= i < s.nAtoms ==> |s.coords[i]| == 3)
      && (forall i :: 0 <= i < s.nAtoms ==> s.atoms[i] in s.masses)
      && r.value.alat == c.celldm[0] * BohrToAngstrom
      && SpeciesAndAtoms(parse, r.value, c.ntyp)
      && (c.ibrav == 0 ==> r.value.lines == lines && CellRows(parse, lines, r.value.alat, s.cell))
      && (c.ibrav != 0 ==> r.value.lines == PadHeader(lines) && s.cell == cellFromIbrav(c.ibrav, c.celldm))
  {
    var r := ReadStructure(parse, cellFromIbrav, lines, c);
    if r.Ok? {
      var alat := c.celldm[0] * BohrToAngstrom;
      var cell := ReadStructureUnfold(parse, cellFromIbrav, lines, c);
      var body := if c.ibrav == 0 then lines else PadHeader(lines);
      ReadBodySpec(parse, body, c.ntyp, c.natoms, alat, cell);
    }
  }

  /** A header read means its lattice was read, and the body after it. */
  lemma ReadStructureUnfold(parse: string -> Option<real>, cellFromIbrav: (int, Vector) -> seq<Vector>, lines: seq<string>, c: Counts)
    returns (cell: seq<Vector>)
    requires |c.celldm| == 6 && |lines| >= 3
    requires ReadStructure(parse, cellFromIbrav, lines, c).Ok?
    ensures var alat := c.celldm[0] * BohrToAngstrom;
      && ReadLattice(parse, cellFromIbrav, lines, c.ibrav, c.celldm, alat) == Ok(cell)
      && ReadStructure(parse, cellFromIbrav, lines, c)
         == ReadBody(parse, if c.ibrav == 0 then lines else PadHeader(lines), c.ntyp, c.natoms, alat, cell)
  {
    var alat := c.celldm[0] * BohrToAngstrom;
    cell := ReadLattice(parse, cellFromIbrav, lines, c.ibrav, c.celldm, alat).value;
  }

  lemma ReadBodySpec(parse: string -> Option<real>, body: seq<string>, ntyp: int, natoms: nat, alat: real, cell: seq<Vector>)
    ensures var r := ReadBody(parse, body, ntyp, natoms, alat, cell);
      r.Ok? ==>
      var s := r.value.structure;
      && s.nAtoms == natoms && s.cell == cell
      && r.value.alat == alat && r.value.lines == body
      && (forall i :: 0 <= i < natoms ==> |s.coords[i]| == 3)
      && (forall i :: 0 <= i < natoms ==> s.atoms[i] in s.masses)
      && SpeciesAndAtoms(parse, r.value, ntyp)
  {
    var r := ReadBody(parse, body, ntyp, natoms, alat, cell);
    if r.Ok? {
      var species := ReadSpecies(parse, body, ntyp, 1).value;
      var atoms := ReadAtoms(parse, body, ntyp, Labels(species), alat, natoms, 0).value;
      UsedLabelsHaveMasses(species, atoms.0);
    }
  }

  // ---------------------------------------------------------------- blocks

  /** Drops every line up to and including the first one that contains "cartesian axes". */
  function SkipToMatrix(lines: seq<string>): (r: Result<seq<string>, Error>)
    ensures r.Err? ==> r.error == BadIndex
    ensures r.Ok? ==> |r.value| < |lines|
    decreases |lines|
  {
    if |lines| == 0 then Err(BadIndex)
    else if Contains(lines[0], CartesianAxes) then Ok(lines[1..])
    else SkipToMatrix(lines[1..])
  }

  /** The header is skipped up to and including the first "cartesian axes" line; without one the reader runs off the end. */
  lemma {:induction false} SkipToMatrixSpec(lines: seq<string>)
    ensures SkipToMatrix(lines).Ok? <==> exists k :: 0 <= k < |lines| && Contains(lines[k], CartesianAxes)
    ensures forall k :: 0 <= k < |lines| && Contains(lines[k], CartesianAxes)
                        && (forall j :: 0 <= j < k ==> !Contains(lines[j], CartesianAxes)) ==>
                        SkipToMatrix(lines) == Ok(lines[k + 1..])
    decreases |lines|
  {
    if |lines| > 0 && !Contains(lines[0], CartesianAxes) {
      var tail := lines[1..];
      SkipToMatrixSpec(tail);
      assert forall k :: 1 <= k < |lines| ==> lines[k] == tail[k - 1];
      forall k | 0 <= k < |lines| && Contains(lines[k], CartesianAxes)
                 && (forall j :: 0 <= j < k ==> !Contains(lines[j], CartesianAxes))
        ensures SkipToMatrix(lines) == Ok(lines[k + 1..])
      {
        assert k >= 1;
        assert forall j :: 0 <= j < k - 1 ==> !Contains(tail[j], CartesianAxes);
        assert tail[k..] == lines[k + 1..];
      }
      if SkipToMatrix(lines).Ok? {
        var k :| 0 <= k < |tail| && Contains(tail[k], CartesianAxes);
        assert Contains(lines[k + 1], CartesianAxes);
      }
    }
  }

  /** The locals of the block loop, together with the object fields it appends to. */
  datatype ScanState = ScanState(
    acc: Matrix,               // current_dyn
    atmI: int, atmJ: int,      // atom pair of the current 3 x 3 block
    coordLine: int,            // row inside the block
    dielectricRead: int,       // row of the dielectric / effective-charge / Raman tensor
    polRead: int,              // polarization of the current Raman column
    readingDielectric: bool, readingEffective: bool, readingRaman: bool,
    star: seq<Vector>,         // q points of this file
    dynmats: seq<Matrix>, qTot: seq<Vector>,
    dielectric: Option<seq<Vector>>, effective: Option<seq<seq<Vector>>>, raman: Option<seq<seq<Vector>>>)

  /** The state the block loop of a file starts from. */
  function StartScan(ph: Phonons, n: nat): ScanState
  {
    ScanState(ZeroMatrix(3 * n), 0, 0, 0, 0, 0, false, false, false, [],
      ph.dynmats, ph.qTot, ph.dielectric, ph.effective, ph.raman)
  }

  datatype Next = Continue(state: ScanState) | Stop(state: ScanState)

  /** `line.replace("(", ")").split(")")[1].split()`, each read with `float`. */
  function ReadQ(parse: string -> Option<real>, line: string): Result<Vector, Error>
  {
    var parts := SplitOn(Replace(line, '(', ')'), ')');
    if |parts| < 2 then Err(BadIndex) else Floats(parse, Words(parts[1]))
  }

  /** Row `coordLine` of block (atmI, atmJ) from a six-number line: entry k is `re + i*im` of the pair k. */
  function FillRow(parse: string -> Option<real>, acc: Matrix, row: int, col: int, toks: seq<string>, k: nat): (r: Result<Matrix, Error>)
    requires |toks| == 6 && k <= 3
    decreases 3 - k
  {
    if k == 3 then Ok(acc)
    else
      var re :- Float(parse, toks[2 * k]);
      var im :- Float(parse, toks[2 * k + 1]);
      var r :- Need(PyIndex(row, |acc|), BadIndex);
      var c :- Need(PyIndex(col + k, |acc[r]|), BadIndex);
      FillRow(parse, SetEntry(acc, r, c, Complex(re, im)), row, col, toks, k + 1)
  }

  /** "i j": the following rows belong to block (i - 1, j - 1). */
  function SelectPair(st: ScanState, first: string, second: string): (r: Result<ScanState, Error>)
    ensures r.Ok? ==> r.value == st.(atmI := r.value.atmI, atmJ := r.value.atmJ, coordLine := 0)
  {
    var i :- Int(first);
    var j :- Int(second);
    Ok(st.(atmI := i - 1, atmJ := j - 1, coordLine := 0))
  }

  /** Six numbers: row `coordLine` of the current block. */
  function WriteRow(parse: string -> Option<real>, st: ScanState, toks: seq<string>): (r: Result<ScanState, Error>)
    requires |toks| == 6
    ensures r.Ok? ==> r.value == st.(acc := r.value.acc, coordLine := st.coordLine + 1)
  {
    var acc :- FillRow(parse, st.acc, 3 * st.atmI + st.coordLine, 3 * st.atmJ, toks, 0);
    Ok(st.(acc := acc, coordLine := st.coordLine + 1))
  }

  /** A numeric line of the dynamical-matrix block: two tokens select the atom pair, six fill a row. */
  function MatrixLine(parse: string -> Option<real>, st: ScanState, toks: seq<string>): (r: Result<ScanState, Error>)
    ensures r.Ok? ==> r.value == st.(acc := r.value.acc, atmI := r.value.atmI, atmJ := r.value.atmJ, coordLine := r.value.coordLine)
  {
    if |toks| == 2 then SelectPair(st, toks[0], toks[1])
    else if |toks| == 6 then WriteRow(parse, st, toks)
    else Ok(st)
  }

  /** A numeric line of the dielectric block: three numbers fill the next row. */
  function DielectricLine(parse: string -> Option<real>, st: ScanState, toks: seq<string>): (r: Result<ScanState, Error>)
    ensures r.Ok? ==> r.value == st.(dielectric := r.value.dielectric, dielectricRead := r.value.dielectricRead)
    ensures r.Ok? && st.dielectric.Some? ==> r.value.dielectric.Some?
    ensures r == Err(NoneTensor) ==> st.dielectric.None?
  {
    if |toks| != 3 then Ok(st)
    else
      var row :- Floats(parse, toks);
      var t :- Need(st.dielectric, NoneTensor);
      var d :- Need(PyIndex(st.dielectricRead, |t|), BadIndex);
      Ok(st.(dielectric := Some(t[d := row]), dielectricRead := st.dielectricRead + 1))
  }

  /** A line of the effective-charge block: "atom # N" selects the atom, three numbers fill its next row. */
  function EffectiveLine(parse: string -> Option<real>, st: ScanState, toks: seq<string>): (r: Result<ScanState, Error>)
    requires |toks| > 0
    ensures r.Ok? ==> r.value == st.(effective := r.value.effective, atmI := r.value.atmI, dielectricRead := r.value.dielectricRead)
    ensures r.Ok? && st.effective.Some? ==> r.value.effective.Some?
    ensures r == Err(NoneTensor) ==> st.effective.None?
  {
    if IsAtomWord(toks[0]) then
      if |toks| < 3 then Err(BadIndex)
      else
        var a :- Int(toks[2]);
        Ok(st.(atmI := a - 1, dielectricRead := 0))
    else if |toks| == 3 then
      var row :- Floats(parse, toks);
      var t :- Need(st.effective, NoneTensor);
      var a :- Need(PyIndex(st.atmI, |t|), BadIndex);
      var d :- Need(PyIndex(st.dielectricRead, |t[a]|), BadIndex);
      Ok(st.(effective := Some(t[a := t[a][d := row]]), dielectricRead := st.dielectricRead + 1))
    else Ok(st)
  }

  /** `t[row, :, col] = values` for a 3-row table slice. */
  function SetColumn(t: seq<Vector>, col: int, values: Vector): (r: Result<seq<Vector>, Error>)
    requires |values| == 3
    ensures r.Ok? ==> |r.value| == |t|
  {
    if |t| != 3 then Err(BadValue)
    else
      var c0 :- Need(PyIndex(col, |t[0]|), BadIndex);
      var c1 :- Need(PyIndex(col, |t[1]|), BadIndex);
      var c2 :- Need(PyIndex(col, |t[2]|), BadIndex);
      Ok([t[0][c0 := values[0]], t[1][c1 := values[1]], t[2][c2 := values[2]]])
  }

  /** A line of the Raman block: "atom # N pol. # P" selects column 3(N-1)+(P-1), three numbers fill its next row. */
  function RamanLine(parse: string -> Option<real>, st: ScanState, toks: seq<string>): (r: Result<ScanState, Error>)
    requires |toks| > 0
    ensures r.Ok? ==> r.value == st.(raman := r.value.raman, atmI := r.value.atmI, polRead := r.value.polRead,
                                     dielectricRead := r.value.dielectricRead)
    ensures r.Ok? && st.raman.Some? ==> r.value.raman.Some?
    ensures r == Err(NoneTensor) ==> st.raman.None?
  {
    if IsAtomWord(toks[0]) then
      if |toks| < 3 then Err(BadIndex)
      else
        var a :- Int(toks[2]);
        if |toks| < 5 then Err(BadIndex)
        else
          var p :- Int(toks[4]);
          Ok(st.(atmI := a - 1, polRead := p - 1, dielectricRead := 0))
    else if |toks| == 3 then
      var row :- Floats(parse, toks);
      var t :- Need(st.raman, NoneTensor);
      var d :- Need(PyIndex(st.dielectricRead, |t|), BadIndex);
      var slice :- SetColumn(t[d], 3 * st.atmI + st.polRead, row);
      Ok(st.(raman := Some(t[d := slice]), dielectricRead := st.dielectricRead + 1))
    else Ok(st)
  }

  /** One line of the block loop. `n` is the number of atoms. */
  function Step(parse: string -> Option<real>, n: nat, st: ScanState, line: string): Result<Next, Error>
  {
    if Contains(line, Diagonalizing) then
      Ok(Stop(st.(dynmats := st.dynmats + [st.acc])))
    else if Contains(line, Dielectric) then
      Ok(Continue(st.(readingDielectric := true, readingEffective := false, readingRaman := false,
        dielectric := Some(ZeroTable(3, 3)), dielectricRead := 0)))
    else if Contains(line, Effective) then
      Ok(Continue(st.(readingDielectric := false, readingEffective := true, readingRaman := false,
        effective := Some(ZeroBlock(n, 3, 3)))))
    else if Contains(line, Raman) then
      Ok(Continue(st.(readingDielectric := false, readingEffective := false, readingRaman := true,
        raman := Some(ZeroBlock(3, 3, 3 * n)))))
    else if Contains(line, QMarker) then
      var q :- ReadQ(parse, line);
      Ok(Continue(st.(star := st.star + [q], qTot := st.qTot + [q],
        readingDielectric := false, readingEffective := false, readingRaman := false)))
    else if Contains(line, Ynamical) then
      Ok(Continue(st.(dynmats := st.dynmats + [st.acc],
        readingDielectric := false, readingEffective := false, readingRaman := false)))
    else
      var toks := Words(line);
      if |toks| == 0 then Ok(Continue(st))
      else
        var st' :- if st.readingDielectric then DielectricLine(parse, st, toks)
                   else if st.readingEffective then EffectiveLine(parse, st, toks)
                   else if st.readingRaman then RamanLine(parse, st, toks)
                   else MatrixLine(parse, st, toks);
        Ok(Continue(st'))
  }

  /** The block loop: steps line by line until "Diagonalizing"; running off the end is an IndexError. */
  function Scan(parse: string -> Option<real>, n: nat, st: ScanState, lines: seq<string>): Result<ScanState, Error>
    decreases |lines|
  {
    if |lines| == 0 then Err(BadIndex)
    else
      var next :- Step(parse, n, st, lines[0]);
      match next
      case Stop(s) => Ok(s)
      case Continue(s) => Scan(parse, n, s, lines[1..])
  }

  // ---------------------------------------------------------------- files

  /** `[l.strip() for l in lines]`. */
  function StripAll(lines: seq<string>): (r: seq<string>)
    ensures |r| == |lines| && forall k :: 0 <= k < |lines| ==> r[k] == Strip(lines[k])
  {
    seq(|lines|, k requires 0 <= k < |lines| => Strip(lines[k]))
  }

  /** The object after the header of the first file (or unchanged for a later file), with the lines left to scan. */
  function ReadHead(parse: string -> Option<real>, cellFromIbrav: (int, Vector) -> seq<Vector>,
                    ph: Phonons, lines: seq<string>, iq: nat): (r: Result<(Phonons, seq<string>), Error>)
    ensures iq > 0 ==> r == Ok((ph, lines))
    ensures r.Ok? ==> r.value.0.(structure := ph.structure, alat := ph.alat) == ph
    ensures r != Err(NoneTensor)
  {
    if iq == 0 then
      var h :- ParseHeader(parse, cellFromIbrav, lines);
      Ok((ph.(structure := h.structure, alat := h.alat), h.lines))
    else Ok((ph, lines))
  }

  /** The matrix blocks of one file, after its header: the q points read form one star. */
  function ScanFile(parse: string -> Option<real>, ph: Phonons, lines: seq<string>): (r: Result<Phonons, Error>)
    ensures r.Ok? ==> r.value.nqirr == ph.nqirr
  {
    var rest :- SkipToMatrix(lines);
    if ph.structure.nAtoms < 0 then Err(BadValue)
    else
      var st :- Scan(parse, ph.structure.nAtoms, StartScan(ph, ph.structure.nAtoms), rest);
      Ok(ph.(dynmats := st.dynmats, qTot := st.qTot, qStars := ph.qStars + [st.star],
        dielectric := st.dielectric, effective := st.effective, raman := st.raman))
  }

  /** One file: the header on the first, then the matrix blocks. */
  function LoadFile(parse: string -> Option<real>, cellFromIbrav: (int, Vector) -> seq<Vector>,
                    ph: Phonons, fs: FileSystem, prefix: string, fullName: bool, iq: nat): (r: Result<Phonons, Error>)
    ensures r.Ok? ==> r.value.nqirr == ph.nqirr
  {
    var path := FilePath(prefix, iq, fullName);
    if path !in fs then Err(MissingFile(path))
    else
      var head :- ReadHead(parse, cellFromIbrav, ph, StripAll(fs[path]), iq);
      ScanFile(parse, head.0, head.1)
  }

  /** `for iq in range(nqirr)`: the files are loaded in order, the first failure ends the loop. */
  function ForFiles(load: (Phonons, nat) -> Result<Phonons, Error>, ph: Phonons, iq: nat, nqirr: nat): Result<Phonons, Error>
    requires iq <= nqirr
    decreases nqirr - iq
  {
    if iq == nqirr then Ok(ph)
    else
      var ph' :- load(ph, iq);
      ForFiles(load, ph', iq + 1, nqirr)
  }

  /** One iteration of the loop over the files. */
  function FileLoader(parse: string -> Option<real>, cellFromIbrav: (int, Vector) -> seq<Vector>,
                      fs: FileSystem, prefix: string, fullName: bool): (Phonons, nat) -> Result<Phonons, Error>
  {
    (p: Phonons, iq: nat) => LoadFile(parse, cellFromIbrav, p, fs, prefix, fullName, iq)
  }

  /** `LoadFromQE(fildyn_prefix, nqirr, full_name)` on the object `ph`. */
  function LoadFromQE(parse: string -> Option<real>, cellFromIbrav: (int, Vector) -> seq<Vector>,
                      ph: Phonons, fs: FileSystem, prefix: string, nqirr: int, fullName: bool): (r: Result<Phonons, Error>)
    ensures nqirr <= 0 ==> r == Err(NonPositiveQCount)
    ensures nqirr > 1 && fullName ==> r == Err(FullNameWithSupercell)
    ensures r.Ok? ==> r.value.initialized
  {
    if nqirr <= 0 then Err(NonPositiveQCount)
    else if fullName && nqirr > 1 then Err(FullNameWithSupercell)
    else
      var ph' :- ForFiles(FileLoader(parse, cellFromIbrav, fs, prefix, fullName), ph.(structure := EmptyStructure), 0, nqirr);
      Ok(ph'.(initialized := true))
  }

  /** `Phonons(path, nqirr, full_name)`: a fresh object loaded from the files. */
  function FromFile(parse: string -> Option<real>, cellFromIbrav: (int, Vector) -> seq<Vector>,
                    fs: FileSystem, prefix: string, nqirr: int, fullName: bool): Result<Phonons, Error>
  {
    LoadFromQE(parse, cellFromIbrav, Init(nqirr), fs, prefix, nqirr, fullName)
  }

  // ---------------------------------------------------------------- properties

  /** A row line writes exactly the three entries `(3 atm_i + coordline, 3 atm_j + k)`, k = 0..2, and nothing else. */
  lemma {:induction false} FillRowWrites(parse: string -> Option<real>, acc: Matrix, row: int, col: int, toks: seq<string>, k: nat)
    requires |toks| == 6 && k <= 3
    requires 0 <= row < |acc| && 0 <= col && col + 3 <= |acc[row]|
    requires forall j :: 0 <= j < 6 ==> parse(toks[j]).Some?
    ensures FillRow(parse, acc, row, col, toks, k).Ok?
    ensures var m := FillRow(parse, acc, row, col, toks, k).value;
      && |m| == |acc| && (forall r :: 0 <= r < |acc| ==> |m[r]| == |acc[r]|)
      && forall r, c :: 0 <= r < |acc| && 0 <= c < |acc[r]| ==>
           m[r][c] == if r == row && col + k <= c < col + 3
                      then Complex(parse(toks[2 * (c - col)]).value, parse(toks[2 * (c - col) + 1]).value)
                      else acc[r][c]
    decreases 3 - k
  {
    if k < 3 {
      var v := Complex(parse(toks[2 * k]).value, parse(toks[2 * k + 1]).value);
      var acc' := SetEntry(acc, row, col + k, v);
      FillRowStep(parse, acc, row, col, toks, k);
      FillRowWrites(parse, acc', row, col, toks, k + 1);
    }
  }

  /** One entry of a row line: entry `k` is set, then the rest of the line is read. */
  lemma FillRowStep(parse: string -> Option<real>, acc: Matrix, row: int, col: int, toks: seq<string>, k: nat)
    requires |toks| == 6 && k < 3
    requires 0 <= row < |acc| && 0 <= col && col + 3 <= |acc[row]|
    requires parse(toks[2 * k]).Some? && parse(toks[2 * k + 1]).Some?
    ensures FillRow(parse, acc, row, col, toks, k)
         == FillRow(parse, SetEntry(acc, row, col + k, Complex(parse(toks[2 * k]).value, parse(toks[2 * k + 1]).value)), row, col, toks, k + 1)
  {
    assert Float(parse, toks[2 * k]) == Ok(parse(toks[2 * k]).value);
    assert Float(parse, toks[2 * k + 1]) == Ok(parse(toks[2 * k + 1]).value);
    assert PyIndex(row, |acc|) == Some(row);
    assert PyIndex(col + k, |acc[row]|) == Some(col + k);
  }

  /** "i j": the following rows belong to block (i - 1, j - 1), starting from its first row. */
  lemma PairLine(parse: string -> Option<real>, st: ScanState, a: nat, b: nat)
    ensures MatrixLine(parse, st, [ShowNat(a), ShowNat(b)]) == Ok(st.(atmI := a - 1, atmJ := b - 1, coordLine := 0))
  {
    assert Int(ShowNat(a)) == Ok(a as int) by {
      ParseShowNat(a);
    }
    assert Int(ShowNat(b)) == Ok(b as int) by {
      ParseShowNat(b);
    }
    SelectPairValue(st, ShowNat(a), ShowNat(b), a, b);
    assert MatrixLine(parse, st, [ShowNat(a), ShowNat(b)]) == SelectPair(st, ShowNat(a), ShowNat(b));
  }

  lemma SelectPairValue(st: ScanState, first: string, second: string, i: int, j: int)
    requires Int(first) == Ok(i) && Int(second) == Ok(j)
    ensures SelectPair(st, first, second) == Ok(st.(atmI := i - 1, atmJ := j - 1, coordLine := 0))
  {
  }

  /** Six numbers: row `coordline` of the current block is written and the row counter advances. */
  lemma RowLine(parse: string -> Option<real>, st: ScanState, toks: seq<string>)
    requires |toks| == 6 && forall j :: 0 <= j < 6 ==> parse(toks[j]).Some?
    requires 0 <= 3 * st.atmI + st.coordLine < |st.acc|
    requires 0 <= st.atmJ && 3 * st.atmJ + 3 <= |st.acc[3 * st.atmI + st.coordLine]|
    ensures MatrixLine(parse, st, toks).Ok?
    ensures var s := MatrixLine(parse, st, toks).value;
      && s == st.(acc := s.acc, coordLine := st.coordLine + 1)
      && |s.acc| == |st.acc| && (forall r :: 0 <= r < |st.acc| ==> |s.acc[r]| == |st.acc[r]|)
      && forall r, c :: 0 <= r < |st.acc| && 0 <= c < |st.acc[r]| ==>
           s.acc[r][c] == if r == 3 * st.atmI + st.coordLine && 3 * st.atmJ <= c < 3 * st.atmJ + 3
                          then Complex(parse(toks[2 * (c - 3 * st.atmJ)]).value, parse(toks[2 * (c - 3 * st.atmJ) + 1]).value)
                          else st.acc[r][c]
  {
    FillRowWrites(parse, st.acc, 3 * st.atmI + st.coordLine, 3 * st.atmJ, toks, 0);
    assert MatrixLine(parse, st, toks) == WriteRow(parse, st, toks);
  }

  /**
   * What the block loop keeps while it reads a file with `n` atoms: every q
   * point of the star is also appended to `q_tot`, the matrices already
   * stored stay, every new one is 3n x 3n, and a tensor being filled exists.
   */
  predicate ScanInvariant(n: nat, q0: seq<Vector>, d0: seq<Matrix>, st: ScanState)
  {
    && st.qTot == q0 + st.star
    && |d0| <= |st.dynmats| && st.dynmats[..|d0|] == d0
    && (forall k :: |d0| <= k < |st.dynmats| ==> Square(st.dynmats[k], 3 * n))
    && Square(st.acc, 3 * n)
    && (st.readingDielectric ==> st.dielectric.Some?)
    && (st.readingEffective ==> st.effective.Some?)
    && (st.readingRaman ==> st.raman.Some?)
  }

  lemma SetEntrySquare(m: Matrix, n: nat, r: nat, c: nat, v: Complex)
    requires Square(m, n) && r < n && c < n
    ensures Square(SetEntry(m, r, c, v), n)
  {
  }

  lemma {:induction false} FillRowShape(parse: string -> Option<real>, acc: Matrix, row: int, col: int, toks: seq<string>, k: nat, n: nat)
    requires |toks| == 6 && k <= 3 && Square(acc, n)
    ensures var r := FillRow(parse, acc, row, col, toks, k); r.Ok? ==> Square(r.value, n)
    ensures FillRow(parse, acc, row, col, toks, k) != Err(NoneTensor)
    decreases 3 - k
  {
    if k < 3 {
      var re := Float(parse, toks[2 * k]);
      var im := Float(parse, toks[2 * k + 1]);
      if re.Ok? && im.Ok? {
        var r := PyIndex(row, |acc|);
        if r.Some? {
          var c := PyIndex(col + k, |acc[r.value]|);
          if c.Some? {
            SetEntrySquare(acc, n, r.value, c.value, Complex(re.value, im.value));
            FillRowShape(parse, SetEntry(acc, r.value, c.value, Complex(re.value, im.value)), row, col, toks, k + 1, n);
          }
        }
      }
    }
  }

  lemma MatrixLineKeepsInvariant(parse: string -> Option<real>, n: nat, q0: seq<Vector>, d0: seq<Matrix>, st: ScanState, toks: seq<string>)
    requires ScanInvariant(n, q0, d0, st)
    ensures MatrixLine(parse, st, toks) != Err(NoneTensor)
    ensures MatrixLine(parse, st, toks).Ok? ==> ScanInvariant(n, q0, d0, MatrixLine(parse, st, toks).value)
    ensures MatrixLine(parse, st, toks).Ok? ==> MatrixLine(parse, st, toks).value.dynmats == st.dynmats
  {
    if |toks| == 2 {
      PairLineKeepsInvariant(parse, n, q0, d0, st, toks);
    } else if |toks| == 6 {
      RowLineKeepsInvariant(parse, n, q0, d0, st, toks);
    }
  }

  lemma PairLineKeepsInvariant(parse: string -> Option<real>, n: nat, q0: seq<Vector>, d0: seq<Matrix>, st: ScanState, toks: seq<string>)
    requires ScanInvariant(n, q0, d0, st) && |toks| == 2
    ensures MatrixLine(parse, st, toks) != Err(NoneTensor)
    ensures MatrixLine(parse, st, toks).Ok? ==> ScanInvariant(n, q0, d0, MatrixLine(parse, st, toks).value)
    ensures MatrixLine(parse, st, toks).Ok? ==> MatrixLine(parse, st, toks).value.dynmats == st.dynmats
  {
  }

  lemma RowLineKeepsInvariant(parse: string -> Option<real>, n: nat, q0: seq<Vector>, d0: seq<Matrix>, st: ScanState, toks: seq<string>)
    requires ScanInvariant(n, q0, d0, st) && |toks| == 6
    ensures MatrixLine(parse, st, toks) != Err(NoneTensor)
    ensures MatrixLine(parse, st, toks).Ok? ==> ScanInvariant(n, q0, d0, MatrixLine(parse, st, toks).value)
    ensures MatrixLine(parse, st, toks).Ok? ==> MatrixLine(parse, st, toks).value.dynmats == st.dynmats
  {
    var acc := FillRow(parse, st.acc, 3 * st.atmI + st.coordLine, 3 * st.atmJ, toks, 0);
    FillRowShape(parse, st.acc, 3 * st.atmI + st.coordLine, 3 * st.atmJ, toks, 0, 3 * n);
    assert MatrixLine(parse, st, toks) == WriteRow(parse, st, toks);
    if acc.Ok? {
      assert WriteRow(parse, st, toks) == Ok(st.(acc := acc.value, coordLine := st.coordLine + 1));
    }
  }

  /** One line keeps the invariant, and a tensor is never written while it is None. */
  lemma StepKeepsInvariant(parse: string -> Option<real>, n: nat, q0: seq<Vector>, d0: seq<Matrix>, st: ScanState, line: string)
    requires ScanInvariant(n, q0, d0, st)
    ensures Step(parse, n, st, line) != Err(NoneTensor)
    ensures Step(parse, n, st, line).Ok? ==> ScanInvariant(n, q0, d0, Step(parse, n, st, line).value.state)
    ensures Step(parse, n, st, line).Ok? ==> |Step(parse, n, st, line).value.state.dynmats| >= |st.dynmats|
    ensures Step(parse, n, st, line).Ok? && Step(parse, n, st, line).value.Stop? ==>
      |Step(parse, n, st, line).value.state.dynmats| > |st.dynmats|
  {
    var toks := Words(line);
    if Contains(line, Diagonalizing) {
      assert (st.dynmats + [st.acc])[..|d0|] == st.dynmats[..|d0|];
    } else if Contains(line, Dielectric) || Contains(line, Effective) || Contains(line, Raman) {
    } else if Contains(line, QMarker) {
    } else if Contains(line, Ynamical) {
      assert (st.dynmats + [st.acc])[..|d0|] == st.dynmats[..|d0|];
    } else if |toks| > 0 {
      var r := if st.readingDielectric then DielectricLine(parse, st, toks)
               else if st.readingEffective then EffectiveLine(parse, st, toks)
               else if st.readingRaman then RamanLine(parse, st, toks)
               else MatrixLine(parse, st, toks);
      if !st.readingDielectric && !st.readingEffective && !st.readingRaman {
        MatrixLineKeepsInvariant(parse, n, q0, d0, st, toks);
      }
      assert r.Ok? ==> Step(parse, n, st, line) == Ok(Continue(r.value));
      assert r.Err? ==> Step(parse, n, st, line) == Err(r.error);
    }
  }

  /** The block loop keeps the invariant and never raises the TypeError of a None tensor. */
  lemma {:induction false} ScanKeepsInvariant(parse: string -> Option<real>, n: nat, q0: seq<Vector>, d0: seq<Matrix>, st: ScanState, lines: seq<string>)
    requires ScanInvariant(n, q0, d0, st)
    ensures Scan(parse, n, st, lines) != Err(NoneTensor)
    ensures Scan(parse, n, st, lines).Ok? ==> ScanInvariant(n, q0, d0, Scan(parse, n, st, lines).value)
    ensures Scan(parse, n, st, lines).Ok? ==> |Scan(parse, n, st, lines).value.dynmats| > |st.dynmats|
    decreases |lines|
  {
    if |lines| > 0 {
      StepKeepsInvariant(parse, n, q0, d0, st, lines[0]);
      var next := Step(parse, n, st, lines[0]);
      if next.Ok? && next.value.Continue? {
        assert Scan(parse, n, st, lines) == Scan(parse, n, next.value.state, lines[1..]);
        ScanKeepsInvariant(parse, n, q0, d0, next.value.state, lines[1..]);
      }
    }
  }

  /** What a file contributes: one star whose points are also appended to `q_tot`, and at least one 3N x 3N matrix. */
  predicate FileContribution(ph: Phonons, r: Phonons)
  {
    && |r.qStars| == |ph.qStars| + 1 && r.qStars[..|ph.qStars|] == ph.qStars
    && r.qTot == ph.qTot + r.qStars[|ph.qStars|]
    && |r.dynmats| > |ph.dynmats| && r.dynmats[..|ph.dynmats|] == ph.dynmats
    && r.nqirr == ph.nqirr && r.initialized == ph.initialized
  }

  /** Every matrix a file adds is 3N x 3N. */
  predicate SquareAdded(ph: Phonons, r: Phonons)
  {
    r.structure.nAtoms >= 0 && forall k :: |ph.dynmats| <= k < |r.dynmats| ==> Square(r.dynmats[k], 3 * r.structure.nAtoms)
  }

  lemma ScanFileContribution(parse: string -> Option<real>, ph: Phonons, lines: seq<string>)
    ensures ScanFile(parse, ph, lines) != Err(NoneTensor)
    ensures var r := ScanFile(parse, ph, lines);
      r.Ok? ==> && FileContribution(ph, r.value) && SquareAdded(ph, r.value)
                && r.value.structure == ph.structure && r.value.alat == ph.alat
  {
    var rest := SkipToMatrix(lines);
    if rest.Ok? && ph.structure.nAtoms >= 0 {
      var n: nat := ph.structure.nAtoms;
      var st0 := StartScan(ph, n);
      assert st0.dynmats[..|ph.dynmats|] == ph.dynmats;
      ScanKeepsInvariant(parse, n, ph.qTot, ph.dynmats, st0, rest.value);
      var st := Scan(parse, n, st0, rest.value);
      if st.Ok? {
        var r := ph.(dynmats := st.value.dynmats, qTot := st.value.qTot, qStars := ph.qStars + [st.value.star],
          dielectric := st.value.dielectric, effective := st.value.effective, raman := st.value.raman);
        assert ScanFile(parse, ph, lines) == Ok(r);
        assert r.qStars[..|ph.qStars|] == ph.qStars;
      } else {
        assert ScanFile(parse, ph, lines) == Err(st.error);
      }
    } else if rest.Ok? {
      assert ScanFile(parse, ph, lines) == Err(BadValue);
    } else {
      assert ScanFile(parse, ph, lines) == Err(BadIndex);
    }
  }

  lemma LoadFileContribution(parse: string -> Option<real>, cellFromIbrav: (int, Vector) -> seq<Vector>,
                             ph: Phonons, fs: FileSystem, prefix: string, fullName: bool, iq: nat)
    ensures LoadFile(parse, cellFromIbrav, ph, fs, prefix, fullName, iq) != Err(NoneTensor)
    ensures var r := LoadFile(parse, cellFromIbrav, ph, fs, prefix, fullName, iq);
      r.Ok? ==> && FilePath(prefix, iq, fullName) in fs
                && FileContribution(ph, r.value) && SquareAdded(ph, r.value)
                && (iq > 0 ==> r.value.structure == ph.structure && r.value.alat == ph.alat)
  {
    var path := FilePath(prefix, iq, fullName);
    if path in fs {
      var head := ReadHead(parse, cellFromIbrav, ph, StripAll(fs[path]), iq);
      if head.Ok? {
        var ph1 := head.value.0;
        ScanFileContribution(parse, ph1, head.value.1);
        assert LoadFile(parse, cellFromIbrav, ph, fs, prefix, fullName, iq) == ScanFile(parse, ph1, head.value.1);
      } else {
        assert LoadFile(parse, cellFromIbrav, ph, fs, prefix, fullName, iq) == Err(head.error);
      }
    }
  }

  /** `count` more stars, their points appended to `q_tot` in order. */
  predicate StarsAdded(ph: Phonons, r: Phonons, count: nat)
  {
    && |r.qStars| == |ph.qStars| + count && r.qStars[..|ph.qStars|] == ph.qStars
    && r.qTot == ph.qTot + Concat(r.qStars[|ph.qStars|..])
  }

  /** At least `count` more matrices, after the ones already present. */
  predicate MatricesAdded(ph: Phonons, r: Phonons, count: nat)
  {
    |r.dynmats| >= |ph.dynmats| + count && r.dynmats[..|ph.dynmats|] == ph.dynmats
  }

  lemma StarsCompose(ph: Phonons, ph1: Phonons, r: Phonons, count: nat)
    requires FileContribution(ph, ph1) && StarsAdded(ph1, r, count)
    ensures StarsAdded(ph, r, count + 1)
  {
    var q0 := |ph.qStars|;
    var rs := r.qStars;
    assert rs[..q0] == ph.qStars by {
      assert rs[..q0 + 1][..q0] == rs[..q0];
    }
    assert Concat(rs[q0..]) == rs[q0] + Concat(rs[q0 + 1..]) by {
      assert rs[q0..] == [rs[q0]] + rs[q0 + 1..];
      ConcatAppend([rs[q0]], rs[q0 + 1..]);
      assert Concat([rs[q0]]) == rs[q0] by {
        assert [rs[q0]] == [] + [rs[q0]];
        ConcatSnoc([], rs[q0]);
      }
    }
    assert ph1.qStars[q0] == rs[q0] by {
      assert rs[..q0 + 1] == ph1.qStars;
    }
    assert |ph1.qStars| == q0 + 1;
    calc {
      r.qTot;
      ph1.qTot + Concat(rs[q0 + 1..]);
      (ph.qTot + rs[q0]) + Concat(rs[q0 + 1..]);
      ph.qTot + (rs[q0] + Concat(rs[q0 + 1..]));
      ph.qTot + Concat(rs[q0..]);
    }
  }

  lemma MatricesCompose(ph: Phonons, ph1: Phonons, r: Phonons, count: nat)
    requires FileContribution(ph, ph1) && MatricesAdded(ph1, r, count)
    ensures MatricesAdded(ph, r, count + 1)
  {
    assert r.dynmats[..|ph1.dynmats|][..|ph.dynmats|] == r.dynmats[..|ph.dynmats|];
  }

  /** Files `lo .. hi - 1` all exist. */
  predicate FilesPresent(fs: FileSystem, prefix: string, fullName: bool, lo: nat, hi: nat)
    decreases hi - lo
  {
    lo >= hi || (FilePath(prefix, lo, fullName) in fs && FilesPresent(fs, prefix, fullName, lo + 1, hi))
  }

  lemma {:induction false} FilesPresentAll(fs: FileSystem, prefix: string, fullName: bool, lo: nat, hi: nat)
    requires FilesPresent(fs, prefix, fullName, lo, hi)
    ensures forall j :: lo <= j < hi ==> FilePath(prefix, j, fullName) in fs
    decreases hi - lo
  {
    if lo < hi {
      FilesPresentAll(fs, prefix, fullName, lo + 1, hi);
    }
  }

  /** What the loop adds up to when every iteration contributes one file's share. */
  lemma {:induction false} ForFilesContribution(load: (Phonons, nat) -> Result<Phonons, Error>, fs: FileSystem, prefix: string,
                                                fullName: bool, ph: Phonons, iq: nat, nqirr: nat)
    requires iq <= nqirr
    requires forall p: Phonons, i: nat :: load(p, i) != Err(NoneTensor)
    requires forall p: Phonons, i: nat :: load(p, i).Ok? ==> FilePath(prefix, i, fullName) in fs && FileContribution(p, load(p, i).value)
    ensures ForFiles(load, ph, iq, nqirr) != Err(NoneTensor)
    ensures var r := ForFiles(load, ph, iq, nqirr);
      r.Ok? ==> && FilesPresent(fs, prefix, fullName, iq, nqirr)
                && StarsAdded(ph, r.value, nqirr - iq)
                && MatricesAdded(ph, r.value, nqirr - iq)
    decreases nqirr - iq
  {
    if iq == nqirr {
      assert ph.qStars[|ph.qStars|..] == [];
      assert ph.qTot + [] == ph.qTot;
      assert ph.dynmats[..|ph.dynmats|] == ph.dynmats;
    } else {
      var p1 := load(ph, iq);
      if p1.Ok? {
        var ph1 := p1.value;
        ForFilesContribution(load, fs, prefix, fullName, ph1, iq + 1, nqirr);
        var r := ForFiles(load, ph1, iq + 1, nqirr);
        if r.Ok? {
          StarsCompose(ph, ph1, r.value, nqirr - iq - 1);
          MatricesCompose(ph, ph1, r.value, nqirr - iq - 1);
        }
      }
    }
  }

  /** The loop over files run up to file j, then on from there. */
  lemma {:induction false} ForFilesSplit(load: (Phonons, nat) -> Result<Phonons, Error>, ph: Phonons, iq: nat, j: nat, nqirr: nat)
    requires iq <= j <= nqirr
    requires ForFiles(load, ph, iq, j).Ok?
    ensures ForFiles(load, ph, iq, nqirr) == ForFiles(load, ForFiles(load, ph, iq, j).value, j, nqirr)
    decreases j - iq
  {
    if iq < j {
      ForFilesSplit(load, load(ph, iq).value, iq + 1, j, nqirr);
    }
  }

  /** The loop over files `iq .. j` is the loop over `iq .. j - 1` followed by file j - 1. */
  lemma ForFilesLast(load: (Phonons, nat) -> Result<Phonons, Error>, ph: Phonons, iq: nat, j: nat)
    requires iq < j && ForFiles(load, ph, iq, j - 1).Ok?
    ensures ForFiles(load, ph, iq, j) == load(ForFiles(load, ph, iq, j - 1).value, j - 1)
  {
    ForFilesSplit(load, ph, iq, j - 1, j);
  }

  lemma FileLoaderContribution(parse: string -> Option<real>, cellFromIbrav: (int, Vector) -> seq<Vector>,
                               fs: FileSystem, prefix: string, fullName: bool)
    ensures var load := FileLoader(parse, cellFromIbrav, fs, prefix, fullName);
      && (forall p: Phonons, i: nat :: load(p, i) != Err(NoneTensor))
      && (forall p: Phonons, i: nat :: load(p, i).Ok? ==> FilePath(prefix, i, fullName) in fs && FileContribution(p, load(p, i).value))
  {
    var load := FileLoader(parse, cellFromIbrav, fs, prefix, fullName);
    forall p: Phonons, i: nat
      ensures load(p, i) != Err(NoneTensor)
      ensures load(p, i).Ok? ==> FilePath(prefix, i, fullName) in fs && FileContribution(p, load(p, i).value)
    {
      LoadFileContribution(parse, cellFromIbrav, p, fs, prefix, fullName, i);
    }
  }

  /**
   * Loading reads exactly the files `prefix1 .. prefix<nqirr>`, adds one star
   * per file whose points are appended to `q_tot` in order, stores at least one
   * 3N x 3N matrix per file after the ones already present, and never writes
   * into a tensor that was not allocated.
   */
  lemma LoadFromQEBookkeeping(parse: string -> Option<real>, cellFromIbrav: (int, Vector) -> seq<Vector>,
                              ph: Phonons, fs: FileSystem, prefix: string, nqirr: int, fullName: bool)
    ensures LoadFromQE(parse, cellFromIbrav, ph, fs, prefix, nqirr, fullName) != Err(NoneTensor)
    ensures nqirr >= 1 && !(fullName && nqirr > 1) && FilePath(prefix, 0, fullName) !in fs ==>
      LoadFromQE(parse, cellFromIbrav, ph, fs, prefix, nqirr, fullName) == Err(MissingFile(FilePath(prefix, 0, fullName)))
    ensures forall j: nat | j < nqirr && !(fullName && nqirr > 1) && FilePath(prefix, j, fullName) !in fs ::
      ForFiles(FileLoader(parse, cellFromIbrav, fs, prefix, fullName), ph.(structure := EmptyStructure), 0, j).Ok? ==>
      LoadFromQE(parse, cellFromIbrav, ph, fs, prefix, nqirr, fullName) == Err(MissingFile(FilePath(prefix, j, fullName)))
    ensures var r := LoadFromQE(parse, cellFromIbrav, ph, fs, prefix, nqirr, fullName);
      r.Ok? ==> && (forall j :: 0 <= j < nqirr ==> FilePath(prefix, j, fullName) in fs)
                && StarsAdded(ph, r.value, nqirr)
                && MatricesAdded(ph, r.value, nqirr)
  {
    if nqirr >= 1 && !(fullName && nqirr > 1) {
      var ph0 := ph.(structure := EmptyStructure);
      var load := FileLoader(parse, cellFromIbrav, fs, prefix, fullName);
      FileLoaderContribution(parse, cellFromIbrav, fs, prefix, fullName);
      ForFilesContribution(load, fs, prefix, fullName, ph0, 0, nqirr);
      if ForFiles(load, ph0, 0, nqirr).Ok? {
        FilesPresentAll(fs, prefix, fullName, 0, nqirr);
      }
      forall j: nat | j < nqirr && FilePath(prefix, j, fullName) !in fs && ForFiles(load, ph0, 0, j).Ok?
        ensures LoadFromQE(parse, cellFromIbrav, ph, fs, prefix, nqirr, fullName) == Err(MissingFile(FilePath(prefix, j, fullName)))
      {
        ForFilesSplit(load, ph0, 0, j, nqirr);
      }
    }
  }
}

=== FILE: modes.dfy ===
/**
 * The pure steps around the eigen-solver: the per-atom mass array, the mass
 * scaling of a dynamical matrix, and the post-processing of `DyagDinQ`, which
 * turns eigenvalues into signed frequencies and sorts them together with
 * their polarization vectors.
 *
 * The eigen-solver itself and the square root are parameters; the square
 * root is only assumed to be one (`IsSqrt`).
 */
module Modes {
  import opened Results
  import opened Container

  // ---------------------------------------------------------------- masses

  /**
   * `mass1[3*i : 3*i + 3] = weight(masses[atoms[i]])` for every atom; `weight`
   * is `np.sqrt` in `GetUpsilonMatrix` and the identity elsewhere. A label
   * without a mass raises KeyError.
   */
  method ExpandMasses(s: Structure, weight: real -> real) returns (r: Result<seq<real>, Error>)
    requires WellFormed(s)
    ensures r.Ok? <==> forall i :: 0 <= i < |s.atoms| ==> s.atoms[i] in s.masses
    ensures r.Err? ==> r.error == UnknownKey
    ensures r.Ok? ==> |r.value| == 3 * s.nAtoms
    ensures r.Ok? ==> forall k :: 0 <= k < |r.value| ==> s.atoms[k / 3] in s.masses && r.value[k] == weight(s.masses[s.atoms[k / 3]])
  {
    var mass1 := seq(3 * s.nAtoms, _ => 0.0);
    var i := 0;
    while i < s.nAtoms
      invariant 0 <= i <= s.nAtoms
      invariant |mass1| == 3 * s.nAtoms
      invariant forall j :: 0 <= j < i ==> s.atoms[j] in s.masses
      invariant forall k :: 0 <= k < 3 * i ==> s.atoms[k / 3] in s.masses && mass1[k] == weight(s.masses[s.atoms[k / 3]])
    {
      if s.atoms[i] !in s.masses {
        return Err(UnknownKey);
      }
      var m := weight(s.masses[s.atoms[i]]);
      mass1 := mass1[3 * i := m][3 * i + 1 := m][3 * i + 2 := m];
      i := i + 1;
    }
    return Ok(mass1);
  }

  // ---------------------------------------------------------------- the mass-scaled matrix

  /** `np.sqrt`, as far as the model needs it: positive roots of positive numbers. */
  ghost predicate IsSqrt(sqrt: real -> real)
  {
    forall x: real :: x > 0.0 ==> sqrt(x) > 0.0 && sqrt(x) * sqrt(x) == x
  }

  /**
   * `1 / np.sqrt`, as far as the model needs it: a positive weight whose
   * square is the reciprocal of a positive argument.
   */
  ghost predicate IsInvRoot(invRoot: real -> real)
  {
    forall x: real {:trigger invRoot(x)} :: x > 0.0 ==> invRoot(x) > 0.0 && invRoot(x) * invRoot(x) * x == 1.0
  }

  function Conj(z: Complex): Complex
  {
    Complex(z.re, -z.im)
  }

  predicate Hermitian(m: Matrix, d: nat)
    requires Square(m, d)
  {
    forall r, c :: 0 <= r < d && 0 <= c < d ==> m[r][c] == Conj(m[c][r])
  }

  /**
   * The matrix `DyagDinQ` hands to the eigen-solver: entry (r, c) times
   * `invRoot` of the product of the masses of atoms r / 3 and c / 3, where
   * `invRoot` is `1 / np.sqrt` as numpy evaluates it. A missing mass is a
   * KeyError, a matrix of another shape a ValueError.
   */
  function MassScaled(s: Structure, invRoot: real -> real, dyn: Matrix): (r: Result<Matrix, Error>)
    requires WellFormed(s)
    ensures r.Err? <==> !MassesKnown(s) || !Square(dyn, 3 * s.nAtoms)
    ensures r.Err? ==> r.error == (if MassesKnown(s) then BadValue else UnknownKey)
    ensures r.Ok? ==> Square(r.value, 3 * s.nAtoms)
    ensures r.Ok? ==> forall i, j :: 0 <= i < 3 * s.nAtoms && 0 <= j < 3 * s.nAtoms ==>
      r.value[i][j] == Complex(MassWeight(s, invRoot, i, j) * dyn[i][j].re, MassWeight(s, invRoot, i, j) * dyn[i][j].im)
  {
    var d := 3 * s.nAtoms;
    if !MassesKnown(s) then Err(UnknownKey)
    else if !Square(dyn, d) then Err(BadValue)
    else
      Ok(seq(d, i requires 0 <= i < d => seq(d, j requires 0 <= j < d =>
        Complex(MassWeight(s, invRoot, i, j) * dyn[i][j].re, MassWeight(s, invRoot, i, j) * dyn[i][j].im))))
  }

  /** `1 / np.sqrt(m1 * m2)` for the atoms of row `i` and column `j`. */
  function MassWeight(s: Structure, invRoot: real -> real, i: nat, j: nat): real
    requires MassesKnown(s) && i < 3 * |s.atoms| && j < 3 * |s.atoms|
  {
    invRoot(s.masses[s.atoms[i / 3]] * s.masses[s.atoms[j / 3]])
  }

  /** For positive masses the weight is positive and its square times the two masses is one. */
  lemma MassWeightLaw(s: Structure, invRoot: real -> real, i: nat, j: nat)
    requires IsInvRoot(invRoot) && MassesKnown(s) && i < 3 * |s.atoms| && j < 3 * |s.atoms|
    ensures var m := s.masses[s.atoms[i / 3]] * s.masses[s.atoms[j / 3]];
      m > 0.0 ==> MassWeight(s, invRoot, i, j) > 0.0 && MassWeight(s, invRoot, i, j) * MassWeight(s, invRoot, i, j) * m == 1.0
  {
  }

  /** Scaling by the masses keeps a Hermitian matrix Hermitian: the weight of (r, c) is the weight of (c, r). */
  lemma MassScaledHermitian(s: Structure, invRoot: real -> real, dyn: Matrix)
    requires WellFormed(s) && MassesKnown(s) && Square(dyn, 3 * s.nAtoms)
    requires Hermitian(dyn, 3 * s.nAtoms)
    ensures MassScaled(s, invRoot, dyn).Ok? && Hermitian(MassScaled(s, invRoot, dyn).value, 3 * s.nAtoms)
  {
    var d := 3 * s.nAtoms;
    var m := MassScaled(s, invRoot, dyn).value;
    forall i, j | 0 <= i < d && 0 <= j < d
      ensures m[i][j] == Conj(m[j][i])
    {
      var w := MassWeight(s, invRoot, i, j);
      MassWeightSymmetric(s, invRoot, i, j);
      ScaleConj(w, dyn[j][i]);
    }
  }

  lemma ScaleConj(w: real, z: Complex)
    ensures Complex(w * Conj(z).re, w * Conj(z).im) == Conj(Complex(w * z.re, w * z.im))
  {
  }

  lemma MassWeightSymmetric(s: Structure, invRoot: real -> real, i: nat, j: nat)
    requires MassesKnown(s) && i < 3 * |s.atoms| && j < 3 * |s.atoms|
    ensures MassWeight(s, invRoot, i, j) == MassWeight(s, invRoot, j, i)
  {
    var a := s.masses[s.atoms[i / 3]];
    var b := s.masses[s.atoms[j / 3]];
    assert a * b == b * a;
  }

  // ---------------------------------------------------------------- signed frequencies

  function Abs(x: real): real
  {
    if x < 0.0 then -x else x
  }

  /** `w` squared is `x`, and `w` has the sign of `x`. */
  predicate SignedRoot(w: real, x: real)
  {
    w * Abs(w) == x
  }

  /** The frequency of one eigenvalue's real part: its root, negated for an instability. */
  function Frequency(sqrt: real -> real, f2: real): (w: real)
    requires IsSqrt(sqrt)
    ensures w > 0.0 <==> f2 > 0.0
    ensures w < 0.0 <==> f2 < 0.0
    ensures SignedRoot(w, f2)
  {
    if f2 > 0.0 then sqrt(f2)
    else if f2 < 0.0 then -sqrt(-f2)
    else 0.0
  }

  /** `frequencies[f2 > 0] = sqrt(f2)`, `frequencies[f2 < 0] = -sqrt(-f2)`, zero elsewhere. */
  function Frequencies(sqrt: real -> real, eigvals: seq<Complex>): (fs: seq<real>)
    requires IsSqrt(sqrt)
    ensures |fs| == |eigvals|
    ensures forall k :: 0 <= k < |fs| ==> SignedRoot(fs[k], eigvals[k].re)
  {
    seq(|eigvals|, k requires 0 <= k < |eigvals| => Frequency(sqrt, eigvals[k].re))
  }

  // ---------------------------------------------------------------- argsort

  function Range(n: nat): (r: seq<nat>)
    ensures |r| == n && forall k :: 0 <= k < n ==> r[k] == k
  {
    seq(n, k => k)
  }

  /** `p` lists each of 0 .. n - 1 exactly once. */
  predicate IsPermutation(p: seq<nat>, n: nat)
  {
    multiset(p) == multiset(Range(n))
  }

  predicate Below(p: seq<nat>, n: nat)
  {
    forall k :: 0 <= k < |p| ==> p[k] < n
  }

  /** Neighbouring indices of `p` pick non-decreasing values of `f`. */
  predicate SortedBy(f: seq<real>, p: seq<nat>)
    requires Below(p, |f|)
  {
    forall k :: 0 <= k < |p| - 1 ==> f[p[k]] <= f[p[k + 1]]
  }

  /** Inserts index `i` into `p` after every index whose value does not exceed `f[i]`. */
  function Insert(f: seq<real>, i: nat, p: seq<nat>): (r: seq<nat>)
    requires i < |f| && Below(p, |f|)
    ensures multiset(r) == multiset(p) + multiset{i}
    ensures |r| == |p| + 1 && Below(r, |f|)
    ensures r[0] == i || (|p| > 0 && r[0] == p[0])
    ensures SortedBy(f, p) ==> SortedBy(f, r)
    decreases |p|
  {
    if |p| == 0 then [i]
    else if f[i] < f[p[0]] then [i] + p
    else
      var tail := p[1..];
      assert Below(tail, |f|);
      var rest := Insert(f, i, tail);
      assert p == [p[0]] + tail;
      var r := [p[0]] + rest;
      assert multiset(r) == multiset{p[0]} + multiset(rest);
      assert Below(r, |f|);
      assert SortedBy(f, p) ==> SortedBy(f, r) by {
        if SortedBy(f, p) {
          assert SortedBy(f, tail);
          assert f[p[0]] <= f[rest[0]];
        }
      }
      r
  }

  /** The indices 0 .. m - 1 ordered by their values in `f`. */
  function ArgSortPrefix(f: seq<real>, m: nat): (r: seq<nat>)
    requires m <= |f|
    ensures IsPermutation(r, m) && |r| == m && Below(r, |f|) && SortedBy(f, r)
  {
    if m == 0 then []
    else
      assert Range(m) == Range(m - 1) + [m - 1];
      Insert(f, m - 1, ArgSortPrefix(f, m - 1))
  }

  /** `np.argsort(f)`; among equal values the earlier index comes first. */
  function ArgSort(f: seq<real>): (p: seq<nat>)
    ensures IsPermutation(p, |f|) && |p| == |f| && Below(p, |f|) && SortedBy(f, p)
  {
    ArgSortPrefix(f, |f|)
  }

  /** Adjacent order gives order between any two positions. */
  lemma {:induction false} SortedByAll(f: seq<real>, p: seq<nat>, a: nat, b: nat)
    requires Below(p, |f|) && SortedBy(f, p)
    requires a <= b < |p|
    ensures f[p[a]] <= f[p[b]]
    decreases b - a
  {
    if a < b {
      SortedByAll(f, p, a + 1, b);
    }
  }

  /** An index permutation hits every index once: each position holds a distinct index. */
  lemma PermutationDistinct(p: seq<nat>, n: nat, a: nat, b: nat)
    requires IsPermutation(p, n)
    requires a < b < |p|
    ensures p[a] < n && p[b] < n && p[a] != p[b]
  {
    assert p[a] in multiset(p) && p[b] in multiset(p);
    assert p[a] in multiset(Range(n));
    assert p[b] in multiset(Range(n));
    assert multiset(Range(n))[p[a]] == 1 by { RangeCount(n, p[a]); }
    CountPair(p, a, b);
  }

  lemma CountPair(p: seq<nat>, a: nat, b: nat)
    requires a < b < |p|
    ensures p[a] == p[b] ==> multiset(p)[p[a]] >= 2
  {
    assert p == p[..a] + [p[a]] + p[a + 1..b] + [p[b]] + p[b + 1..];
  }

  lemma {:induction false} RangeCount(n: nat, x: nat)
    requires x < n
    ensures multiset(Range(n))[x] == 1
  {
    if n > 0 {
      assert Range(n) == Range(n - 1) + [n - 1];
      if x < n - 1 {
        RangeCount(n - 1, x);
      } else {
        RangeAbsent(n - 1, x);
      }
    }
  }

  lemma RangeAbsent(n: nat, x: nat)
    requires x >= n
    ensures multiset(Range(n))[x] == 0
  {
    assert x !in Range(n);
  }

  // ---------------------------------------------------------------- sorting the modes

  /** `values[mask]`. */
  function Permute(values: seq<real>, p: seq<nat>): (r: seq<real>)
    requires Below(p, |values|)
    ensures |r| == |p| && forall k :: 0 <= k < |p| ==> r[k] == values[p[k]]
  {
    seq(|p|, k requires 0 <= k < |p| => values[p[k]])
  }

  /** `m[:, mask]`: column k of the result is column `p[k]` of `m`. */
  function PermuteColumns(m: Matrix, p: seq<nat>, d: nat): (r: Matrix)
    requires Square(m, d) && Below(p, d)
    ensures |r| == d && forall i :: 0 <= i < d ==> |r[i]| == |p|
    ensures forall i, k :: 0 <= i < d && 0 <= k < |p| ==> r[i][k] == m[i][p[k]]
  {
    seq(d, i requires 0 <= i < d => seq(|p|, k requires 0 <= k < |p| => m[i][p[k]]))
  }

  /** The frequencies and polarization vectors `DyagDinQ` returns for the eigenpairs of its matrix. */
  function SortModes(sqrt: real -> real, eigvals: seq<Complex>, pols: Matrix): (r: (seq<real>, Matrix))
    requires IsSqrt(sqrt) && Square(pols, |eigvals|)
  {
    var fs := Frequencies(sqrt, eigvals);
    var mask := ArgSort(fs);
    (Permute(fs, mask), PermuteColumns(pols, mask, |eigvals|))
  }

  /**
   * The sorted modes: frequencies non-decreasing, each the signed root of
   * one eigenvalue's real part, every eigenvalue used once, and every
   * polarization column still next to its own frequency.
   */
  lemma SortModesSpec(sqrt: real -> real, eigvals: seq<Complex>, pols: Matrix)
    requires IsSqrt(sqrt) && Square(pols, |eigvals|)
    ensures var (ws, vs) := SortModes(sqrt, eigvals, pols);
      var p := ArgSort(Frequencies(sqrt, eigvals));
      && |ws| == |eigvals| && Square(vs, |eigvals|)
      && IsPermutation(p, |eigvals|)
      && (forall a, b :: 0 <= a <= b < |ws| ==> ws[a] <= ws[b])
      && (forall k :: 0 <= k < |ws| ==> SignedRoot(ws[k], eigvals[p[k]].re))
      && (forall i, k :: 0 <= i < |eigvals| && 0 <= k < |eigvals| ==> vs[i][k] == pols[i][p[k]])
  {
    var fs := Frequencies(sqrt, eigvals);
    var p := ArgSort(fs);
    var ws := Permute(fs, p);
    var vs := PermuteColumns(pols, p, |eigvals|);
    assert SortModes(sqrt, eigvals, pols) == (ws, vs);
    forall a, b | 0 <= a <= b < |ws|
      ensures ws[a] <= ws[b]
    {
      SortedByAll(fs, p, a, b);
    }
    forall k | 0 <= k < |ws|
      ensures SignedRoot(ws[k], eigvals[p[k]].re)
    {
      assert ws[k] == fs[p[k]];
    }
  }

  /**
   * `DyagDinQ(iq)`: scale the matrix of q point `iq` by the masses, hand it
   * to the eigen-solver `eig`, then sort the modes. The mass lookup runs
   * before the matrix lookup, so a missing mass wins over a bad index.
   */
  function DyagDinQ(ph: Phonons, iq: int, sqrt: real -> real, invRoot: real -> real, eig: Matrix -> (seq<Complex>, Matrix)): (r: Result<(seq<real>, Matrix), Error>)
    requires WellFormed(ph.structure) && IsSqrt(sqrt) && IsInvRoot(invRoot) && EigenSolver(eig)
    ensures r.Err? <==> (|| !MassesKnown(ph.structure) || PyIndex(iq, |ph.dynmats|).None?
                         || !Square(ph.dynmats[PyIndex(iq, |ph.dynmats|).value], 3 * ph.structure.nAtoms))
    ensures r.Err? ==> r.error == (if !MassesKnown(ph.structure) then UnknownKey
                                   else if PyIndex(iq, |ph.dynmats|).None? then BadIndex
                                   else BadValue)
    ensures r.Ok? ==> |r.value.0| == 3 * ph.structure.nAtoms && Square(r.value.1, 3 * ph.structure.nAtoms)
    ensures r.Ok? ==> forall a, b :: 0 <= a <= b < |r.value.0| ==> r.value.0[a] <= r.value.0[b]
    ensures r.Ok? ==>
      var e := eig(MassScaled(ph.structure, invRoot, ph.dynmats[PyIndex(iq, |ph.dynmats|).value]).value);
      exists p :: IsPermutation(p, |e.0|) && ModesOf(e.0, e.1, p, r.value.0, r.value.1)
  {
    var s := ph.structure;
    if !MassesKnown(s) then Err(UnknownKey)
    else
      var k :- Need(PyIndex(iq, |ph.dynmats|), BadIndex);
      var m :- MassScaled(s, invRoot, ph.dynmats[k]);
      var (eigvals, pols) := eig(m);
      SortModesSpec(sqrt, eigvals, pols);
      assert ModesOf(eigvals, pols, ArgSort(Frequencies(sqrt, eigvals)), SortModes(sqrt, eigvals, pols).0, SortModes(sqrt, eigvals, pols).1);
      Ok(SortModes(sqrt, eigvals, pols))
  }

  /**
   * Frequency k is the signed root of eigenvalue `p[k]` and polarization
   * column k is eigenvector column `p[k]`.
   */
  predicate ModesOf(eigvals: seq<Complex>, pols: Matrix, p: seq<nat>, ws: seq<real>, vs: Matrix)
  {
    && |p| == |eigvals| == |ws| && Below(p, |eigvals|) && Square(pols, |eigvals|) && Square(vs, |eigvals|)
    && (forall k :: 0 <= k < |p| ==> SignedRoot(ws[k], eigvals[p[k]].re))
    && (forall i, k :: 0 <= i < |p| && 0 <= k < |p| ==> vs[i][k] == pols[i][p[k]])
  }

  /** `np.linalg.eig` as far as shapes go: d eigenvalues and a d x d matrix of eigenvectors. */
  ghost predicate EigenSolver(eig: Matrix -> (seq<Complex>, Matrix))
  {
    forall m: Matrix, d: nat :: Square(m, d) ==> |eig(m).0| == d && Square(eig(m).1, d)
  }
}

=== FILE: results.dfy ===
/** Failure-compatible wrappers used to model Python's exceptions as values. */
module Results {

  datatype Option<+T> = None | Some(value: T) {
    predicate IsFailure() { None? }

    function PropagateFailure<U>(): Option<U>
      requires None?
    {
      None
    }

    function Extract(): T
      requires Some?
    {
      value
    }
  }

  /** `Ok` carries the value a Python call returns, `Err` the exception it raises. */
  datatype Result<+T, +E> = Ok(value: T) | Err(error: E) {
    predicate IsFailure() { Err? }

    function PropagateFailure<U>(): Result<U, E>
      requires Err?
    {
      Err(error)
    }

    function Extract(): T
      requires Ok?
    {
      value
    }
  }

  /** Turns a missing value into the given error. */
  function Need<T, E>(o: Option<T>, e: E): (r: Result<T, E>)
    ensures r.Ok? <==> o.Some?
    ensures r.Ok? ==> r.value == o.value
    ensures r.Err? ==> r.error == e
  {
    match o
    case Some(v) => Ok(v)
    case None => Err(e)
  }
}

=== FILE: roundtrip.dfy ===
/**
 * Reading back what `save_qe` writes: the loader, run on the files the saver
 * produced, rebuilds the structure, the stars, `q_tot` and the matrices, each
 * number passed once through the formatter and the parser.
 *
 * The formatter `show` and the parser `parse` are linked only by the laws of
 * `Codec`: a formatted number is a non-empty run of digits, signs and points
 * that `float` accepts, and `float` reads a formatted natural number exactly.
 */
module RoundTrip {
  import opened Results
  import opened Text
  import opened Container
  import opened Loader
  import opened Saver

  const NumeralChars: set<char> := {'0', '1', '2', '3', '4', '5', '6', '7', '8', '9', '+', '-', '.'}

  predicate Numeral(s: string)
  {
    |s| > 0 && OnlyChars(s, NumeralChars)
  }

  ghost predicate Codec(parse: string -> Option<real>, show: real -> string)
  {
    && (forall x {:trigger Numeral(show(x))} :: Numeral(show(x)))
    && (forall x {:trigger parse(show(x))} :: parse(show(x)).Some?)
    && (forall n: nat :: parse(ShowNat(n)) == Some(n as real))
  }

  /** The three fixed-point formats of `save_qe`, each read back by `float`. */
  ghost predicate Codecs(parse: string -> Option<real>, fmt: Formats)
  {
    Codec(parse, fmt.fixed8) && Codec(parse, fmt.fixed9) && Codec(parse, fmt.fixed10)
  }

  lemma ShowNumeral(parse: string -> Option<real>, show: real -> string, x: real)
    requires Codec(parse, show)
    ensures Numeral(show(x)) && parse(show(x)).Some?
  {
    assert parse(show(x)).Some?;
  }

  /** A number after one trip through the file. */
  function R(parse: string -> Option<real>, show: real -> string, x: real): real
    requires Codec(parse, show)
  {
    parse(show(x)).value
  }

  function RC(parse: string -> Option<real>, show: real -> string, z: Complex): Complex
    requires Codec(parse, show)
  {
    Complex(R(parse, show, z.re), R(parse, show, z.im))
  }

  /** A q point after one trip: its three components. */
  function RQ(parse: string -> Option<real>, show: real -> string, q: Vector): (r: Vector)
    requires Codec(parse, show) && |q| >= 3
    ensures |r| == 3
  {
    [R(parse, show, q[0]), R(parse, show, q[1]), R(parse, show, q[2])]
  }

  /** The d x d corner of a matrix after one trip. */
  function RM(parse: string -> Option<real>, show: real -> string, m: Matrix, d: nat): (r: Matrix)
    requires Codec(parse, show) && Covers(m, d)
    ensures Square(r, d)
  {
    seq(d, i requires 0 <= i < d => seq(d, j requires 0 <= j < d => RC(parse, show, m[i][j])))
  }

  /** The three numbers of a cell row or a position, written in units of `alat` and read back in units of `alat2`. */
  function RV(parse: string -> Option<real>, show: real -> string, v: Vector, alat: real, alat2: real): (r: Vector)
    requires Codec(parse, show) && |v| == 3 && alat != 0.0
    ensures |r| == 3
  {
    [R(parse, show, v[0] / alat) * alat2, R(parse, show, v[1] / alat) * alat2, R(parse, show, v[2] / alat) * alat2]
  }

  lemma NumeralWord(s: string)
    requires Numeral(s)
    ensures IsWord(s) && Trimmed(s)
  {
    assert s[0] in NumeralChars && s[|s| - 1] in NumeralChars;
  }

  lemma ShowNatNumeral(n: nat)
    ensures Numeral(ShowNat(n))
  {
    var s := ShowNat(n);
    assert forall i :: 0 <= i < |s| ==> IsDigit(s[i]);
  }

  // ---------------------------------------------------------------- a species line

  /** `split("'")` of a line with exactly two quotes gives the three pieces around them. */
  lemma QuotedFields(a: string, m: string, b: string)
    requires '\'' !in a && '\'' !in m && '\'' !in b
    ensures SplitOn(a + "'" + m + "'" + b, '\'') == [a, m, b]
  {
    assert a + "'" + m + "'" + b == a + ['\''] + (m + ['\''] + b);
    SplitOnFirst(a, '\'', m + ['\''] + b);
    SplitOnFirst(m, '\'', b);
    SplitOnAbsent(b, '\'');
  }

  /** A species line after `strip()`: the tab is gone. */
  lemma SpeciesTextStrip(show: real -> string, k: nat, name: string, mass: real)
    requires Numeral(show(mass))
    ensures Strip(SpeciesText(show, k, name, mass)) == ShowNat(k) + "  '" + name + " '  " + show(mass)
  {
    var body := ShowNat(k) + "  '" + name + " '  " + show(mass);
    ShowNatNumeral(k);
    NumeralWord(ShowNat(k));
    NumeralWord(show(mass));
    assert body[0] == ShowNat(k)[0];
    assert body[|body| - 1] == show(mass)[|show(mass)| - 1];
    assert "\t" + ShowNat(k) + "  '" + name + " '  " + show(mass) == "\t" + body;
    StripIndented("\t", body);
  }

  /**
   * The label and the mass `save_qe` writes for a species are read back:
   * the label unchanged when it has no quote and no surrounding blanks,
   * the mass after one trip through the format.
   */
  lemma SpeciesLineRead(parse: string -> Option<real>, show: real -> string, k: nat, name: string, mass: real)
    requires Codec(parse, show)
    requires '\'' !in name && Trimmed(name)
    ensures var line := Strip(SpeciesText(show, k, name, mass));
      SpeciesLabel(line) == Ok(name) && SpeciesMass(parse, line) == Ok(R(parse, show, mass))
  {
    ShowNumeral(parse, show, mass);
    SpeciesTextStrip(show, k, name, mass);
    var num := ShowNat(k);
    ShowNatNumeral(k);
    NoQuote(num);
    NoQuote(show(mass));
    assert num + "  '" + name + " '  " + show(mass) == (num + "  ") + "'" + (name + " ") + "'" + ("  " + show(mass));
    QuotedFields(num + "  ", name + " ", "  " + show(mass));
    StripTrailing(name, " ");
    NumeralWord(show(mass));
    StripIndented("  ", show(mass));
  }

  lemma NoQuote(s: string)
    requires Numeral(s)
    ensures '\'' !in s
  {
    forall i | 0 <= i < |s|
      ensures s[i] != '\''
    {
      assert s[i] in NumeralChars;
    }
  }

  // ---------------------------------------------------------------- the block loop without its end

  /** How the block loop treats one line, as a value: the walks below are proved for any reader that obeys the line laws. */
  type LineReader = (ScanState, string) -> Result<Next, Error>

  /** The block loop's own reader: `Step` with the parser and the atom count fixed. */
  function Reader(parse: string -> Option<real>, n: nat): LineReader
  {
    (st: ScanState, line: string) => Step(parse, n, st, line)
  }

  /** The block loop over `lines` with reader `f`, which may run out without meeting a stop. */
  function Walk(f: LineReader, st: ScanState, lines: seq<string>): Result<Next, Error>
    decreases |lines|
  {
    if |lines| == 0 then Ok(Continue(st))
    else
      var next :- f(st, lines[0]);
      match next
      case Stop(s) => Ok(Stop(s))
      case Continue(s) => Walk(f, s, lines[1..])
  }

  lemma {:induction false} WalkAppend(f: LineReader, st: ScanState, a: seq<string>, b: seq<string>, mid: ScanState)
    requires Walk(f, st, a) == Ok(Continue(mid))
    ensures Walk(f, st, a + b) == Walk(f, mid, b)
    decreases |a|
  {
    if |a| == 0 {
      assert a + b == b;
    } else {
      assert (a + b)[0] == a[0];
      assert (a + b)[1..] == a[1..] + b;
      var next := f(st, a[0]).value;
      WalkAppend(f, next.state, a[1..], b, mid);
    }
  }

  /** One line that continues, then the rest. */
  lemma WalkCons(f: LineReader, st: ScanState, line: string, rest: seq<string>, s: ScanState)
    requires f(st, line) == Ok(Continue(s))
    ensures Walk(f, st, [line] + rest) == Walk(f, s, rest)
  {
    assert ([line] + rest)[0] == line && ([line] + rest)[1..] == rest;
  }

  /** The block loop itself, once a prefix of its lines has walked to `mid`. */
  lemma {:induction false} ScanAfterWalk(parse: string -> Option<real>, n: nat, st: ScanState, a: seq<string>, b: seq<string>, mid: ScanState)
    requires Walk(Reader(parse, n), st, a) == Ok(Continue(mid))
    ensures Scan(parse, n, st, a + b) == Scan(parse, n, mid, b)
    decreases |a|
  {
    if |a| == 0 {
      assert a + b == b;
    } else {
      assert (a + b)[0] == a[0];
      assert (a + b)[1..] == a[1..] + b;
      var next := Step(parse, n, st, a[0]).value;
      ScanAfterWalk(parse, n, next.state, a[1..], b, mid);
    }
  }

  /** A line that stops the block loop ends it with the stopping state. */
  lemma ScanStop(parse: string -> Option<real>, n: nat, st: ScanState, line: string, rest: seq<string>, s: ScanState)
    requires Reader(parse, n)(st, line) == Ok(Stop(s))
    ensures Scan(parse, n, st, [line] + rest) == Ok(s)
  {
    assert ([line] + rest)[0] == line;
  }

  lemma StripAllAppend(a: seq<string>, b: seq<string>)
    ensures StripAll(a + b) == StripAll(a) + StripAll(b)
  {
  }

  // ---------------------------------------------------------------- one line at a time

  /** Flags of the auxiliary blocks all down: numeric lines go to the matrix. */
  predicate MatrixMode(st: ScanState)
  {
    !st.readingDielectric && !st.readingEffective && !st.readingRaman
  }

  lemma NoMarkerIn(s: string, cs: set<char>)
    requires OnlyChars(s, cs)
    requires 'D' !in cs && 'E' !in cs && 'R' !in cs && 'y' !in cs
    ensures !Contains(s, Diagonalizing) && !Contains(s, Dielectric) && !Contains(s, Effective)
    ensures !Contains(s, Raman) && !Contains(s, Ynamical)
  {
    AbsentChar(s, cs, Diagonalizing, 0);
    AbsentChar(s, cs, Dielectric, 0);
    AbsentChar(s, cs, Effective, 0);
    AbsentChar(s, cs, Raman, 0);
    AbsentChar(s, cs, Ynamical, 0);
  }

  lemma StepBlank(parse: string -> Option<real>, n: nat, st: ScanState)
    ensures Step(parse, n, st, "") == Ok(Continue(st))
  {
    NoMarkerIn("", {});
    AbsentChar("", {}, QMarker, 0);
  }

  /** Numerals joined by spaces: a stripped line of exactly those words, holding no marker. */
  lemma NumericText(ts: seq<string>)
    requires forall k :: 0 <= k < |ts| ==> Numeral(ts[k])
    ensures Strip(Join(ts)) == Join(ts) && Words(Join(ts)) == ts
  {
    NumeralWords(ts);
    JoinTrimmed(ts);
    assert Strip(Join(ts)) == Join(ts) by {
      StripTrimmed(Join(ts));
    }
    assert Words(Join(ts)) == ts by {
      WordsJoin(ts);
    }
  }

  lemma NumeralWords(ts: seq<string>)
    requires forall k :: 0 <= k < |ts| ==> Numeral(ts[k])
    ensures forall k :: 0 <= k < |ts| ==> IsWord(ts[k])
  {
    forall k | 0 <= k < |ts|
      ensures IsWord(ts[k])
    {
      NumeralWord(ts[k]);
    }
  }

  lemma JoinNumeralChars(ts: seq<string>)
    requires forall k :: 0 <= k < |ts| ==> Numeral(ts[k])
    ensures OnlyChars(Join(ts), NumeralChars + {' '})
  {
    var cs := NumeralChars + {' '};
    forall k | 0 <= k < |ts|
      ensures OnlyChars(ts[k], cs)
    {
      assert forall i :: 0 <= i < |ts[k]| ==> ts[k][i] in NumeralChars;
    }
    JoinChars(ts, cs);
  }

  lemma NumeralLineChars()
    ensures var cs := NumeralChars + {' '}; 'D' !in cs && 'E' !in cs && 'R' !in cs && 'y' !in cs && 'q' !in cs
  {
  }

  /** A line without markers, in matrix mode, goes to the matrix. */
  lemma StepPlain(parse: string -> Option<real>, n: nat, st: ScanState, line: string, cs: set<char>)
    requires OnlyChars(line, cs) && 'D' !in cs && 'E' !in cs && 'R' !in cs && 'y' !in cs && 'q' !in cs
    requires MatrixMode(st) && |Words(line)| > 0
    requires MatrixLine(parse, st, Words(line)).Ok?
    ensures Step(parse, n, st, line) == Ok(Continue(MatrixLine(parse, st, Words(line)).value))
  {
    NoMarkerIn(line, cs);
    AbsentChar(line, cs, QMarker, 0);
  }

  /** A line of numerals joined by spaces, in matrix mode, is a matrix line. */
  lemma StepNumeric(parse: string -> Option<real>, n: nat, st: ScanState, ts: seq<string>)
    requires |ts| > 0 && forall k :: 0 <= k < |ts| ==> Numeral(ts[k])
    requires MatrixMode(st)
    requires MatrixLine(parse, st, ts).Ok?
    ensures Strip(Join(ts)) == Join(ts)
    ensures Step(parse, n, st, Join(ts)) == Ok(Continue(MatrixLine(parse, st, ts).value))
  {
    NumericText(ts);
    assert OnlyChars(Join(ts), NumeralChars + {' '}) by {
      JoinNumeralChars(ts);
    }
    NumeralLineChars();
    StepPlain(parse, n, st, Join(ts), NumeralChars + {' '});
  }

  /** "i j" selects the pair (i - 1, j - 1). */
  lemma StepPair(parse: string -> Option<real>, n: nat, st: ScanState, a: nat, b: nat)
    requires MatrixMode(st)
    ensures Strip(PairText(a, b)) == PairText(a, b)
    ensures Step(parse, n, st, PairText(a, b)) == Ok(Continue(st.(atmI := a - 1, atmJ := b - 1, coordLine := 0)))
  {
    var ts := [ShowNat(a), ShowNat(b)];
    assert forall k :: 0 <= k < |ts| ==> Numeral(ts[k]) by {
      ShowNatNumeral(a);
      ShowNatNumeral(b);
    }
    assert MatrixLine(parse, st, ts) == Ok(st.(atmI := a - 1, atmJ := b - 1, coordLine := 0)) by {
      PairLine(parse, st, a, b);
    }
    StepNumeric(parse, n, st, ts);
  }

  // ---------------------------------------------------------------- the q line and the titles

  /** The q line after `strip()`. */
  function QBody(show: real -> string, q: Vector): string
    requires |q| >= 3
  {
    "q = (    " + show(q[0]) + "   " + show(q[1]) + "   " + show(q[2]) + " )"
  }

  /** The numbers between the parentheses, with their spacing. */
  function QInner(show: real -> string, q: Vector): string
    requires |q| >= 3
  {
    "    " + show(q[0]) + "   " + show(q[1]) + "   " + show(q[2]) + " "
  }

  lemma QTextStrip(show: real -> string, q: Vector)
    requires |q| >= 3
    ensures Strip(QText(show, q)) == QBody(show, q)
  {
    var body := QBody(show, q);
    assert body[0] == 'q' && body[|body| - 1] == ')';
    StripIndented(Indent, body);
  }

  lemma QBodyParts(show: real -> string, q: Vector)
    requires |q| >= 3
    ensures QBody(show, q) == "q = " + "(" + QInner(show, q) + ")"
  {
  }

  /** The characters between the parentheses are numerals and spaces. */
  lemma QInnerChars(parse: string -> Option<real>, show: real -> string, q: Vector)
    requires Codec(parse, show) && |q| >= 3
    ensures OnlyChars(QInner(show, q), NumeralChars + {' '})
  {
    var cs := NumeralChars + {' '};
    assert OnlyChars("    ", cs) && OnlyChars("   ", cs) && OnlyChars(" ", cs);
    ShowNumeral(parse, show, q[0]);
    ShowNumeral(parse, show, q[1]);
    ShowNumeral(parse, show, q[2]);
    assert OnlyChars(show(q[0]), cs) && OnlyChars(show(q[1]), cs) && OnlyChars(show(q[2]), cs);
    OnlyCharsAppend("    ", show(q[0]), cs);
    OnlyCharsAppend("    " + show(q[0]), "   ", cs);
    OnlyCharsAppend("    " + show(q[0]) + "   ", show(q[1]), cs);
    OnlyCharsAppend("    " + show(q[0]) + "   " + show(q[1]), "   ", cs);
    OnlyCharsAppend("    " + show(q[0]) + "   " + show(q[1]) + "   ", show(q[2]), cs);
    OnlyCharsAppend("    " + show(q[0]) + "   " + show(q[1]) + "   " + show(q[2]), " ", cs);
  }

  /** The words between the parentheses are the three numbers. */
  lemma QInnerWords(parse: string -> Option<real>, show: real -> string, q: Vector)
    requires Codec(parse, show) && |q| >= 3
    ensures Words(QInner(show, q)) == [show(q[0]), show(q[1]), show(q[2])]
  {
    var s0, s1, s2 := show(q[0]), show(q[1]), show(q[2]);
    ShowNumeral(parse, show, q[0]);
    ShowNumeral(parse, show, q[1]);
    ShowNumeral(parse, show, q[2]);
    NumeralWord(s0);
    NumeralWord(s1);
    NumeralWord(s2);
    var t2 := s2 + " ";
    var u1 := "   " + t2;
    var t1 := s1 + u1;
    var u0 := "   " + t1;
    var t0 := s0 + u0;
    assert QInner(show, q) == "    " + t0;
    assert Blank("    ") && Blank("   ") && Blank(" ");
    WordsBlank(" ", "");
    assert " " + "" == " ";
    WordsCons(s2, " ");
    WordsBlank("   ", t2);
    WordsCons(s1, u1);
    WordsBlank("   ", t1);
    WordsCons(s0, u0);
    WordsBlank("    ", t0);
  }

  /** Neither parenthesis occurs between the parentheses. */
  lemma QInnerNoParens(parse: string -> Option<real>, show: real -> string, q: Vector)
    requires Codec(parse, show) && |q| >= 3
    ensures '(' !in QInner(show, q) && ')' !in QInner(show, q)
  {
    var inner := QInner(show, q);
    QInnerChars(parse, show, q);
    forall i | 0 <= i < |inner|
      ensures inner[i] != '(' && inner[i] != ')'
    {
      assert inner[i] in NumeralChars + {' '};
    }
  }

  /** Replacing "(" by ")" leaves the q line as two closing parentheses around the numbers. */
  lemma QBodyReplaced(parse: string -> Option<real>, show: real -> string, q: Vector)
    requires Codec(parse, show) && |q| >= 3
    ensures Replace(QBody(show, q), '(', ')') == "q = " + [')'] + (QInner(show, q) + [')'] + "")
  {
    var inner := QInner(show, q);
    QBodyParts(show, q);
    QInnerNoParens(parse, show, q);
    ReplaceConcat("q = " + "(" + inner, ")", '(', ')');
    ReplaceConcat("q = " + "(", inner, '(', ')');
    ReplaceConcat("q = ", "(", '(', ')');
    ReplaceAbsent("q = ", '(', ')');
    ReplaceAbsent(inner, '(', ')');
    ReplaceAbsent(")", '(', ')');
  }

  /** Splitting at ")" then gives the prefix, the numbers, and the empty tail. */
  lemma QBodySplit(parse: string -> Option<real>, show: real -> string, q: Vector)
    requires Codec(parse, show) && |q| >= 3
    ensures SplitOn(Replace(QBody(show, q), '(', ')'), ')') == ["q = ", QInner(show, q), ""]
  {
    var inner := QInner(show, q);
    QBodyReplaced(parse, show, q);
    QInnerNoParens(parse, show, q);
    SplitOnFirst("q = ", ')', inner + [')'] + "");
    SplitOnFirst(inner, ')', "");
    assert SplitOn("", ')') == [""];
  }

  /** `ReadQ` on the stripped q line gives the q point after one trip. */
  lemma QBodyRead(parse: string -> Option<real>, show: real -> string, q: Vector)
    requires Codec(parse, show) && |q| >= 3
    ensures ReadQ(parse, QBody(show, q)) == Ok(RQ(parse, show, q))
  {
    QBodySplit(parse, show, q);
    QInnerWords(parse, show, q);
    ShowNumeral(parse, show, q[0]);
    ShowNumeral(parse, show, q[1]);
    ShowNumeral(parse, show, q[2]);
    var ws := [show(q[0]), show(q[1]), show(q[2])];
    assert ReadQ(parse, QBody(show, q)) == Floats(parse, ws);
    var r := Floats(parse, ws);
    assert r.Ok?;
    assert r.value[0] == R(parse, show, q[0]);
    assert r.value[1] == R(parse, show, q[1]);
    assert r.value[2] == R(parse, show, q[2]);
    assert r.value == RQ(parse, show, q);
  }

  /** The stripped q line holds the q marker and no other. */
  lemma QBodyMarkers(parse: string -> Option<real>, show: real -> string, q: Vector)
    requires Codec(parse, show) && |q| >= 3
    ensures Contains(QBody(show, q), QMarker)
    ensures !Contains(QBody(show, q), Diagonalizing) && !Contains(QBody(show, q), Dielectric)
    ensures !Contains(QBody(show, q), Effective) && !Contains(QBody(show, q), Raman)
    ensures !Contains(QBody(show, q), Ynamical)
  {
    var inner := QInner(show, q);
    var cs := NumeralChars + {' ', 'q', '=', '(', ')'};
    QBodyParts(show, q);
    QInnerChars(parse, show, q);
    assert OnlyChars(inner, cs);
    assert OnlyChars("q = " + "(", cs) && OnlyChars(")", cs);
    OnlyCharsAppend("q = " + "(", inner, cs);
    OnlyCharsAppend("q = " + "(" + inner, ")", cs);
    NoMarkerIn(QBody(show, q), cs);
    assert QBody(show, q) == "" + QMarker + ("(" + inner + ")");
    ContainsMiddle("", QMarker, "(" + inner + ")");
  }

  /** The q line appends the q point, after one trip, to the star and to `q_tot`, and ends any auxiliary block. */
  lemma StepQ(parse: string -> Option<real>, show: real -> string, n: nat, st: ScanState, q: Vector)
    requires Codec(parse, show) && |q| >= 3
    ensures Step(parse, n, st, Strip(QText(show, q)))
         == Ok(Continue(st.(star := st.star + [RQ(parse, show, q)], qTot := st.qTot + [RQ(parse, show, q)],
                            readingDielectric := false, readingEffective := false, readingRaman := false)))
  {
    QTextStrip(show, q);
    QBodyMarkers(parse, show, q);
    QBodyRead(parse, show, q);
  }

  /** Any line holding "Diagonalizing" stops the block loop. */
  lemma StepStopLine(parse: string -> Option<real>, n: nat, st: ScanState, line: string)
    requires Contains(line, Diagonalizing)
    ensures Step(parse, n, st, line) == Ok(Stop(st.(dynmats := st.dynmats + [st.acc])))
  {
  }

  /** A line whose only marker is "ynamical" stores the matrix read so far. */
  lemma StepTitleLine(parse: string -> Option<real>, n: nat, st: ScanState, line: string)
    requires !Contains(line, Diagonalizing) && !Contains(line, Dielectric) && !Contains(line, Effective)
    requires !Contains(line, Raman) && !Contains(line, QMarker) && Contains(line, Ynamical)
    ensures Step(parse, n, st, line)
         == Ok(Continue(st.(dynmats := st.dynmats + [st.acc],
                            readingDielectric := false, readingEffective := false, readingRaman := false)))
  {
  }

  lemma TitlesStrip()
    ensures Strip(BlockTitle) == BlockTitleText && Strip(DiagTitle) == DiagTitleText
  {
    StripIndented(Indent, BlockTitleText);
    StripIndented(Indent, DiagTitleText);
  }

  /** The characters of the block title after its capital D. */
  const TitleChars: set<char> := {'y', 'n', 'a', 'm', 'i', 'c', 'l', ' ', 'M', 't', 'r', 'x', 's', 'e'}

  lemma BlockTitleChars()
    ensures BlockTitleText == "D" + BlockTitleText[1..]
    ensures OnlyChars(BlockTitleText[1..], TitleChars)
    ensures OnlyChars(BlockTitleText, TitleChars + {'D'})
  {
  }

  /** The block title holds "ynamical" and no other marker. */
  lemma BlockTitleMarkers()
    ensures Contains(BlockTitleText, Ynamical)
    ensures !Contains(BlockTitleText, Diagonalizing) && !Contains(BlockTitleText, Dielectric)
    ensures !Contains(BlockTitleText, Effective) && !Contains(BlockTitleText, Raman) && !Contains(BlockTitleText, QMarker)
  {
    BlockTitleChars();
    DielectricNotInTitle();
    var cs := TitleChars + {'D'};
    AbsentChar(BlockTitleText, cs, Diagonalizing, 4);
    AbsentChar(BlockTitleText, cs, Effective, 0);
    AbsentChar(BlockTitleText, cs, Raman, 0);
    AbsentChar(BlockTitleText, cs, QMarker, 0);
    YnamicalInTitle();
  }

  /** "Dielectric" shares only its capital D with the block title. */
  lemma DielectricNotInTitle()
    ensures !Contains(BlockTitleText, Dielectric)
  {
    BlockTitleChars();
    var tail := BlockTitleText[1..];
    AbsentChar(tail, TitleChars, Dielectric, 0);
    assert ("D" + tail)[1] != Dielectric[1];
    AbsentCons('D', tail, Dielectric);
  }

  lemma YnamicalInTitle()
    ensures Contains(BlockTitleText, Ynamical)
  {
    var word := BlockTitleText[..9];
    forall i | 0 <= i < 9
      ensures word[i] == "Dynamical"[i]
    {
    }
    assert BlockTitleText[1..9] == word[1..] == Ynamical;
    assert Occurs(BlockTitleText, Ynamical, 1);
  }

  lemma DiagonalizingInTrailer()
    ensures Contains(DiagTitleText, Diagonalizing)
  {
    forall i | 0 <= i < 13
      ensures DiagTitleText[..13][i] == Diagonalizing[i]
    {
    }
    assert Occurs(DiagTitleText, Diagonalizing, 0);
  }

  /** A block title stores the matrix read so far and ends any auxiliary block. */
  lemma StepBlockTitle(parse: string -> Option<real>, n: nat, st: ScanState)
    ensures Step(parse, n, st, Strip(BlockTitle))
         == Ok(Continue(st.(dynmats := st.dynmats + [st.acc],
                            readingDielectric := false, readingEffective := false, readingRaman := false)))
  {
    TitlesStrip();
    BlockTitleMarkers();
    StepTitleLine(parse, n, st, BlockTitleText);
  }

  /** The trailer's title stops the block loop, storing the last matrix. */
  lemma StepDiagTitle(parse: string -> Option<real>, n: nat, st: ScanState)
    ensures Step(parse, n, st, Strip(DiagTitle)) == Ok(Stop(st.(dynmats := st.dynmats + [st.acc])))
  {
    TitlesStrip();
    DiagonalizingInTrailer();
    StepStopLine(parse, n, st, DiagTitleText);
  }
}

=== FILE: save.dfy ===
/**
 * `Phonons.save_qe`: writing the dynamical matrices back as Quantum ESPRESSO
 * `ph.x` dynamical-matrix files, one per irreducible q point.
 *
 * Python's fixed-point formats with 8, 9 and 10 decimals (`%.8f` and
 * `%12.8f`, `%.9f`, `%15.10f`) are the three functions of `Formats`; a
 * written file is the sequence of its lines. Numeric fields that the source pads to a column width are joined
 * here by single spaces, which `split()` cannot tell apart from the padding.
 */
module Saver {
  import opened Results
  import opened Text
  import opened Container
  import Loader

  const Banner := "Dynamical matrix file"
  const Credit := "File generated with the " + "CellConstructor by Lorenzo Monacelli"
  const BasisTitle := "Basis vectors"
  /** The five spaces that open the block titles and the q lines. */
  const Indent := "     "
  const BlockTitleText := "Dynamical Matrix in cartesian axes"
  const BlockTitle := Indent + BlockTitleText
  const DiagTitleText := "Diagonalizing the dynamical matrix"
  const DiagTitle := Indent + DiagTitleText
  const Rule := "***************************************************************************"

  /**
   * The fixed-point formats of the file: `%.8f` (or `%12.8f`, whose width only
   * pads) for the counts line, the cell, the masses and the matrix entries,
   * `%.9f` for the q points, `%15.10f` for the atomic positions.
   */
  datatype Formats = Formats(fixed8: real -> string, fixed9: real -> string, fixed10: real -> string)

  // ---------------------------------------------------------------- species

  predicate Distinct(t: seq<string>)
  {
    forall i, j :: 0 <= i < j < |t| ==> t[i] != t[j]
  }

  /** Position of the first occurrence of `x` in `s`. */
  function IndexOf(s: seq<string>, x: string): (k: nat)
    requires x in s
    ensures k < |s| && s[k] == x
    ensures forall j :: 0 <= j < k ==> s[j] != x
    decreases |s|
  {
    if s[0] == x then 0 else 1 + IndexOf(s[1..], x)
  }

  /** `types`: the labels of the atoms, each once, in the order they first appear. */
  function Types(atoms: seq<string>): (t: seq<string>)
    ensures forall k :: 0 <= k < |atoms| ==> atoms[k] in t
    ensures forall k :: 0 <= k < |t| ==> t[k] in atoms
    ensures Distinct(t)
    decreases |atoms|
  {
    if |atoms| == 0 then []
    else
      var t := Types(atoms[..|atoms| - 1]);
      var a := atoms[|atoms| - 1];
      if a in t then t else t + [a]
  }

  /** `itau[label]`: the species number written for an atom, counted from 1. */
  function SpeciesNumber(types: seq<string>, name: string): (k: nat)
    requires name in types
    ensures 1 <= k <= |types| && types[k - 1] == name
  {
    IndexOf(types, name) + 1
  }

  // ---------------------------------------------------------------- header lines

  /** `"%d %d %d %.8f %.8f %.8f %.8f %.8f %.8f" % (n_types, n_atoms, 0, alat * A_TO_BOHR, 0, 0, 0, 0, 0)`. */
  function CountsText(show: real -> string, ntypes: nat, natoms: nat, alat: real): string
  {
    Join([ShowNat(ntypes), ShowNat(natoms), ShowNat(0), show(alat * AngstromToBohr),
          show(0.0), show(0.0), show(0.0), show(0.0), show(0.0)])
  }

  /** One cell row in units of alat. */
  function CellText(show: real -> string, row: Vector, alat: real): string
    requires |row| == 3 && alat != 0.0
  {
    Join([show(row[0] / alat), show(row[1] / alat), show(row[2] / alat)])
  }

  /** `"\t%d  '%s '  %.8f" % (k, label, mass)`. */
  function SpeciesText(show: real -> string, k: nat, name: string, mass: real): string
  {
    "\t" + ShowNat(k) + "  '" + name + " '  " + show(mass)
  }

  /** `"%5d %5d %15.10f %15.10f %15.10f" % (i, itau, x / alat, y / alat, z / alat)`. */
  function AtomText(show: real -> string, i: nat, species: nat, pos: Vector, alat: real): string
    requires |pos| == 3 && alat != 0.0
  {
    Join([ShowNat(i), ShowNat(species), show(pos[0] / alat), show(pos[1] / alat), show(pos[2] / alat)])
  }

  /**
   * The first lines of every file, at the offsets the loader reads them: the
   * counts (with ibrav 0) on line 2 and cell row i on line 4 + i; species
   * k + 1 on line 7 + k and atom i on line 7 + n_types + i (`HeaderSpeciesLines`,
   * `HeaderAtomLines`).
   */
  function HeaderText(fmt: Formats, s: Structure, alat: real): (r: seq<string>)
    requires WellFormed(s) && MassesKnown(s) && alat != 0.0
    ensures |r| == 7 + |Types(s.atoms)| + s.nAtoms
    ensures r[0] == Banner && r[1] == Credit && r[3] == BasisTitle
    ensures r[2] == CountsText(fmt.fixed8, |Types(s.atoms)|, s.nAtoms, alat)
    ensures forall i :: 0 <= i < 3 ==> r[4 + i] == CellText(fmt.fixed8, s.cell[i], alat)
  {
    var t := Types(s.atoms);
    TitleLines(fmt, s, |t|, alat) + SpeciesTexts(fmt.fixed8, t, s.masses) + AtomTexts(fmt.fixed10, s, t, alat)
  }

  /** Every species has a mass once every atom's label has one. */
  lemma TypesHaveMasses(s: Structure)
    requires MassesKnown(s)
    ensures forall k :: 0 <= k < |Types(s.atoms)| ==> Types(s.atoms)[k] in s.masses
  {
    var t := Types(s.atoms);
    forall k | 0 <= k < |t|
      ensures t[k] in s.masses
    {
      var i :| 0 <= i < |s.atoms| && s.atoms[i] == t[k];
    }
  }

  /** Species k + 1 is written on line 7 + k with its label and mass. */
  lemma HeaderSpeciesLines(fmt: Formats, s: Structure, alat: real)
    requires WellFormed(s) && MassesKnown(s) && alat != 0.0
    ensures var t := Types(s.atoms);
      forall k :: 0 <= k < |t| ==> t[k] in s.masses && HeaderText(fmt, s, alat)[7 + k] == SpeciesText(fmt.fixed8, k + 1, t[k], s.masses[t[k]])
  {
    TypesHaveMasses(s);
  }

  /** The atom lines, numbered from 1, follow the title and species lines. */
  lemma HeaderAtomLines(fmt: Formats, s: Structure, alat: real)
    requires WellFormed(s) && MassesKnown(s) && alat != 0.0
    ensures var t := Types(s.atoms);
      HeaderText(fmt, s, alat)[7 + |t|..] == AtomTexts(fmt.fixed10, s, t, alat)
  {
    var t := Types(s.atoms);
    TypesHaveMasses(s);
    var front := TitleLines(fmt, s, |t|, alat) + SpeciesTexts(fmt.fixed8, t, s.masses);
    var atoms := AtomTexts(fmt.fixed10, s, t, alat);
    assert HeaderText(fmt, s, alat) == front + atoms;
    DropFront(front, atoms, 7 + |t|);
  }

  /** `(a + b)[|a|..]` is `b`. */
  lemma DropFront<T>(a: seq<T>, b: seq<T>, n: nat)
    requires |a| == n
    ensures (a + b)[n..] == b
  {
  }

  /** Lines 0 .. 6: the banner, the credit, the counts, the basis title and the three cell rows in units of `alat`. */
  function TitleLines(fmt: Formats, s: Structure, ntypes: nat, alat: real): (r: seq<string>)
    requires WellFormed(s) && alat != 0.0
    ensures |r| == 7 && r[0] == Banner && r[1] == Credit && r[3] == BasisTitle
    ensures r[2] == CountsText(fmt.fixed8, ntypes, s.nAtoms, alat)
    ensures forall i :: 0 <= i < 3 ==> r[4 + i] == CellText(fmt.fixed8, s.cell[i], alat)
  {
    [Banner, Credit, CountsText(fmt.fixed8, ntypes, s.nAtoms, alat), BasisTitle,
     CellText(fmt.fixed8, s.cell[0], alat), CellText(fmt.fixed8, s.cell[1], alat), CellText(fmt.fixed8, s.cell[2], alat)]
  }

  /** The species lines, numbered from 1. */
  function SpeciesTexts(show: real -> string, types: seq<string>, masses: map<string, real>): (r: seq<string>)
    requires forall k :: 0 <= k < |types| ==> types[k] in masses
    ensures |r| == |types| && forall k :: 0 <= k < |types| ==> r[k] == SpeciesText(show, k + 1, types[k], masses[types[k]])
  {
    seq(|types|, k requires 0 <= k < |types| => SpeciesText(show, k + 1, types[k], masses[types[k]]))
  }

  /** The atom lines, numbered from 1. */
  function AtomTexts(show: real -> string, s: Structure, types: seq<string>, alat: real): (r: seq<string>)
    requires WellFormed(s) && alat != 0.0
    requires forall k :: 0 <= k < |s.atoms| ==> s.atoms[k] in types
    ensures |r| == s.nAtoms
    ensures forall i :: 0 <= i < s.nAtoms ==> r[i] == AtomText(show, i + 1, SpeciesNumber(types, s.atoms[i]), s.coords[i], alat)
  {
    seq(s.nAtoms, i requires 0 <= i < s.nAtoms => AtomText(show, i + 1, SpeciesNumber(types, s.atoms[i]), s.coords[i], alat))
  }

  // ---------------------------------------------------------------- matrix blocks

  /** `"     q = (    %.9f   %.9f   %.9f )" % (q[0], q[1], q[2])`. */
  function QText(show: real -> string, q: Vector): string
    requires |q| >= 3
  {
    Indent + ("q = (    " + show(q[0]) + "   " + show(q[1]) + "   " + show(q[2]) + " )")
  }

  /** `"%5d%5d" % (i, j)`. */
  function PairText(i: nat, j: nat): string
  {
    Join([ShowNat(i), ShowNat(j)])
  }

  /** The real and imaginary parts of `m[r, c .. c + 2]`. */
  function RowText(show: real -> string, m: Matrix, r: nat, c: nat): string
    requires r < |m| && c + 3 <= |m[r]|
  {
    Join([show(m[r][c].re), show(m[r][c].im), show(m[r][c + 1].re), show(m[r][c + 1].im),
          show(m[r][c + 2].re), show(m[r][c + 2].im)])
  }

  /** `m[:d, :d]` exists: reading any entry of it raises no IndexError. */
  predicate Covers(m: Matrix, d: nat)
  {
    |m| >= d && forall r :: 0 <= r < d ==> |m[r]| >= d
  }

  /** The three rows of block `(i, j)`. */
  function RowsText(show: real -> string, n: nat, m: Matrix, i: nat, j: nat): seq<string>
    requires Covers(m, 3 * n) && i < n && j < n
  {
    [RowText(show, m, 3 * i, 3 * j), RowText(show, m, 3 * i + 1, 3 * j), RowText(show, m, 3 * i + 2, 3 * j)]
  }

  /** The pair line "i+1 j+1" and the three rows of block `(i, j)`. */
  function PairLines(show: real -> string, n: nat, m: Matrix, i: nat, j: nat): seq<string>
    requires Covers(m, 3 * n) && i < n && j < n
  {
    [PairText(i + 1, j + 1)] + RowsText(show, n, m, i, j)
  }

  /** `lines(i, j)` for every pair from `(i, j)` on, in the order of `for i in range(n): for j in range(n)`. */
  function RowMajor(lines: (nat, nat) -> seq<string>, n: nat, i: nat, j: nat): seq<string>
    requires i <= n && j <= n
    decreases n - i, n - j
  {
    if i == n then []
    else if j == n then RowMajor(lines, n, i + 1, 0)
    else lines(i, j) + RowMajor(lines, n, i, j + 1)
  }

  /** `PairLines` for the atom pairs that exist. */
  function PairSource(show: real -> string, n: nat, m: Matrix): (nat, nat) -> seq<string>
    requires Covers(m, 3 * n)
  {
    (i: nat, j: nat) => if i < n && j < n then PairLines(show, n, m, i, j) else []
  }

  /** The pair lines and their rows for every atom pair. */
  function PairsText(show: real -> string, n: nat, m: Matrix): seq<string>
    requires Covers(m, 3 * n)
  {
    RowMajor(PairSource(show, n, m), n, 0, 0)
  }

  /** The block of one q point of the star. */
  function BlockText(fmt: Formats, n: nat, q: Vector, m: Matrix): seq<string>
    requires |q| >= 3 && Covers(m, 3 * n)
  {
    ["", BlockTitle, "", QText(fmt.fixed9, q), ""] + PairsText(fmt.fixed8, n, m)
  }

  /** The matrix written for member `jq` of a star whose first matrix is `dynmats[first]`; only read when there are atoms. */
  function StarMatrix(dynmats: seq<Matrix>, first: nat, jq: nat): Matrix
  {
    if first + jq < |dynmats| then dynmats[first + jq] else []
  }

  /** Every q point has three components and, when there are atoms, its matrix exists and covers 3N x 3N. */
  predicate StarWritable(star: seq<Vector>, dynmats: seq<Matrix>, first: nat, n: nat)
  {
    forall jq :: 0 <= jq < |star| ==>
      |star[jq]| >= 3 && (n > 0 ==> first + jq < |dynmats| && Covers(dynmats[first + jq], 3 * n))
  }

  /** The lines of parts 0 .. count - 1, in order. */
  function Blocks(part: nat -> seq<string>, count: nat): seq<string>
    decreases count
  {
    if count == 0 then [] else Blocks(part, count - 1) + part(count - 1)
  }

  /** The block of member `jq` of the star, whose matrix is `dynmats[first + jq]`. */
  function MemberBlock(fmt: Formats, n: nat, star: seq<Vector>, dynmats: seq<Matrix>, first: nat): nat -> seq<string>
  {
    (jq: nat) => if jq < |star| && |star[jq]| >= 3 && Covers(StarMatrix(dynmats, first, jq), 3 * n)
                 then BlockText(fmt, n, star[jq], StarMatrix(dynmats, first, jq)) else []
  }

  /** The blocks of every member of the star, in order. */
  function StarText(fmt: Formats, n: nat, star: seq<Vector>, dynmats: seq<Matrix>, first: nat): seq<string>
  {
    Blocks(MemberBlock(fmt, n, star, dynmats, first), |star|)
  }

  /** The closing section; the frequencies and polarization vectors between the rules are not modelled. */
  function TrailerText(fmt: Formats, q: Vector): seq<string>
    requires |q| >= 3
  {
    ["", DiagTitle, "", QText(fmt.fixed9, q), "", Rule, Rule]
  }

  // ---------------------------------------------------------------- files

  /**
   * The lines of file `iq`, whose star starts at matrix `first`. The
   * exceptions come in the order the source meets them: a label without a
   * mass, a missing star, a short q point or a missing matrix, an empty star,
   * and then, in `DyagDinQ(dyag_q_index)` on the star's first matrix, a
   * missing matrix (IndexError) or one that is not 3N x 3N (ValueError).
   */
  function SaveFile(fmt: Formats, ph: Phonons, iq: nat, first: nat): (r: Result<seq<string>, Error>)
    requires WellFormed(ph.structure) && ph.alat != 0.0
    ensures r.Err? <==> || !MassesKnown(ph.structure) || iq >= |ph.qStars|
                        || !StarWritable(ph.qStars[iq], ph.dynmats, first, ph.structure.nAtoms) || |ph.qStars[iq]| == 0
                        || first >= |ph.dynmats| || !Square(ph.dynmats[first], 3 * ph.structure.nAtoms)
    ensures r.Err? ==> r.error == UnknownKey || r.error == BadIndex || r.error == BadValue
    ensures r.Err? ==> (r.error == UnknownKey <==> !MassesKnown(ph.structure))
    ensures r.Err? ==> (r.error == BadValue <==> MassesKnown(ph.structure) && iq < |ph.qStars| && |ph.qStars[iq]| > 0
                                                   && StarWritable(ph.qStars[iq], ph.dynmats, first, ph.structure.nAtoms)
                                                   && first < |ph.dynmats|)
  {
    var s := ph.structure;
    if !MassesKnown(s) then Err(UnknownKey)
    else if iq >= |ph.qStars| then Err(BadIndex)
    else
      var star := ph.qStars[iq];
      if !StarWritable(star, ph.dynmats, first, s.nAtoms) || |star| == 0 then Err(BadIndex)
      else if first >= |ph.dynmats| then Err(BadIndex)
      else if !Square(ph.dynmats[first], 3 * s.nAtoms) then Err(BadValue)
      else
        Ok(HeaderText(fmt, s, ph.alat)
           + StarText(fmt, s.nAtoms, star, ph.dynmats, first)
           + TrailerText(fmt, star[0]))
  }

  /** Files `iq .. nq - 1`, file `iq` made by `file(iq, first)`; `first` is the running matrix counter `count_q`. */
  function WriteFiles(file: (nat, nat) -> Result<seq<string>, Error>, stars: seq<seq<Vector>>, fs: Loader.FileSystem,
                      filename: string, fullName: bool, iq: nat, nq: nat, first: nat): (r: Result<Loader.FileSystem, Error>)
    requires iq <= nq
    decreases nq - iq
  {
    if iq == nq then Ok(fs)
    else
      var lines :- file(iq, first);
      WriteFiles(file, stars, fs[Loader.FilePath(filename, iq, fullName) := lines], filename, fullName,
                 iq + 1, nq, first + StarSize(stars, iq))
  }

  function StarSize(stars: seq<seq<Vector>>, iq: nat): nat
  {
    if iq < |stars| then |stars[iq]| else 0
  }

  /** One file of `ph`. */
  function FileWriter(fmt: Formats, ph: Phonons): (nat, nat) -> Result<seq<string>, Error>
    requires WellFormed(ph.structure) && ph.alat != 0.0
  {
    (iq: nat, first: nat) => SaveFile(fmt, ph, iq, first)
  }

  /** The number of files written: every irreducible point, or just one in full-name mode. */
  function FileCount(ph: Phonons, fullName: bool): nat
  {
    if fullName then 1 else if ph.nqirr > 0 then ph.nqirr else 0
  }

  /** `save_qe(filename, full_name)`. */
  function SaveQE(fmt: Formats, fs: Loader.FileSystem, ph: Phonons, filename: string, fullName: bool)
    : (r: Result<Loader.FileSystem, Error>)
    requires WellFormed(ph.structure) && ph.alat != 0.0
  {
    WriteFiles(FileWriter(fmt, ph), ph.qStars, fs, filename, fullName, 0, FileCount(ph, fullName), 0)
  }

  // ---------------------------------------------------------------- properties

  lemma {:induction false} IndexOfPrefix(p: seq<string>, x: string, y: string)
    requires x in p
    ensures IndexOf(p + [y], x) == IndexOf(p, x)
    decreases |p|
  {
    if p[0] != x {
      assert (p + [y])[1..] == p[1..] + [y];
      IndexOfPrefix(p[1..], x, y);
    }
  }

  lemma {:induction false} IndexOfLast(p: seq<string>, y: string)
    requires y !in p
    ensures IndexOf(p + [y], y) == |p|
    decreases |p|
  {
    if |p| > 0 {
      assert (p + [y])[1..] == p[1..] + [y];
      IndexOfLast(p[1..], y);
    }
  }

  /** The species are numbered in the order their labels first occur among the atoms. */
  lemma {:induction false} TypesOrder(atoms: seq<string>)
    ensures var t := Types(atoms);
      forall k, k' :: 0 <= k < k' < |t| ==> IndexOf(atoms, t[k]) < IndexOf(atoms, t[k'])
    decreases |atoms|
  {
    if |atoms| > 0 {
      var p := atoms[..|atoms| - 1];
      var a := atoms[|atoms| - 1];
      var t := Types(p);
      assert atoms == p + [a];
      TypesOrder(p);
      var t' := Types(atoms);
      forall k, k' | 0 <= k < k' < |t'|
        ensures IndexOf(atoms, t'[k]) < IndexOf(atoms, t'[k'])
      {
        TypesStep(p, a, k, k');
      }
    }
  }

  lemma TypesStep(p: seq<string>, a: string, k: nat, k': nat)
    requires forall i, j :: 0 <= i < j < |Types(p)| ==> IndexOf(p, Types(p)[i]) < IndexOf(p, Types(p)[j])
    requires k < k' < |Types(p + [a])|
    ensures IndexOf(p + [a], Types(p + [a])[k]) < IndexOf(p + [a], Types(p + [a])[k'])
  {
    var t := Types(p);
    assert (p + [a])[..|p|] == p;
    var x := Types(p + [a])[k];
    var y := Types(p + [a])[k'];
    assert x == t[k] && x in p;
    IndexOfPrefix(p, x, a);
    if k' < |t| {
      assert y == t[k'] && y in p;
      IndexOfPrefix(p, y, a);
    } else {
      assert y == a && a !in t;
      assert a !in p;
      IndexOfLast(p, a);
    }
  }

  /**
   * The atoms of one species get one number, atoms of different species
   * different numbers, all within 1..n_types, and a species that shows up
   * earlier among the atoms gets the smaller number.
   */
  lemma SpeciesNumbering(atoms: seq<string>, i: nat, j: nat)
    requires i < |atoms| && j < |atoms|
    ensures var t := Types(atoms);
      && 1 <= SpeciesNumber(t, atoms[i]) <= |t|
      && (SpeciesNumber(t, atoms[i]) == SpeciesNumber(t, atoms[j]) <==> atoms[i] == atoms[j])
      && (SpeciesNumber(t, atoms[i]) < SpeciesNumber(t, atoms[j]) <==> IndexOf(atoms, atoms[i]) < IndexOf(atoms, atoms[j]))
  {
    var t := Types(atoms);
    var a := SpeciesNumber(t, atoms[i]) - 1;
    var b := SpeciesNumber(t, atoms[j]) - 1;
    TypesOrder(atoms);
    assert t[a] == atoms[i] && t[b] == atoms[j];
  }

  /** Index of the first matrix of star `iq`: the sizes of the stars before it, summed. */
  function StarStart(stars: seq<seq<Vector>>, iq: nat): nat
  {
    if iq <= |stars| then Total(stars[..iq]) else Total(stars)
  }

  lemma StarStartNext(stars: seq<seq<Vector>>, iq: nat)
    ensures StarStart(stars, iq + 1) == StarStart(stars, iq) + StarSize(stars, iq)
  {
    if iq < |stars| {
      assert stars[..iq + 1][..iq] == stars[..iq];
    } else if iq == |stars| {
      assert stars[..iq] == stars;
    }
  }

  /** The file name of point `iq` is not the name of any later point. */
  lemma FilePathDistinct(prefix: string, a: nat, b: nat)
    requires a != b
    ensures Loader.FilePath(prefix, a, false) != Loader.FilePath(prefix, b, false)
  {
    if Loader.FilePath(prefix, a, false) == Loader.FilePath(prefix, b, false) {
      assert ShowNat(a + 1) == Loader.FilePath(prefix, a, false)[|prefix|..];
      assert ShowNat(b + 1) == Loader.FilePath(prefix, b, false)[|prefix|..];
      ShowNatInjective(a + 1, b + 1);
    }
  }

  /** Files `iq .. nq - 1` are all written exactly when each of them can be. */
  lemma {:induction false} WriteFilesSucceeds(file: (nat, nat) -> Result<seq<string>, Error>, stars: seq<seq<Vector>>,
                                              fs: Loader.FileSystem, filename: string, fullName: bool, iq: nat, nq: nat)
    requires iq <= nq
    ensures WriteFiles(file, stars, fs, filename, fullName, iq, nq, StarStart(stars, iq)).Ok?
            <==> forall k :: iq <= k < nq ==> file(k, StarStart(stars, k)).Ok?
    decreases nq - iq
  {
    if iq < nq {
      var f := file(iq, StarStart(stars, iq));
      if f.Ok? {
        StarStartNext(stars, iq);
        WriteFilesSucceeds(file, stars, fs[Loader.FilePath(filename, iq, fullName) := f.value], filename, fullName, iq + 1, nq);
      }
    }
  }

  /**
   * File `k` holds what `file(k, first)` makes, `first` being the number of
   * q points in the stars before `k`; every other file is left alone.
   */
  lemma {:induction false} WriteFilesLayout(file: (nat, nat) -> Result<seq<string>, Error>, stars: seq<seq<Vector>>,
                                            fs: Loader.FileSystem, filename: string, fullName: bool, iq: nat, nq: nat)
    requires iq <= nq && (fullName ==> nq <= iq + 1)
    ensures var r := WriteFiles(file, stars, fs, filename, fullName, iq, nq, StarStart(stars, iq));
      r.Ok? ==>
        && (forall k :: iq <= k < nq ==>
              file(k, StarStart(stars, k)).Ok? && Loader.FilePath(filename, k, fullName) in r.value
              && r.value[Loader.FilePath(filename, k, fullName)] == file(k, StarStart(stars, k)).value)
        && (forall p :: (forall k :: iq <= k < nq ==> p != Loader.FilePath(filename, k, fullName)) ==>
              (p in r.value <==> p in fs) && (p in fs ==> r.value[p] == fs[p]))
    decreases nq - iq
  {
    if iq < nq {
      var f := file(iq, StarStart(stars, iq));
      if f.Ok? {
        StarStartNext(stars, iq);
        var path := Loader.FilePath(filename, iq, fullName);
        var fs' := fs[path := f.value];
        WriteFilesLayout(file, stars, fs', filename, fullName, iq + 1, nq);
        var r := WriteFiles(file, stars, fs', filename, fullName, iq + 1, nq, StarStart(stars, iq + 1));
        if r.Ok? {
          forall k | iq < k < nq
            ensures path != Loader.FilePath(filename, k, fullName)
          {
            FilePathDistinct(filename, iq, k);
          }
          assert r.value[path] == f.value;
        }
      }
    }
  }

  /**
   * `save_qe` writes every file exactly when each one can be written, and
   * file k then holds the text of star k, whose matrices start after the
   * matrices of the stars before it; no other file changes.
   */
  lemma SaveQELayout(fmt: Formats, fs: Loader.FileSystem, ph: Phonons, filename: string, fullName: bool)
    requires WellFormed(ph.structure) && ph.alat != 0.0
    ensures var r := SaveQE(fmt, fs, ph, filename, fullName);
      var nq := FileCount(ph, fullName);
      && (r.Ok? <==> forall k :: 0 <= k < nq ==> SaveFile(fmt, ph, k, StarStart(ph.qStars, k)).Ok?)
      && (r.Ok? ==> forall k :: 0 <= k < nq ==>
            && Loader.FilePath(filename, k, fullName) in r.value
            && r.value[Loader.FilePath(filename, k, fullName)] == SaveFile(fmt, ph, k, StarStart(ph.qStars, k)).value)
      && (r.Ok? ==> forall p :: p in fs && (forall k :: 0 <= k < nq ==> p != Loader.FilePath(filename, k, fullName)) ==>
            p in r.value && r.value[p] == fs[p])
  {
    var nq := FileCount(ph, fullName);
    var file := FileWriter(fmt, ph);
    assert StarStart(ph.qStars, 0) == 0;
    WriteFilesSucceeds(file, ph.qStars, fs, filename, fullName, 0, nq);
    WriteFilesLayout(file, ph.qStars, fs, filename, fullName, 0, nq);
  }
}

=== FILE: saveload.dfy ===
/**
 * Loading what `save_qe` wrote. Every file is read back by `LoadFromQE`:
 * the first one's header gives the structure, every file's blocks give one
 * star, and the points and matrices are appended in file order. Each number
 * passes once through its format and the parser.
 */
module SaveLoad {
  import opened Results
  import opened Text
  import opened Container
  import opened Loader
  import opened Saver
  import opened RoundTrip
  import opened FileRead
  import opened HeaderRead

  // ---------------------------------------------------------------- one file

  /** The lines after a file's header, stripped: the blocks of the star after the first title, then the trailer. */
  function StarLines(fmt: Formats, n: nat, star: seq<Vector>, dynmats: seq<Matrix>, first: nat): seq<string>
    requires 1 <= |star| && StarCovered(star, dynmats, first, n)
  {
    Tail(Bodies(fmt, n, star, dynmats, first), Cleaned(fmt, n, star, dynmats, first), |star|) + StripAll(TrailerText(fmt, star[0]))
  }

  /** A file `save_qe` writes, stripped: the header, the first block's title and the rest of the star. */
  lemma FileLines(parse: string -> Option<real>, fmt: Formats, ph: Phonons, iq: nat, first: nat)
    requires Codecs(parse, fmt) && WellFormed(ph.structure) && ph.alat != 0.0
    requires SaveFile(fmt, ph, iq, first).Ok?
    ensures iq < |ph.qStars| && 1 <= |ph.qStars[iq]| && MassesKnown(ph.structure)
    ensures StarCovered(ph.qStars[iq], ph.dynmats, first, ph.structure.nAtoms)
    ensures StripAll(SaveFile(fmt, ph, iq, first).value)
         == StripAll(HeaderText(fmt, ph.structure, ph.alat))
            + (["", BlockTitleText] + StarLines(fmt, ph.structure.nAtoms, ph.qStars[iq], ph.dynmats, first))
  {
    var s := ph.structure;
    var star := ph.qStars[iq];
    WritableCovered(star, ph.dynmats, first, s.nAtoms);
    StarTextStrip(parse, fmt, s.nAtoms, star, ph.dynmats, first);
    StripParts(HeaderText(fmt, s, ph.alat), StarText(fmt, s.nAtoms, star, ph.dynmats, first), TrailerText(fmt, star[0]),
               ["", BlockTitleText], Tail(Bodies(fmt, s.nAtoms, star, ph.dynmats, first), Cleaned(fmt, s.nAtoms, star, ph.dynmats, first), |star|));
  }

  /** Stripping three parts, the middle one known stripped. */
  lemma StripParts(h: seq<string>, b: seq<string>, tr: seq<string>, open: seq<string>, tail: seq<string>)
    requires StripAll(b) == open + tail
    ensures StripAll(h + b + tr) == StripAll(h) + (open + (tail + StripAll(tr)))
  {
    StripAllAppend(h + b, tr);
    StripAllAppend(h, b);
  }

  /** The object after the blocks of one star are read: its points and matrices after one trip appended. */
  function ScannedFile(parse: string -> Option<real>, fmt: Formats, p: Phonons, star: seq<Vector>, dynmats: seq<Matrix>,
                       first: nat): Phonons
    requires Codecs(parse, fmt) && p.structure.nAtoms >= 0 && StarCovered(star, dynmats, first, p.structure.nAtoms)
  {
    p.(dynmats := p.dynmats + StarMatrices(parse, fmt, p.structure.nAtoms, star, dynmats, first),
       qTot := p.qTot + StarPoints(parse, fmt, star),
       qStars := p.qStars + [StarPoints(parse, fmt, star)])
  }

  /** After a header without "cartesian axes", the block loop reads the star and stops at the trailer. */
  lemma ScanSaved(parse: string -> Option<real>, fmt: Formats, p: Phonons, head: seq<string>, star: seq<Vector>,
                  dynmats: seq<Matrix>, first: nat)
    requires Codecs(parse, fmt) && p.structure.nAtoms >= 0
    requires 1 <= |star| && StarCovered(star, dynmats, first, p.structure.nAtoms)
    requires forall k :: 0 <= k < |head| ==> !Contains(head[k], CartesianAxes)
    ensures ScanFile(parse, p, head + (["", BlockTitleText] + StarLines(fmt, p.structure.nAtoms, star, dynmats, first)))
         == Ok(ScannedFile(parse, fmt, p, star, dynmats, first))
  {
    var n := p.structure.nAtoms;
    var rest := StarLines(fmt, n, star, dynmats, first);
    SkipHeader(head, rest);
    StarScan(parse, fmt, n, StartScan(p, n), star, dynmats, first, star[0]);
    var st := Scan(parse, n, StartScan(p, n), rest).value;
    ScanFileOf(parse, p, head + (["", BlockTitleText] + rest), rest, st);
    ScannedFields(parse, fmt, p, st, star, dynmats, first);
  }

  /** The fields the block loop leaves are those of `ScannedFile`. */
  lemma ScannedFields(parse: string -> Option<real>, fmt: Formats, p: Phonons, st: ScanState, star: seq<Vector>,
                      dynmats: seq<Matrix>, first: nat)
    requires Codecs(parse, fmt) && p.structure.nAtoms >= 0 && StarCovered(star, dynmats, first, p.structure.nAtoms)
    requires var st0 := StartScan(p, p.structure.nAtoms);
      && st.star == st0.star + StarPoints(parse, fmt, star)
      && st.qTot == st0.qTot + StarPoints(parse, fmt, star)
      && st.dynmats == st0.dynmats + StarMatrices(parse, fmt, p.structure.nAtoms, star, dynmats, first)
      && st.dielectric == st0.dielectric && st.effective == st0.effective && st.raman == st0.raman
    ensures p.(dynmats := st.dynmats, qTot := st.qTot, qStars := p.qStars + [st.star],
               dielectric := st.dielectric, effective := st.effective, raman := st.raman)
         == ScannedFile(parse, fmt, p, star, dynmats, first)
  {
    assert st.star == StarPoints(parse, fmt, star);
  }

  /** `ScanFile` once the search for the first block and the block loop have succeeded. */
  lemma ScanFileOf(parse: string -> Option<real>, p: Phonons, lines: seq<string>, rest: seq<string>, st: ScanState)
    requires SkipToMatrix(lines) == Ok(rest) && p.structure.nAtoms >= 0
    requires Scan(parse, p.structure.nAtoms, StartScan(p, p.structure.nAtoms), rest) == Ok(st)
    ensures ScanFile(parse, p, lines) == Ok(p.(dynmats := st.dynmats, qTot := st.qTot, qStars := p.qStars + [st.star],
                                              dielectric := st.dielectric, effective := st.effective, raman := st.raman))
  {
  }

  /**
   * What loading a file that holds file `iq` of `ph` makes of the object `p`:
   * the first file also sets the structure and the lattice parameter read
   * from its header, and every file appends its star.
   */
  function LoadedFile(parse: string -> Option<real>, fmt: Formats, ph: Phonons, iq: nat, first: nat, p: Phonons, k: nat): Phonons
    requires Codecs(parse, fmt) && WellFormed(ph.structure) && ph.alat != 0.0 && SaveFile(fmt, ph, iq, first).Ok?
    requires k > 0 ==> p.structure.nAtoms == ph.structure.nAtoms
  {
    WritableCovered(ph.qStars[iq], ph.dynmats, first, ph.structure.nAtoms);
    ScannedFile(parse, fmt, HeadRead(parse, fmt, ph, p, k), ph.qStars[iq], ph.dynmats, first)
  }

  /** The object after the header of file k: the first file's header sets the structure and the lattice parameter. */
  function HeadRead(parse: string -> Option<real>, fmt: Formats, ph: Phonons, p: Phonons, k: nat): (r: Phonons)
    requires Codecs(parse, fmt) && WellFormed(ph.structure) && MassesKnown(ph.structure) && ph.alat != 0.0
    requires k > 0 ==> p.structure.nAtoms == ph.structure.nAtoms
    ensures r.structure.nAtoms == ph.structure.nAtoms
  {
    if k == 0 then p.(structure := StructureRead(parse, fmt, ph.structure, ph.alat), alat := ReadAlat(parse, fmt, ph.alat)) else p
  }

  /** The header lines of a file `save_qe` wrote are where the loader looks, and none of them holds "cartesian axes". */
  lemma SavedHeader(parse: string -> Option<real>, fmt: Formats, s: Structure, alat: real, rest: seq<string>)
    requires Codecs(parse, fmt) && WellFormed(s) && MassesKnown(s) && PlainLabels(s) && alat != 0.0
    ensures HeaderWritten(fmt, StripAll(HeaderText(fmt, s, alat)) + rest, s, alat)
    ensures var h := StripAll(HeaderText(fmt, s, alat));
      forall k :: 0 <= k < |h| ==> !Contains(h[k], CartesianAxes)
  {
    var h := StripAll(HeaderText(fmt, s, alat));
    HeaderLinesAt(parse, fmt, s, alat, rest);
    HeaderNoAxes(parse, fmt, h + rest, s, alat);
    FrontNoAxes(h, rest);
  }

  lemma FrontNoAxes(h: seq<string>, rest: seq<string>)
    requires forall k :: 0 <= k < |h| ==> !Contains((h + rest)[k], CartesianAxes)
    ensures forall k :: 0 <= k < |h| ==> !Contains(h[k], CartesianAxes)
  {
    forall k | 0 <= k < |h|
      ensures !Contains(h[k], CartesianAxes)
    {
      assert (h + rest)[k] == h[k];
    }
  }

  /** A file `save_qe` wrote is loaded as `LoadedFile` says, at any position in the loop. */
  lemma LoadSaved(parse: string -> Option<real>, cellFromIbrav: (int, Vector) -> seq<Vector>, fmt: Formats, ph: Phonons,
                  iq: nat, first: nat, p: Phonons, fs: FileSystem, prefix: string, fullName: bool, k: nat)
    requires Codecs(parse, fmt) && WellFormed(ph.structure) && PlainLabels(ph.structure) && ph.alat != 0.0
    requires SaveFile(fmt, ph, iq, first).Ok?
    requires k > 0 ==> p.structure.nAtoms == ph.structure.nAtoms
    requires FilePath(prefix, k, fullName) in fs && fs[FilePath(prefix, k, fullName)] == SaveFile(fmt, ph, iq, first).value
    ensures LoadFile(parse, cellFromIbrav, p, fs, prefix, fullName, k) == Ok(LoadedFile(parse, fmt, ph, iq, first, p, k))
  {
    ReadSaved(parse, cellFromIbrav, fmt, ph, iq, first, p, k);
  }

  /** The lines of a written file: its header, then its blocks, are read back. */
  lemma ReadSaved(parse: string -> Option<real>, cellFromIbrav: (int, Vector) -> seq<Vector>, fmt: Formats, ph: Phonons,
                  iq: nat, first: nat, p: Phonons, k: nat)
    requires Codecs(parse, fmt) && WellFormed(ph.structure) && PlainLabels(ph.structure) && ph.alat != 0.0
    requires SaveFile(fmt, ph, iq, first).Ok?
    requires k > 0 ==> p.structure.nAtoms == ph.structure.nAtoms
    ensures MassesKnown(ph.structure)
    ensures var lines := StripAll(SaveFile(fmt, ph, iq, first).value);
      && ReadHead(parse, cellFromIbrav, p, lines, k) == Ok((HeadRead(parse, fmt, ph, p, k), lines))
      && ScanFile(parse, HeadRead(parse, fmt, ph, p, k), lines) == Ok(LoadedFile(parse, fmt, ph, iq, first, p, k))
  {
    var s := ph.structure;
    var star := ph.qStars[iq];
    FileLines(parse, fmt, ph, iq, first);
    var h := StripAll(HeaderText(fmt, s, ph.alat));
    var rest := ["", BlockTitleText] + StarLines(fmt, s.nAtoms, star, ph.dynmats, first);
    SavedHeader(parse, fmt, s, ph.alat, rest);
    HeadSaved(parse, cellFromIbrav, fmt, ph, p, k, h + rest);
    ScanSaved(parse, fmt, HeadRead(parse, fmt, ph, p, k), h, star, ph.dynmats, first);
  }

  /** The header of the first file is parsed as written; a later file's is passed over. */
  lemma HeadSaved(parse: string -> Option<real>, cellFromIbrav: (int, Vector) -> seq<Vector>, fmt: Formats, ph: Phonons,
                  p: Phonons, k: nat, lines: seq<string>)
    requires Codecs(parse, fmt) && WellFormed(ph.structure) && MassesKnown(ph.structure) && PlainLabels(ph.structure)
    requires ph.alat != 0.0 && (k > 0 ==> p.structure.nAtoms == ph.structure.nAtoms)
    requires HeaderWritten(fmt, lines, ph.structure, ph.alat)
    ensures ReadHead(parse, cellFromIbrav, p, lines, k) == Ok((HeadRead(parse, fmt, ph, p, k), lines))
  {
    if k == 0 {
      HeaderBack(parse, cellFromIbrav, fmt, lines, ph.structure, ph.alat);
    }
  }

  // ---------------------------------------------------------------- every file

  /** Files `0 .. i - 1` of `ph` can be written, file k's star starting at matrix `StarStart(ph.qStars, k)`. */
  predicate FilesWritable(fmt: Formats, ph: Phonons, i: nat)
    requires WellFormed(ph.structure) && ph.alat != 0.0
  {
    forall k :: 0 <= k < i ==> SaveFile(fmt, ph, k, StarStart(ph.qStars, k)).Ok?
  }

  /** Every matrix before `count` covers 3N x 3N (an empty corner when there are no atoms). */
  predicate MatricesCovered(dynmats: seq<Matrix>, n: nat, count: nat)
  {
    forall j :: 0 <= j < count ==> Covers(StarMatrix(dynmats, 0, j), 3 * n)
  }

  /** Every q point of the first `i` stars has three components. */
  predicate PointsComplete(stars: seq<seq<Vector>>, i: nat)
  {
    i <= |stars| && forall j :: 0 <= j < i ==> forall m :: 0 <= m < |stars[j]| ==> |stars[j][m]| >= 3
  }

  /** A file that can be written has a star whose points have three components and whose matrices cover 3N x 3N. */
  lemma SavedStar(fmt: Formats, ph: Phonons, iq: nat, first: nat)
    requires WellFormed(ph.structure) && ph.alat != 0.0 && SaveFile(fmt, ph, iq, first).Ok?
    ensures MassesKnown(ph.structure) && iq < |ph.qStars| && 1 <= |ph.qStars[iq]|
    ensures StarCovered(ph.qStars[iq], ph.dynmats, first, ph.structure.nAtoms)
  {
    WritableCovered(ph.qStars[iq], ph.dynmats, first, ph.structure.nAtoms);
  }

  /** The first `i` stars are covered, star k using the matrices from `StarStart(ph.qStars, k)` on. */
  predicate StarsCovered(ph: Phonons, i: nat)
  {
    && ph.structure.nAtoms >= 0 && i <= |ph.qStars|
    && forall k :: 0 <= k < i ==> StarCovered(ph.qStars[k], ph.dynmats, StarStart(ph.qStars, k), ph.structure.nAtoms)
  }

  lemma WritableStars(fmt: Formats, ph: Phonons, i: nat)
    requires WellFormed(ph.structure) && ph.alat != 0.0 && FilesWritable(fmt, ph, i)
    ensures StarsCovered(ph, i)
  {
    forall k | 0 <= k < i
      ensures k < |ph.qStars| && StarCovered(ph.qStars[k], ph.dynmats, StarStart(ph.qStars, k), ph.structure.nAtoms)
    {
      SavedStar(fmt, ph, k, StarStart(ph.qStars, k));
    }
    if i > 0 {
      SavedStar(fmt, ph, i - 1, StarStart(ph.qStars, i - 1));
    }
  }

  /** Covered stars have points of three components and, in all, cover the matrices up to where the next star starts. */
  lemma {:induction false} CoveredFacts(ph: Phonons, i: nat)
    requires StarsCovered(ph, i)
    ensures PointsComplete(ph.qStars, i) && MatricesCovered(ph.dynmats, ph.structure.nAtoms, StarStart(ph.qStars, i))
  {
    if i > 0 {
      CoveredFacts(ph, i - 1);
      var first := StarStart(ph.qStars, i - 1);
      assert StarCovered(ph.qStars[i - 1], ph.dynmats, first, ph.structure.nAtoms);
      StarStartNext(ph.qStars, i - 1);
      forall j | first <= j < StarStart(ph.qStars, i)
        ensures Covers(StarMatrix(ph.dynmats, 0, j), 3 * ph.structure.nAtoms)
      {
        assert StarMatrix(ph.dynmats, 0, j) == StarMatrix(ph.dynmats, first, j - first);
      }
    }
  }

  /** The first `i` stars after one trip. */
  function ReadStars(parse: string -> Option<real>, fmt: Formats, stars: seq<seq<Vector>>, i: nat): (r: seq<seq<Vector>>)
    requires Codec(parse, fmt.fixed9) && PointsComplete(stars, i)
    ensures |r| == i && forall j :: 0 <= j < i ==> r[j] == StarPoints(parse, fmt, stars[j])
  {
    seq(i, j requires 0 <= j < i => StarPoints(parse, fmt, stars[j]))
  }

  /** The first `count` matrices after one trip, cut to 3N x 3N. */
  function ReadMatrices(parse: string -> Option<real>, fmt: Formats, n: nat, dynmats: seq<Matrix>, count: nat): (r: seq<Matrix>)
    requires Codec(parse, fmt.fixed8) && MatricesCovered(dynmats, n, count)
    ensures |r| == count && forall j :: 0 <= j < count ==> r[j] == RM(parse, fmt.fixed8, StarMatrix(dynmats, 0, j), 3 * n)
  {
    seq(count, j requires 0 <= j < count => RM(parse, fmt.fixed8, StarMatrix(dynmats, 0, j), 3 * n))
  }

  /**
   * The object after files `0 .. i - 1` (i >= 1) are loaded: the structure
   * of the first header, the stars read, every q point in star order, and
   * every matrix the stars use, each after one trip.
   */
  function LoadedUpTo(parse: string -> Option<real>, fmt: Formats, ph: Phonons, nq: int, i: nat): (r: Phonons)
    requires Codecs(parse, fmt) && WellFormed(ph.structure) && MassesKnown(ph.structure) && ph.alat != 0.0
    requires StarsCovered(ph, i)
    ensures r.structure.nAtoms == ph.structure.nAtoms
  {
    CoveredFacts(ph, i);
    var stars := ReadStars(parse, fmt, ph.qStars, i);
    Init(nq).(structure := StructureRead(parse, fmt, ph.structure, ph.alat), alat := ReadAlat(parse, fmt, ph.alat),
              dynmats := ReadMatrices(parse, fmt, ph.structure.nAtoms, ph.dynmats, StarStart(ph.qStars, i)),
              qTot := Concat(stars), qStars := stars)
  }

  /** The matrices of star i follow those of the stars before it. */
  lemma MatricesStep(parse: string -> Option<real>, fmt: Formats, ph: Phonons, i: nat)
    requires Codec(parse, fmt.fixed8) && StarsCovered(ph, i + 1)
    ensures i < |ph.qStars| && MatricesCovered(ph.dynmats, ph.structure.nAtoms, StarStart(ph.qStars, i))
    ensures MatricesCovered(ph.dynmats, ph.structure.nAtoms, StarStart(ph.qStars, i + 1))
    ensures ReadMatrices(parse, fmt, ph.structure.nAtoms, ph.dynmats, StarStart(ph.qStars, i))
      + StarMatrices(parse, fmt, ph.structure.nAtoms, ph.qStars[i], ph.dynmats, StarStart(ph.qStars, i))
      == ReadMatrices(parse, fmt, ph.structure.nAtoms, ph.dynmats, StarStart(ph.qStars, i + 1))
  {
    CoveredFacts(ph, i);
    CoveredFacts(ph, i + 1);
    StarStartNext(ph.qStars, i);
    var first := StarStart(ph.qStars, i);
    forall j | first <= j < StarStart(ph.qStars, i + 1)
      ensures StarMatrix(ph.dynmats, 0, j) == StarMatrix(ph.dynmats, first, j - first)
    {
    }
  }

  /** Star i's points follow the stars before it. */
  lemma StarsStep(parse: string -> Option<real>, fmt: Formats, ph: Phonons, i: nat)
    requires Codec(parse, fmt.fixed9) && PointsComplete(ph.qStars, i + 1)
    ensures PointsComplete(ph.qStars, i)
    ensures ReadStars(parse, fmt, ph.qStars, i) + [StarPoints(parse, fmt, ph.qStars[i])] == ReadStars(parse, fmt, ph.qStars, i + 1)
    ensures Concat(ReadStars(parse, fmt, ph.qStars, i)) + StarPoints(parse, fmt, ph.qStars[i])
         == Concat(ReadStars(parse, fmt, ph.qStars, i + 1))
  {
    ConcatSnoc(ReadStars(parse, fmt, ph.qStars, i), StarPoints(parse, fmt, ph.qStars[i]));
  }

  /** The object before file i is loaded: the fresh object, then `LoadedUpTo`. */
  function Before(parse: string -> Option<real>, fmt: Formats, ph: Phonons, nq: int, i: nat): (r: Phonons)
    requires Codecs(parse, fmt) && WellFormed(ph.structure) && MassesKnown(ph.structure) && ph.alat != 0.0
    requires StarsCovered(ph, i)
    ensures i > 0 ==> r.structure.nAtoms == ph.structure.nAtoms
  {
    if i == 0 then Init(nq) else LoadedUpTo(parse, fmt, ph, nq, i)
  }

  /** Loading file i after files 0 .. i - 1 gives the object after files 0 .. i. */
  lemma FileStep(parse: string -> Option<real>, fmt: Formats, ph: Phonons, nq: int, i: nat)
    requires Codecs(parse, fmt) && WellFormed(ph.structure) && ph.alat != 0.0
    requires SaveFile(fmt, ph, i, StarStart(ph.qStars, i)).Ok? && StarsCovered(ph, i + 1)
    ensures MassesKnown(ph.structure)
    ensures LoadedFile(parse, fmt, ph, i, StarStart(ph.qStars, i), Before(parse, fmt, ph, nq, i), i)
         == LoadedUpTo(parse, fmt, ph, nq, i + 1)
  {
    SavedStar(fmt, ph, i, StarStart(ph.qStars, i));
    CoveredFacts(ph, i + 1);
    MatricesStep(parse, fmt, ph, i);
    StarsStep(parse, fmt, ph, i);
    if i == 0 {
      assert StarStart(ph.qStars, 0) == 0;
    }
  }

  /** Files `0 .. i - 1` of what `save_qe` wrote, loaded in order from the fresh object. */
  lemma {:induction false} LoadPrefix(parse: string -> Option<real>, cellFromIbrav: (int, Vector) -> seq<Vector>, fmt: Formats,
                                      ph: Phonons, fs: FileSystem, prefix: string, fullName: bool, nq: nat, i: nat)
    requires Codecs(parse, fmt) && WellFormed(ph.structure) && MassesKnown(ph.structure) && PlainLabels(ph.structure)
    requires ph.alat != 0.0 && 1 <= i <= nq && FilesWritable(fmt, ph, nq) && StarsCovered(ph, nq)
    requires FilesSaved(fmt, fs, ph, prefix, fullName, nq)
    ensures ForFiles(FileLoader(parse, cellFromIbrav, fs, prefix, fullName), Init(nq), 0, i) == Ok(LoadedUpTo(parse, fmt, ph, nq, i))
    decreases i
  {
    LoadOne(parse, cellFromIbrav, fmt, ph, fs, prefix, fullName, nq, i - 1);
    if i > 1 {
      LoadPrefix(parse, cellFromIbrav, fmt, ph, fs, prefix, fullName, nq, i - 1);
    }
    ForFilesLast(FileLoader(parse, cellFromIbrav, fs, prefix, fullName), Init(nq), 0, i);
  }

  /** Files `0 .. nq - 1` are in `fs` with what `save_qe` writes for them. */
  predicate FilesSaved(fmt: Formats, fs: FileSystem, ph: Phonons, prefix: string, fullName: bool, nq: nat)
    requires WellFormed(ph.structure) && ph.alat != 0.0 && FilesWritable(fmt, ph, nq)
  {
    forall k :: 0 <= k < nq ==>
      FilePath(prefix, k, fullName) in fs && fs[FilePath(prefix, k, fullName)] == SaveFile(fmt, ph, k, StarStart(ph.qStars, k)).value
  }

  /** File i, loaded after files 0 .. i - 1. */
  lemma LoadOne(parse: string -> Option<real>, cellFromIbrav: (int, Vector) -> seq<Vector>, fmt: Formats,
                ph: Phonons, fs: FileSystem, prefix: string, fullName: bool, nq: nat, i: nat)
    requires Codecs(parse, fmt) && WellFormed(ph.structure) && MassesKnown(ph.structure) && PlainLabels(ph.structure)
    requires ph.alat != 0.0 && i < nq && FilesWritable(fmt, ph, nq) && StarsCovered(ph, nq)
    requires FilesSaved(fmt, fs, ph, prefix, fullName, nq)
    ensures FileLoader(parse, cellFromIbrav, fs, prefix, fullName)(Before(parse, fmt, ph, nq, i), i)
         == Ok(LoadedUpTo(parse, fmt, ph, nq, i + 1))
  {
    var first := StarStart(ph.qStars, i);
    assert SaveFile(fmt, ph, i, first).Ok?;
    LoadSaved(parse, cellFromIbrav, fmt, ph, i, first, Before(parse, fmt, ph, nq, i), fs, prefix, fullName, i);
    FileStep(parse, fmt, ph, nq, i);
  }

  /** What `save_qe` wrote, file by file, with the facts about the stars that loading relies on. */
  lemma SavedFiles(fmt: Formats, fs: FileSystem, ph: Phonons, prefix: string, fullName: bool)
    requires WellFormed(ph.structure) && ph.alat != 0.0
    requires SaveQE(fmt, fs, ph, prefix, fullName).Ok? && FileCount(ph, fullName) >= 1
    ensures MassesKnown(ph.structure) && FilesWritable(fmt, ph, FileCount(ph, fullName))
    ensures StarsCovered(ph, FileCount(ph, fullName)) && PointsComplete(ph.qStars, FileCount(ph, fullName))
    ensures MatricesCovered(ph.dynmats, ph.structure.nAtoms, StarStart(ph.qStars, FileCount(ph, fullName)))
    ensures FilesSaved(fmt, SaveQE(fmt, fs, ph, prefix, fullName).value, ph, prefix, fullName, FileCount(ph, fullName))
  {
    var nq := FileCount(ph, fullName);
    SaveQELayout(fmt, fs, ph, prefix, fullName);
    assert FilesWritable(fmt, ph, nq);
    SavedStar(fmt, ph, 0, StarStart(ph.qStars, 0));
    WritableStars(fmt, ph, nq);
    CoveredFacts(ph, nq);
  }

  /**
   * `save_qe` followed by `Phonons(prefix, nqirr)`: the files written load
   * without error, and the object loaded has the structure of the header
   * (labels unchanged, positions, cell and masses after one trip), the
   * stars in file order with every point after one trip, `q_tot` their
   * concatenation, and, for every point, its matrix after one trip cut to
   * 3N x 3N.
   */
  lemma SaveThenLoad(parse: string -> Option<real>, cellFromIbrav: (int, Vector) -> seq<Vector>, fmt: Formats,
                     fs: FileSystem, ph: Phonons, prefix: string, fullName: bool)
    requires Codecs(parse, fmt) && WellFormed(ph.structure) && PlainLabels(ph.structure) && ph.alat != 0.0
    requires SaveQE(fmt, fs, ph, prefix, fullName).Ok? && FileCount(ph, fullName) >= 1
    ensures MassesKnown(ph.structure) && StarsCovered(ph, FileCount(ph, fullName))
    ensures PointsComplete(ph.qStars, FileCount(ph, fullName))
    ensures MatricesCovered(ph.dynmats, ph.structure.nAtoms, StarStart(ph.qStars, FileCount(ph, fullName)))
    ensures var nq := FileCount(ph, fullName);
      var r := FromFile(parse, cellFromIbrav, SaveQE(fmt, fs, ph, prefix, fullName).value, prefix, nq, fullName);
      && r.Ok? && r.value.initialized && r.value.nqirr == nq
      && r.value.structure == StructureRead(parse, fmt, ph.structure, ph.alat)
      && r.value.alat == ReadAlat(parse, fmt, ph.alat)
      && r.value.qStars == ReadStars(parse, fmt, ph.qStars, nq)
      && r.value.qTot == Concat(r.value.qStars)
      && r.value.dynmats == ReadMatrices(parse, fmt, ph.structure.nAtoms, ph.dynmats, StarStart(ph.qStars, nq))
      && r.value.dielectric.None? && r.value.effective.None? && r.value.raman.None?
  {
    var nq := FileCount(ph, fullName);
    var fs' := SaveQE(fmt, fs, ph, prefix, fullName).value;
    SavedFiles(fmt, fs, ph, prefix, fullName);
    LoadAll(parse, cellFromIbrav, fmt, ph, fs', prefix, fullName, nq);
  }

  /** Loading every file of what `save_qe` wrote gives the object after the last file, marked initialized. */
  lemma LoadAll(parse: string -> Option<real>, cellFromIbrav: (int, Vector) -> seq<Vector>, fmt: Formats,
                ph: Phonons, fs: FileSystem, prefix: string, fullName: bool, nq: nat)
    requires Codecs(parse, fmt) && WellFormed(ph.structure) && MassesKnown(ph.structure) && PlainLabels(ph.structure)
    requires ph.alat != 0.0 && 1 <= nq && (fullName ==> nq == 1) && FilesWritable(fmt, ph, nq) && StarsCovered(ph, nq)
    requires FilesSaved(fmt, fs, ph, prefix, fullName, nq)
    ensures FromFile(parse, cellFromIbrav, fs, prefix, nq, fullName) == Ok(LoadedUpTo(parse, fmt, ph, nq, nq).(initialized := true))
  {
    LoadPrefix(parse, cellFromIbrav, fmt, ph, fs, prefix, fullName, nq, nq);
    assert Init(nq).(structure := EmptyStructure) == Init(nq);
  }
}

=== FILE: scanning.dfy ===
/**
 * The auxiliary blocks of a fildyn file as the block loop reads them: the
 * markers that switch between the dynamical-matrix, dielectric,
 * effective-charge and Raman modes, and the rows each mode fills.
 */
module Scanning {
  import opened Results
  import opened Text
  import opened Container
  import opened Loader

  /** The three mode flags of the block loop. */
  function Mode(st: ScanState): (bool, bool, bool)
  {
    (st.readingDielectric, st.readingEffective, st.readingRaman)
  }

  /** The matrix, the star and the stored matrices: what an auxiliary marker leaves alone. */
  predicate SameMatrixData(a: ScanState, b: ScanState)
  {
    a.acc == b.acc && a.star == b.star && a.qTot == b.qTot && a.dynmats == b.dynmats
    && a.atmI == b.atmI && a.atmJ == b.atmJ && a.coordLine == b.coordLine
  }

  /**
   * A "Dielectric", "Effective" or "Raman" line raises exactly its own flag
   * and starts its tensor from zeros of the tensor's shape; the dielectric
   * marker also resets the row counter. The earlier marker in this list wins
   * when a line holds two.
   */
  lemma AuxiliaryMarker(parse: string -> Option<real>, n: nat, st: ScanState, line: string)
    requires !Contains(line, Diagonalizing)
    requires Contains(line, Dielectric) || Contains(line, Effective) || Contains(line, Raman)
    ensures Step(parse, n, st, line).Ok? && Step(parse, n, st, line).value.Continue?
    ensures var s := Step(parse, n, st, line).value.state;
      && SameMatrixData(st, s)
      && (Contains(line, Dielectric) ==>
            Mode(s) == (true, false, false) && s.dielectric == Some(ZeroTable(3, 3)) && s.dielectricRead == 0)
      && (!Contains(line, Dielectric) && Contains(line, Effective) ==>
            Mode(s) == (false, true, false) && s.effective == Some(ZeroBlock(n, 3, 3)))
      && (!Contains(line, Dielectric) && !Contains(line, Effective) ==>
            Mode(s) == (false, false, true) && s.raman == Some(ZeroBlock(3, 3, 3 * n)))
  {
  }

  /** A "q = " or "ynamical" line lowers all three flags; neither touches the tensors. */
  lemma MatrixMarker(parse: string -> Option<real>, n: nat, st: ScanState, line: string)
    requires !Contains(line, Diagonalizing) && !Contains(line, Dielectric) && !Contains(line, Effective) && !Contains(line, Raman)
    requires Contains(line, QMarker) || Contains(line, Ynamical)
    ensures var r := Step(parse, n, st, line);
      r.Ok? ==> && r.value.Continue?
                && Mode(r.value.state) == (false, false, false)
                && r.value.state.dielectric == st.dielectric
                && r.value.state.effective == st.effective
                && r.value.state.raman == st.raman
    ensures Contains(line, QMarker) ==>
      (Step(parse, n, st, line).Ok? <==> ReadQ(parse, line).Ok?)
    ensures Contains(line, QMarker) && ReadQ(parse, line).Ok? ==>
      var s := Step(parse, n, st, line).value.state;
      var q := ReadQ(parse, line).value;
      s.star == st.star + [q] && s.qTot == st.qTot + [q] && s.dynmats == st.dynmats
    ensures !Contains(line, QMarker) ==>
      Step(parse, n, st, line) == Ok(Continue(st.(dynmats := st.dynmats + [st.acc],
        readingDielectric := false, readingEffective := false, readingRaman := false)))
  {
  }

  /** In a mode, a line without markers and with tokens goes to that mode's reader. */
  lemma PlainLine(parse: string -> Option<real>, n: nat, st: ScanState, line: string)
    requires !Contains(line, Diagonalizing) && !Contains(line, Dielectric) && !Contains(line, Effective)
    requires !Contains(line, Raman) && !Contains(line, QMarker) && !Contains(line, Ynamical)
    requires |Words(line)| > 0
    ensures var toks := Words(line);
      var r := if st.readingDielectric then DielectricLine(parse, st, toks)
               else if st.readingEffective then EffectiveLine(parse, st, toks)
               else if st.readingRaman then RamanLine(parse, st, toks)
               else MatrixLine(parse, st, toks);
      && (r.Ok? ==> Step(parse, n, st, line) == Ok(Continue(r.value)))
      && (r.Err? ==> Step(parse, n, st, line) == Err(r.error))
  {
  }

  /** "atom # N pol. # P" selects Raman column 3 (N - 1) + (P - 1) and restarts its rows. */
  lemma RamanHeader(parse: string -> Option<real>, st: ScanState, toks: seq<string>, a: int, p: int)
    requires |toks| >= 5 && IsAtomWord(toks[0])
    requires ParseInt(toks[2]) == Some(a) && ParseInt(toks[4]) == Some(p)
    ensures RamanLine(parse, st, toks) == Ok(st.(atmI := a - 1, polRead := p - 1, dielectricRead := 0))
  {
    assert Int(toks[2]) == Ok(a);
    assert Int(toks[4]) == Ok(p);
  }

  /**
   * Three numbers in Raman mode write row `dielectric_read` of the column
   * `3 atm_i + pol_read` in all three slices of that row, and nothing else;
   * the row counter advances.
   */
  lemma RamanRow(parse: string -> Option<real>, st: ScanState, toks: seq<string>)
    requires |toks| == 3 && !IsAtomWord(toks[0]) && forall k :: 0 <= k < 3 ==> parse(toks[k]).Some?
    requires st.raman.Some? && 0 <= st.dielectricRead < |st.raman.value|
    requires var t := st.raman.value[st.dielectricRead];
      |t| == 3 && forall k :: 0 <= k < 3 ==> 0 <= 3 * st.atmI + st.polRead < |t[k]|
    ensures RamanLine(parse, st, toks).Ok?
    ensures var s := RamanLine(parse, st, toks).value;
      var t := st.raman.value;
      var d := st.dielectricRead;
      var col := 3 * st.atmI + st.polRead;
      && s == st.(raman := s.raman, dielectricRead := d + 1)
      && s.raman.Some? && |s.raman.value| == |t|
      && (forall e :: 0 <= e < |t| && e != d ==> s.raman.value[e] == t[e])
      && |s.raman.value[d]| == 3
      && forall k, c :: 0 <= k < 3 && 0 <= c < |t[d][k]| ==>
           |s.raman.value[d][k]| == |t[d][k]| &&
           s.raman.value[d][k][c] == if c == col then parse(toks[k]).value else t[d][k][c]
  {
    var t := st.raman.value;
    var d := st.dielectricRead;
    var col := 3 * st.atmI + st.polRead;
    var row := [parse(toks[0]).value, parse(toks[1]).value, parse(toks[2]).value];
    RamanRowValue(parse, st, toks);
    var slice := [t[d][0][col := row[0]], t[d][1][col := row[1]], t[d][2][col := row[2]]];
    assert RamanLine(parse, st, toks).value.raman == Some(t[d := slice]);
  }

  /** The state after a Raman row, written out. */
  lemma RamanRowValue(parse: string -> Option<real>, st: ScanState, toks: seq<string>)
    requires |toks| == 3 && !IsAtomWord(toks[0]) && forall k :: 0 <= k < 3 ==> parse(toks[k]).Some?
    requires st.raman.Some? && 0 <= st.dielectricRead < |st.raman.value|
    requires var t := st.raman.value[st.dielectricRead];
      var col := 3 * st.atmI + st.polRead;
      |t| == 3 && 0 <= col < |t[0]| && col < |t[1]| && col < |t[2]|
    ensures var t := st.raman.value;
      var d := st.dielectricRead;
      var col := 3 * st.atmI + st.polRead;
      var row := [parse(toks[0]).value, parse(toks[1]).value, parse(toks[2]).value];
      RamanLine(parse, st, toks) == Ok(st.(raman := Some(t[d := [t[d][0][col := row[0]], t[d][1][col := row[1]], t[d][2][col := row[2]]]]),
                                           dielectricRead := d + 1))
  {
    var row := Floats(parse, toks).value;
    assert row == [parse(toks[0]).value, parse(toks[1]).value, parse(toks[2]).value];
    var t := st.raman.value;
    var d := st.dielectricRead;
    var col := 3 * st.atmI + st.polRead;
    assert PyIndex(d, |t|) == Some(d);
    assert forall k :: 0 <= k < 3 ==> PyIndex(col, |t[d][k]|) == Some(col);
    var slice := [t[d][0][col := row[0]], t[d][1][col := row[1]], t[d][2][col := row[2]]];
    assert SetColumn(t[d], col, row) == Ok(slice);
  }

  /** Three numbers in dielectric mode fill row `dielectric_read` and advance it; nothing else changes. */
  lemma DielectricRow(parse: string -> Option<real>, st: ScanState, toks: seq<string>)
    requires |toks| == 3 && forall k :: 0 <= k < 3 ==> parse(toks[k]).Some?
    requires st.dielectric.Some? && 0 <= st.dielectricRead < |st.dielectric.value|
    ensures DielectricLine(parse, st, toks) ==
      Ok(st.(dielectric := Some(st.dielectric.value[st.dielectricRead := [parse(toks[0]).value, parse(toks[1]).value, parse(toks[2]).value]]),
             dielectricRead := st.dielectricRead + 1))
  {
    var row := Floats(parse, toks).value;
    assert row == [parse(toks[0]).value, parse(toks[1]).value, parse(toks[2]).value];
  }

  /** A fourth dielectric row has no place in the 3 x 3 tensor: IndexError. */
  lemma DielectricOverflow(parse: string -> Option<real>, st: ScanState, toks: seq<string>)
    requires |toks| == 3 && forall k :: 0 <= k < 3 ==> parse(toks[k]).Some?
    requires st.dielectric == Some(ZeroTable(3, 3)) && st.dielectricRead == 3
    ensures DielectricLine(parse, st, toks) == Err(BadIndex)
  {
  }

  /** Three numbers in effective-charge mode fill row `dielectric_read` of the current atom's charge and advance it. */
  lemma EffectiveRows(parse: string -> Option<real>, st: ScanState, toks: seq<string>)
    requires |toks| == 3 && forall k :: 0 <= k < 3 ==> parse(toks[k]).Some?
    requires !IsAtomWord(toks[0])
    requires st.effective.Some? && PyIndex(st.atmI, |st.effective.value|).Some?
    requires 0 <= st.dielectricRead < |st.effective.value[PyIndex(st.atmI, |st.effective.value|).value]|
    ensures var t := st.effective.value;
      var a := PyIndex(st.atmI, |t|).value;
      EffectiveLine(parse, st, toks) ==
        Ok(st.(effective := Some(t[a := t[a][st.dielectricRead := [parse(toks[0]).value, parse(toks[1]).value, parse(toks[2]).value]]]),
               dielectricRead := st.dielectricRead + 1))
  {
    var row := Floats(parse, toks).value;
    assert row == [parse(toks[0]).value, parse(toks[1]).value, parse(toks[2]).value];
  }

  // ---------------------------------------------------------------- whole blocks

  /** A line the loop hands to the reader of its mode: it holds none of the markers. */
  predicate Unmarked(line: string)
  {
    && !Contains(line, Diagonalizing) && !Contains(line, Dielectric) && !Contains(line, Effective)
    && !Contains(line, Raman) && !Contains(line, QMarker) && !Contains(line, Ynamical)
  }

  /** A row of three numbers that is not an "atom" line. */
  predicate NumberRow(parse: string -> Option<real>, line: string)
  {
    && Unmarked(line)
    && var w := Words(line);
    && |w| == 3 && !IsAtomWord(w[0]) && forall k :: 0 <= k < 3 ==> parse(w[k]).Some?
  }

  /** The three numbers of a row. */
  function RowValues(parse: string -> Option<real>, line: string): (v: Vector)
    requires NumberRow(parse, line)
    ensures |v| == 3
  {
    var w := Words(line);
    [parse(w[0]).value, parse(w[1]).value, parse(w[2]).value]
  }

  /** An "atom # N [pol. # P]" line: the atom number N, and P when `withPol`. */
  predicate AtomHeader(line: string, a: int, p: int, withPol: bool)
  {
    && Unmarked(line)
    && var w := Words(line);
    && |w| >= 3 && IsAtomWord(w[0]) && ParseInt(w[2]) == Some(a)
    && (withPol ==> |w| >= 5 && ParseInt(w[4]) == Some(p))
  }

  /** A line that lets the loop go on from state `s` continues the scan of the rest from `s`. */
  lemma ScanContinue(parse: string -> Option<real>, n: nat, st: ScanState, line: string, rest: seq<string>, s: ScanState)
    requires Step(parse, n, st, line) == Ok(Continue(s))
    ensures Scan(parse, n, st, [line] + rest) == Scan(parse, n, s, rest)
  {
    assert ([line] + rest)[0] == line && ([line] + rest)[1..] == rest;
  }

  /** Three lines, each of which continues the scan, are consumed in order. */
  lemma ScanThree(parse: string -> Option<real>, n: nat, s0: ScanState, s1: ScanState, s2: ScanState, s3: ScanState,
                  l0: string, l1: string, l2: string, rest: seq<string>)
    requires Step(parse, n, s0, l0) == Ok(Continue(s1))
    requires Step(parse, n, s1, l1) == Ok(Continue(s2))
    requires Step(parse, n, s2, l2) == Ok(Continue(s3))
    ensures Scan(parse, n, s0, [l0, l1, l2] + rest) == Scan(parse, n, s3, rest)
  {
    assert [l0, l1, l2] + rest == [l0] + ([l1] + ([l2] + rest));
    ScanContinue(parse, n, s2, l2, rest, s3);
    ScanContinue(parse, n, s1, l1, [l2] + rest, s2);
    ScanContinue(parse, n, s0, l0, [l1] + ([l2] + rest), s1);
  }

  /** A line that continues the scan, then three lines that bring it to `s3`. */
  lemma ScanFour(parse: string -> Option<real>, n: nat, st: ScanState, s0: ScanState, s3: ScanState,
                 atom: string, l0: string, l1: string, l2: string, rest: seq<string>)
    requires Step(parse, n, st, atom) == Ok(Continue(s0))
    requires Scan(parse, n, s0, [l0, l1, l2] + rest) == Scan(parse, n, s3, rest)
    ensures Scan(parse, n, st, [atom, l0, l1, l2] + rest) == Scan(parse, n, s3, rest)
  {
    assert [atom, l0, l1, l2] + rest == [atom] + ([l0, l1, l2] + rest);
    ScanContinue(parse, n, st, atom, [l0, l1, l2] + rest, s0);
  }

  /** Four lines and the rest, nested one line at a time. */
  lemma Nest4(a: string, b: string, c: string, d: string, rest: seq<string>)
    ensures [a, b, c, d] + rest == [a] + ([b] + ([c] + ([d] + rest)))
  {
  }

  /** One row in dielectric mode. */
  lemma DielectricStep(parse: string -> Option<real>, n: nat, s: ScanState, line: string)
    requires s.readingDielectric && NumberRow(parse, line)
    requires s.dielectric.Some? && 0 <= s.dielectricRead < |s.dielectric.value|
    ensures Step(parse, n, s, line) == Ok(Continue(s.(dielectric := Some(s.dielectric.value[s.dielectricRead := RowValues(parse, line)]),
                                                      dielectricRead := s.dielectricRead + 1)))
  {
    PlainLine(parse, n, s, line);
    DielectricRow(parse, s, Words(line));
  }

  /**
   * A "Dielectric" line followed by three rows: the loop goes on in
   * dielectric mode with the tensor made of exactly those three rows, in
   * order, and the row counter at 3.
   */
  lemma DielectricBlock(parse: string -> Option<real>, n: nat, st: ScanState, marker: string,
                        l0: string, l1: string, l2: string, rest: seq<string>)
    requires !Contains(marker, Diagonalizing) && Contains(marker, Dielectric)
    requires NumberRow(parse, l0) && NumberRow(parse, l1) && NumberRow(parse, l2)
    ensures Scan(parse, n, st, [marker, l0, l1, l2] + rest)
         == Scan(parse, n, st.(readingDielectric := true, readingEffective := false, readingRaman := false,
                               dielectric := Some([RowValues(parse, l0), RowValues(parse, l1), RowValues(parse, l2)]),
                               dielectricRead := 3), rest)
  {
    var s0 := st.(readingDielectric := true, readingEffective := false, readingRaman := false,
                  dielectric := Some(ZeroTable(3, 3)), dielectricRead := 0);
    assert Step(parse, n, st, marker) == Ok(Continue(s0));
    DielectricStep(parse, n, s0, l0);
    var s1 := s0.(dielectric := Some(ZeroTable(3, 3)[0 := RowValues(parse, l0)]), dielectricRead := 1);
    DielectricStep(parse, n, s1, l1);
    var s2 := s1.(dielectric := Some(s1.dielectric.value[1 := RowValues(parse, l1)]), dielectricRead := 2);
    DielectricStep(parse, n, s2, l2);
    var s3 := s2.(dielectric := Some(s2.dielectric.value[2 := RowValues(parse, l2)]), dielectricRead := 3);
    assert s3.dielectric.value == [RowValues(parse, l0), RowValues(parse, l1), RowValues(parse, l2)];
    Nest4(marker, l0, l1, l2, rest);
    ScanContinue(parse, n, s2, l2, rest, s3);
    ScanContinue(parse, n, s1, l1, [l2] + rest, s2);
    ScanContinue(parse, n, s0, l0, [l1] + ([l2] + rest), s1);
    ScanContinue(parse, n, st, marker, [l0] + ([l1] + ([l2] + rest)), s0);
  }

  /** One row in effective-charge mode. */
  lemma EffectiveStep(parse: string -> Option<real>, n: nat, s: ScanState, line: string)
    requires !s.readingDielectric && s.readingEffective && NumberRow(parse, line)
    requires s.effective.Some? && PyIndex(s.atmI, |s.effective.value|).Some?
    requires 0 <= s.dielectricRead < |s.effective.value[PyIndex(s.atmI, |s.effective.value|).value]|
    ensures var t := s.effective.value;
      var a := PyIndex(s.atmI, |t|).value;
      Step(parse, n, s, line) == Ok(Continue(s.(effective := Some(t[a := t[a][s.dielectricRead := RowValues(parse, line)]]),
                                                dielectricRead := s.dielectricRead + 1)))
  {
    PlainLine(parse, n, s, line);
    EffectiveRows(parse, s, Words(line));
  }

  /** Three rows in effective-charge mode, starting from row 0, replace the current atom's charge. */
  lemma EffectiveRowsScan(parse: string -> Option<real>, n: nat, s0: ScanState,
                          l0: string, l1: string, l2: string, rest: seq<string>)
    requires !s0.readingDielectric && s0.readingEffective && s0.dielectricRead == 0
    requires s0.effective.Some? && PyIndex(s0.atmI, |s0.effective.value|).Some?
    requires |s0.effective.value[PyIndex(s0.atmI, |s0.effective.value|).value]| == 3
    requires NumberRow(parse, l0) && NumberRow(parse, l1) && NumberRow(parse, l2)
    ensures var t := s0.effective.value;
      Scan(parse, n, s0, [l0, l1, l2] + rest)
      == Scan(parse, n, s0.(effective := Some(t[PyIndex(s0.atmI, |t|).value := [RowValues(parse, l0), RowValues(parse, l1), RowValues(parse, l2)]]),
                            dielectricRead := 3), rest)
  {
    var t := s0.effective.value;
    var k := PyIndex(s0.atmI, |t|).value;
    EffectiveStep(parse, n, s0, l0);
    var s1 := s0.(effective := Some(t[k := t[k][0 := RowValues(parse, l0)]]), dielectricRead := 1);
    EffectiveStep(parse, n, s1, l1);
    var t1 := s1.effective.value;
    var s2 := s1.(effective := Some(t1[k := t1[k][1 := RowValues(parse, l1)]]), dielectricRead := 2);
    EffectiveStep(parse, n, s2, l2);
    var t2 := s2.effective.value;
    var s3 := s2.(effective := Some(t2[k := t2[k][2 := RowValues(parse, l2)]]), dielectricRead := 3);
    assert t2[k][2 := RowValues(parse, l2)] == [RowValues(parse, l0), RowValues(parse, l1), RowValues(parse, l2)];
    assert s3.effective.value == t[k := [RowValues(parse, l0), RowValues(parse, l1), RowValues(parse, l2)]];
    ScanThree(parse, n, s0, s1, s2, s3, l0, l1, l2, rest);
  }

  /**
   * In effective-charge mode, an "atom # N" line followed by three rows
   * fills exactly the 3 x 3 charge of atom N - 1 (a negative index counted
   * from the end, as numpy does) with those rows; every other atom's charge
   * is unchanged.
   */
  lemma EffectiveBlock(parse: string -> Option<real>, n: nat, st: ScanState, atom: string, a: int,
                       l0: string, l1: string, l2: string, rest: seq<string>)
    requires !st.readingDielectric && st.readingEffective && st.effective.Some? && |st.effective.value| == n
    requires AtomHeader(atom, a, 0, false) && PyIndex(a - 1, n).Some?
    requires |st.effective.value[PyIndex(a - 1, n).value]| == 3
    requires NumberRow(parse, l0) && NumberRow(parse, l1) && NumberRow(parse, l2)
    ensures var t := st.effective.value;
      Scan(parse, n, st, [atom, l0, l1, l2] + rest)
      == Scan(parse, n, st.(effective := Some(t[PyIndex(a - 1, n).value := [RowValues(parse, l0), RowValues(parse, l1), RowValues(parse, l2)]]),
                            atmI := a - 1, dielectricRead := 3), rest)
  {
    var t := st.effective.value;
    var k := PyIndex(a - 1, n).value;
    var s0 := st.(atmI := a - 1, dielectricRead := 0);
    var s3 := st.(effective := Some(t[k := [RowValues(parse, l0), RowValues(parse, l1), RowValues(parse, l2)]]),
                  atmI := a - 1, dielectricRead := 3);
    PlainLine(parse, n, st, atom);
    assert Int(Words(atom)[2]) == Ok(a);
    assert Step(parse, n, st, atom) == Ok(Continue(s0));
    EffectiveRowsScan(parse, n, s0, l0, l1, l2, rest);
    assert s0.(effective := Some(t[k := [RowValues(parse, l0), RowValues(parse, l1), RowValues(parse, l2)]]), dielectricRead := 3) == s3;
    ScanFour(parse, n, st, s0, s3, atom, l0, l1, l2, rest);
  }

  /** Slice `d` of a Raman tensor with column `c` of its three rows set from `v`. */
  function SliceColumn(slice: seq<Vector>, c: nat, v: Vector): seq<Vector>
    requires |slice| == 3 && |v| == 3 && forall k :: 0 <= k < 3 ==> c < |slice[k]|
  {
    [slice[0][c := v[0]], slice[1][c := v[1]], slice[2][c := v[2]]]
  }

  /** `t[d, :, c] = rows[d]` for d = 0, 1, 2: column c of every slice, the rest unchanged. */
  function ColumnFilled(t: seq<seq<Vector>>, len: nat, c: nat, rows: seq<Vector>): (r: seq<seq<Vector>>)
    requires RamanShape(t, len) && c < len && ThreeRows(rows)
    ensures RamanShape(r, len)
    ensures forall d, k, j :: 0 <= d < 3 && 0 <= k < 3 && 0 <= j < len ==>
      r[d][k][j] == if j == c then rows[d][k] else t[d][k][j]
  {
    [SliceColumn(t[0], c, rows[0]), SliceColumn(t[1], c, rows[1]), SliceColumn(t[2], c, rows[2])]
  }

  /** Three rows of three numbers each. */
  predicate ThreeRows(rows: seq<Vector>)
  {
    |rows| == 3 && forall d :: 0 <= d < 3 ==> |rows[d]| == 3
  }

  /** Every slice of a Raman tensor has three rows of `len` entries. */
  predicate RamanShape(t: seq<seq<Vector>>, len: nat)
  {
    |t| == 3 && forall d :: 0 <= d < 3 ==> |t[d]| == 3 && forall k :: 0 <= k < 3 ==> |t[d][k]| == len
  }

  /** One row in Raman mode. */
  lemma RamanStep(parse: string -> Option<real>, n: nat, s: ScanState, line: string, c: nat)
    requires !s.readingDielectric && !s.readingEffective && s.readingRaman && NumberRow(parse, line)
    requires s.raman.Some? && RamanShape(s.raman.value, 3 * n) && 0 <= s.dielectricRead < 3
    requires PyIndex(3 * s.atmI + s.polRead, 3 * n) == Some(c)
    ensures var t := s.raman.value;
      var d := s.dielectricRead;
      Step(parse, n, s, line) == Ok(Continue(s.(raman := Some(t[d := SliceColumn(t[d], c, RowValues(parse, line))]),
                                                dielectricRead := d + 1)))
  {
    var toks := Words(line);
    PlainLine(parse, n, s, line);
    var row := Floats(parse, toks).value;
    assert row == RowValues(parse, line);
    var t := s.raman.value;
    var d := s.dielectricRead;
    assert PyIndex(d, |t|) == Some(d);
    assert SetColumn(t[d], 3 * s.atmI + s.polRead, row) == Ok(SliceColumn(t[d], c, row));
  }

  /** Setting one slice's column keeps the tensor's shape. */
  lemma SliceKeepsShape(t: seq<seq<Vector>>, len: nat, d: nat, c: nat, v: Vector)
    requires RamanShape(t, len) && d < 3 && c < len && |v| == 3
    ensures RamanShape(t[d := SliceColumn(t[d], c, v)], len)
  {
  }

  /** Filling slice 0, then 1, then 2 is `ColumnFilled`. */
  lemma FillInOrder(t: seq<seq<Vector>>, len: nat, c: nat, rows: seq<Vector>)
    requires RamanShape(t, len) && c < len && ThreeRows(rows)
    ensures var t1 := t[0 := SliceColumn(t[0], c, rows[0])];
      var t2 := t1[1 := SliceColumn(t1[1], c, rows[1])];
      t2[2 := SliceColumn(t2[2], c, rows[2])] == ColumnFilled(t, len, c, rows)
  {
  }

  /** Three rows in Raman mode, after the header of atom `a`, polarization `p`, fill column c of every slice. */
  lemma RamanRows(parse: string -> Option<real>, n: nat, st: ScanState, a: int, p: int, c: nat,
                  l0: string, l1: string, l2: string, rest: seq<string>)
    requires !st.readingDielectric && !st.readingEffective && st.readingRaman
    requires st.raman.Some? && RamanShape(st.raman.value, 3 * n)
    requires PyIndex(3 * (a - 1) + (p - 1), 3 * n) == Some(c)
    requires NumberRow(parse, l0) && NumberRow(parse, l1) && NumberRow(parse, l2)
    ensures Scan(parse, n, st.(atmI := a - 1, polRead := p - 1, dielectricRead := 0), [l0, l1, l2] + rest)
         == Scan(parse, n, st.(raman := Some(ColumnFilled(st.raman.value, 3 * n, c, [RowValues(parse, l0), RowValues(parse, l1), RowValues(parse, l2)])),
                               atmI := a - 1, polRead := p - 1, dielectricRead := 3), rest)
  {
    var s0 := st.(atmI := a - 1, polRead := p - 1, dielectricRead := 0);
    var t := st.raman.value;
    var rows := [RowValues(parse, l0), RowValues(parse, l1), RowValues(parse, l2)];
    var t1 := t[0 := SliceColumn(t[0], c, rows[0])];
    var s1 := s0.(raman := Some(t1), dielectricRead := 1);
    var t2 := t1[1 := SliceColumn(t1[1], c, rows[1])];
    var s2 := s1.(raman := Some(t2), dielectricRead := 2);
    var t3 := t2[2 := SliceColumn(t2[2], c, rows[2])];
    var s3 := s2.(raman := Some(t3), dielectricRead := 3);
    RamanStep(parse, n, s0, l0, c);
    SliceKeepsShape(t, 3 * n, 0, c, rows[0]);
    RamanStep(parse, n, s1, l1, c);
    SliceKeepsShape(t1, 3 * n, 1, c, rows[1]);
    RamanStep(parse, n, s2, l2, c);
    FillInOrder(t, 3 * n, c, rows);
    assert s3 == st.(raman := Some(ColumnFilled(t, 3 * n, c, rows)), atmI := a - 1, polRead := p - 1, dielectricRead := 3);
    ScanThree(parse, n, s0, s1, s2, s3, l0, l1, l2, rest);
  }

  /** The "atom # N pol. # P" line of a Raman block. */
  lemma RamanAtomStep(parse: string -> Option<real>, n: nat, st: ScanState, atom: string, a: int, p: int)
    requires !st.readingDielectric && !st.readingEffective && st.readingRaman && AtomHeader(atom, a, p, true)
    ensures Step(parse, n, st, atom) == Ok(Continue(st.(atmI := a - 1, polRead := p - 1, dielectricRead := 0)))
  {
    PlainLine(parse, n, st, atom);
    RamanHeader(parse, st, Words(atom), a, p);
  }

  /**
   * In Raman mode, an "atom # N pol. # P" line followed by three rows sets
   * column `3 (N - 1) + (P - 1)` (counted from the end when negative, as
   * numpy does) of the three slices from those rows, row d into slice d;
   * every other entry of the tensor is unchanged.
   */
  lemma RamanBlock(parse: string -> Option<real>, n: nat, st: ScanState, atom: string, a: int, p: int, c: nat,
                   l0: string, l1: string, l2: string, rest: seq<string>)
    requires !st.readingDielectric && !st.readingEffective && st.readingRaman
    requires st.raman.Some? && RamanShape(st.raman.value, 3 * n)
    requires AtomHeader(atom, a, p, true) && PyIndex(3 * (a - 1) + (p - 1), 3 * n) == Some(c)
    requires NumberRow(parse, l0) && NumberRow(parse, l1) && NumberRow(parse, l2)
    ensures Scan(parse, n, st, [atom, l0, l1, l2] + rest)
         == Scan(parse, n, st.(raman := Some(ColumnFilled(st.raman.value, 3 * n, c, [RowValues(parse, l0), RowValues(parse, l1), RowValues(parse, l2)])),
                               atmI := a - 1, polRead := p - 1, dielectricRead := 3), rest)
  {
    RamanAtomStep(parse, n, st, atom, a, p);
    RamanRows(parse, n, st, a, p, c, l0, l1, l2, rest);
    ScanFour(parse, n, st, st.(atmI := a - 1, polRead := p - 1, dielectricRead := 0),
             st.(raman := Some(ColumnFilled(st.raman.value, 3 * n, c, [RowValues(parse, l0), RowValues(parse, l1), RowValues(parse, l2)])),
                 atmI := a - 1, polRead := p - 1, dielectricRead := 3), atom, l0, l1, l2, rest);
  }
}

=== FILE: star.dfy ===
/**
 * Reading back one block: the lines `save_qe` writes for one q point of a
 * star are their own `strip()`, and the block loop walks them, reading the q
 * point and the 3N x 3N matrix with every number passed once through the
 * formatter and the parser.
 */
module StarRead {
  import opened Results
  import opened Text
  import opened Container
  import opened Loader
  import opened Saver
  import opened RoundTrip
  import opened BlockRead

  // ---------------------------------------------------------------- strip()

  /** A row of numerals joined by spaces is its own `strip()`. */
  lemma RowTextStrip(parse: string -> Option<real>, show: real -> string, m: Matrix, r: nat, c: nat)
    requires Codec(parse, show) && r < |m| && c + 3 <= |m[r]|
    ensures Strip(RowText(show, m, r, c)) == RowText(show, m, r, c)
  {
    var ts := RowTokens(show, m, r, c);
    assert forall k :: 0 <= k < |ts| ==> Numeral(ts[k]);
    NumericText(ts);
  }

  /** So is a pair line. */
  lemma PairTextStrip(a: nat, b: nat)
    ensures Strip(PairText(a, b)) == PairText(a, b)
  {
    var ts := [ShowNat(a), ShowNat(b)];
    ShowNatNumeral(a);
    ShowNatNumeral(b);
    NumericText(ts);
  }

  /** `strip()` of a first line and the rest. */
  lemma StripCons(a: string, t: seq<string>)
    ensures StripAll([a] + t) == [Strip(a)] + StripAll(t)
  {
    assert ([a] + t)[1..] == t;
  }

  lemma StripOne(a: string)
    ensures StripAll([a]) == [Strip(a)]
  {
    StripCons(a, []);
    assert [a] + [] == [a];
  }

  /** A display of four, as nested appends. */
  lemma Nest4<T>(a: T, b: T, c: T, d: T)
    ensures [a, b, c, d] == [a] + ([b] + ([c] + [d]))
    ensures [a, b, c, d] == [a] + [b, c, d]
  {
  }

  /** A display of five followed by more, as nested appends. */
  lemma Nest5<T>(a: T, b: T, c: T, d: T, e: T, t: seq<T>)
    ensures [a, b, c, d, e] == [a] + ([b] + ([c] + ([d] + [e])))
    ensures [a, b, c, d, e] + t == [a] + ([b] + ([c] + ([d] + ([e] + t))))
  {
  }

  /** `strip()` of each of four lines. */
  lemma StripFour(a: string, b: string, c: string, d: string)
    ensures StripAll([a, b, c, d]) == [Strip(a), Strip(b), Strip(c), Strip(d)]
  {
    Nest4(a, b, c, d);
    Nest4(Strip(a), Strip(b), Strip(c), Strip(d));
    StripOne(d);
    StripCons(c, [d]);
    StripCons(b, [c] + [d]);
    StripCons(a, [b] + ([c] + [d]));
  }

  /** Four lines that `strip()` leaves alone. */
  lemma KeptFour(a: string, b: string, c: string, d: string)
    requires Strip(a) == a && Strip(b) == b && Strip(c) == c && Strip(d) == d
    ensures StripAll([a, b, c, d]) == [a, b, c, d]
  {
    StripFour(a, b, c, d);
  }

  /** `strip()` of each of five lines. */
  lemma StripFive(a: string, b: string, c: string, d: string, e: string)
    ensures StripAll([a, b, c, d, e]) == [Strip(a), Strip(b), Strip(c), Strip(d), Strip(e)]
  {
    Nest5(a, b, c, d, e, []);
    Nest5(Strip(a), Strip(b), Strip(c), Strip(d), Strip(e), []);
    StripOne(e);
    StripCons(d, [e]);
    StripCons(c, [d] + [e]);
    StripCons(b, [c] + ([d] + [e]));
    StripCons(a, [b] + ([c] + ([d] + [e])));
  }

  /** Two runs of lines that `strip()` leaves alone, one after the other. */
  lemma KeptAppend(a: seq<string>, b: seq<string>)
    requires StripAll(a) == a && StripAll(b) == b
    ensures StripAll(a + b) == a + b
  {
    StripAllAppend(a, b);
  }

  /** Lines that are each their own `strip()`. */
  lemma KeptAll(lines: seq<string>)
    requires forall k :: 0 <= k < |lines| ==> Strip(lines[k]) == lines[k]
    ensures StripAll(lines) == lines
  {
    assert forall k :: 0 <= k < |lines| ==> StripAll(lines)[k] == lines[k];
  }

  /** The three rows of a pair are their own `strip()`. */
  lemma RowsStrip(parse: string -> Option<real>, show: real -> string, n: nat, m: Matrix, i: nat, j: nat)
    requires Codec(parse, show) && Covers(m, 3 * n) && i < n && j < n
    ensures StripAll(RowsText(show, n, m, i, j)) == RowsText(show, n, m, i, j)
  {
    RowTextStrip(parse, show, m, 3 * i, 3 * j);
    RowTextStrip(parse, show, m, 3 * i + 1, 3 * j);
    RowTextStrip(parse, show, m, 3 * i + 2, 3 * j);
    KeptThree(RowText(show, m, 3 * i, 3 * j), RowText(show, m, 3 * i + 1, 3 * j), RowText(show, m, 3 * i + 2, 3 * j));
  }

  lemma KeptThree(a: string, b: string, c: string)
    requires Strip(a) == a && Strip(b) == b && Strip(c) == c
    ensures StripAll([a, b, c]) == [a, b, c]
  {
    KeptAll([a, b, c]);
  }

  /** So are a pair line and its rows. */
  lemma PairLinesStrip(parse: string -> Option<real>, show: real -> string, n: nat, m: Matrix, i: nat, j: nat)
    requires Codec(parse, show) && Covers(m, 3 * n) && i < n && j < n
    ensures StripAll(PairLines(show, n, m, i, j)) == PairLines(show, n, m, i, j)
  {
    PairTextStrip(i + 1, j + 1);
    RowsStrip(parse, show, n, m, i, j);
    KeptCons(PairText(i + 1, j + 1), RowsText(show, n, m, i, j));
  }

  lemma KeptCons(a: string, t: seq<string>)
    requires Strip(a) == a && StripAll(t) == t
    ensures StripAll([a] + t) == [a] + t
  {
    StripOne(a);
    KeptAppend([a], t);
  }

  /** Row-major concatenation of line groups that are each their own `strip()`. */
  lemma {:induction false} RowMajorStrip(lines: (nat, nat) -> seq<string>, n: nat, i: nat, j: nat)
    requires forall a: nat, b: nat {:trigger lines(a, b)} :: StripAll(lines(a, b)) == lines(a, b)
    requires i <= n && j <= n
    ensures StripAll(RowMajor(lines, n, i, j)) == RowMajor(lines, n, i, j)
    decreases n - i, n - j
  {
    if i == n {
      assert |StripAll(RowMajor(lines, n, i, j))| == 0;
    } else if j == n {
      RowMajorStrip(lines, n, i + 1, 0);
    } else {
      RowMajorStrip(lines, n, i, j + 1);
      KeptAppend(lines(i, j), RowMajor(lines, n, i, j + 1));
    }
  }

  /** The pair lines and rows of a block are read as written. */
  lemma PairsStrip(parse: string -> Option<real>, show: real -> string, n: nat, m: Matrix)
    requires Codec(parse, show) && Covers(m, 3 * n)
    ensures StripAll(PairsText(show, n, m)) == PairsText(show, n, m)
  {
    var lines := PairSource(show, n, m);
    forall a: nat, b: nat {:trigger lines(a, b)}
      ensures StripAll(lines(a, b)) == lines(a, b)
    {
      if a < n && b < n {
        PairLinesStrip(parse, show, n, m, a, b);
      }
    }
    RowMajorStrip(lines, n, 0, 0);
  }

  // ---------------------------------------------------------------- one block

  /** A block after `strip()`, from the blank line before its q line on. */
  function Body(fmt: Formats, n: nat, q: Vector, m: Matrix): seq<string>
    requires |q| >= 3 && Covers(m, 3 * n)
  {
    [""] + ([QBody(fmt.fixed9, q)] + ([""] + PairsText(fmt.fixed8, n, m)))
  }

  /** A whole block after `strip()`. */
  function Stripped(fmt: Formats, n: nat, q: Vector, m: Matrix): seq<string>
    requires |q| >= 3 && Covers(m, 3 * n)
  {
    [""] + ([BlockTitleText] + Body(fmt, n, q, m))
  }

  lemma BlockHeadStrip(show: real -> string, q: Vector)
    requires |q| >= 3
    ensures StripAll(["", BlockTitle, "", QText(show, q), ""]) == ["", BlockTitleText, "", QBody(show, q), ""]
  {
    StripFive("", BlockTitle, "", QText(show, q), "");
    TitlesStrip();
    QTextStrip(show, q);
    assert Strip("") == "";
  }

  /** `strip()` turns a written block into `Stripped`. */
  lemma BlockStrip(parse: string -> Option<real>, fmt: Formats, n: nat, q: Vector, m: Matrix)
    requires Codec(parse, fmt.fixed8) && |q| >= 3 && Covers(m, 3 * n)
    ensures StripAll(BlockText(fmt, n, q, m)) == Stripped(fmt, n, q, m)
  {
    var head := ["", BlockTitle, "", QText(fmt.fixed9, q), ""];
    StripAllAppend(head, PairsText(fmt.fixed8, n, m));
    BlockHeadStrip(fmt.fixed9, q);
    PairsStrip(parse, fmt.fixed8, n, m);
    Nest5("", BlockTitleText, "", QBody(fmt.fixed9, q), "", PairsText(fmt.fixed8, n, m));
  }

  /** The state after a q line: the q point, after one trip, appended to the star and to `q_tot`. */
  function AfterQ(parse: string -> Option<real>, fmt: Formats, st: ScanState, q: Vector): ScanState
    requires Codec(parse, fmt.fixed9) && |q| >= 3
  {
    st.(star := st.star + [RQ(parse, fmt.fixed9, q)], qTot := st.qTot + [RQ(parse, fmt.fixed9, q)],
        readingDielectric := false, readingEffective := false, readingRaman := false)
  }

  /** The state after a block title: the matrix read so far stored. */
  function Stored(st: ScanState): ScanState
  {
    st.(dynmats := st.dynmats + [st.acc], readingDielectric := false, readingEffective := false, readingRaman := false)
  }

  /** Blank, q line, blank, pairs: the q point is appended and the matrix read back after one trip. */
  lemma BodyWalk(f: LineReader, parse: string -> Option<real>, fmt: Formats, n: nat, st: ScanState, q: Vector, m: Matrix)
    requires Laws(f, parse, fmt)
    requires Square(st.acc, 3 * n) && |q| >= 3 && Covers(m, 3 * n)
    ensures var r := Walk(f, st, Body(fmt, n, q, m));
      && r.Ok? && r.value.Continue? && SameBesidesMatrix(r.value.state, AfterQ(parse, fmt, st, q))
      && r.value.state.acc == RM(parse, fmt.fixed8, m, 3 * n)
  {
    var s := AfterQ(parse, fmt, st, q);
    var pairs := PairsText(fmt.fixed8, n, m);
    PairsWalk(f, parse, fmt.fixed8, n, s, m);
    WalkCons(f, s, "", pairs, s);
    WalkCons(f, st, QBody(fmt.fixed9, q), [""] + pairs, s);
    WalkCons(f, st, "", [QBody(fmt.fixed9, q)] + ([""] + pairs), st);
  }

  /** A later block first stores the matrix read so far, then reads its own. */
  lemma BlockWalk(f: LineReader, parse: string -> Option<real>, fmt: Formats, n: nat, st: ScanState, q: Vector, m: Matrix)
    requires Laws(f, parse, fmt)
    requires Square(st.acc, 3 * n) && |q| >= 3 && Covers(m, 3 * n)
    ensures var r := Walk(f, st, Stripped(fmt, n, q, m));
      && r.Ok? && r.value.Continue? && SameBesidesMatrix(r.value.state, AfterQ(parse, fmt, Stored(st), q))
      && r.value.state.acc == RM(parse, fmt.fixed8, m, 3 * n)
  {
    var s := Stored(st);
    var body := Body(fmt, n, q, m);
    BodyWalk(f, parse, fmt, n, s, q, m);
    WalkCons(f, st, BlockTitleText, body, s);
    WalkCons(f, st, "", [BlockTitleText] + body, st);
  }
}

=== FILE: text.dfy ===
/**
 * The string operations the dynamical-matrix reader relies on, with the
 * semantics of Python 2 byte strings: `str.strip()`, `str.split()`,
 * `str.split(sep)`, `str.replace`, `sub in s`, `int(s)` and `"%d" % n`.
 * Whitespace is the ASCII set Python 2 uses for `str`.
 */
module Text {
  import opened Results

  predicate IsSpace(c: char)
  {
    c == ' ' || c == '\t' || c == '\n' || c == '\r' || c == '\U{000B}' || c == '\U{000C}'
  }

  /** A string made of whitespace only (an indentation). */
  predicate Blank(s: string)
  {
    forall i :: 0 <= i < |s| ==> IsSpace(s[i])
  }

  /** A non-empty string without whitespace: what `split()` returns as one field. */
  predicate IsWord(s: string)
  {
    |s| > 0 && forall i :: 0 <= i < |s| ==> !IsSpace(s[i])
  }

  /** No whitespace at either end, so `strip()` leaves the string alone. */
  predicate Trimmed(s: string)
  {
    |s| == 0 || (!IsSpace(s[0]) && !IsSpace(s[|s| - 1]))
  }

  predicate OnlyChars(s: string, cs: set<char>)
  {
    forall i :: 0 <= i < |s| ==> s[i] in cs
  }

  // ---------------------------------------------------------------- strip

  function LStrip(s: string): string
    decreases |s|
  {
    if |s| > 0 && IsSpace(s[0]) then LStrip(s[1..]) else s
  }

  function RStrip(s: string): string
    decreases |s|
  {
    if |s| > 0 && IsSpace(s[|s| - 1]) then RStrip(s[..|s| - 1]) else s
  }

  /** Python's `s.strip()`. */
  function Strip(s: string): string
  {
    LStrip(RStrip(s))
  }

  lemma StripTrimmed(s: string)
    requires Trimmed(s)
    ensures Strip(s) == s
  {
  }

  lemma {:induction false} LStripBlank(p: string, s: string)
    requires Blank(p)
    requires |s| > 0 && !IsSpace(s[0])
    ensures LStrip(p + s) == s
    decreases |p|
  {
    if |p| > 0 {
      assert (p + s)[1..] == p[1..] + s;
      LStripBlank(p[1..], s);
    } else {
      assert p + s == s;
    }
  }

  /** Stripping an indented, trimmed line gives the line without its indentation. */
  lemma StripIndented(p: string, s: string)
    requires Blank(p) && |s| > 0 && Trimmed(s)
    ensures Strip(p + s) == s
  {
    assert RStrip(p + s) == p + s;
    LStripBlank(p, s);
  }

  /** Stripping a trimmed string followed by whitespace gives the string. */
  lemma StripTrailing(s: string, p: string)
    requires Trimmed(s) && Blank(p)
    ensures Strip(s + p) == s
  {
    RStripBlank(s, p);
    StripTrimmed(s);
  }

  lemma {:induction false} RStripBlank(s: string, p: string)
    requires Blank(p)
    ensures RStrip(s + p) == RStrip(s)
    decreases |p|
  {
    if |p| > 0 {
      var q := p[..|p| - 1];
      assert (s + p)[..|s + p| - 1] == s + q;
      RStripBlank(s, q);
    } else {
      assert s + p == s;
    }
  }

  // ---------------------------------------------------------------- split()

  /** Length of the leading run of non-whitespace characters. */
  function WordLen(s: string): (n: nat)
    ensures n <= |s|
    ensures forall k :: 0 <= k < n ==> !IsSpace(s[k])
    ensures n == |s| || IsSpace(s[n])
    decreases |s|
  {
    if |s| == 0 || IsSpace(s[0]) then 0 else 1 + WordLen(s[1..])
  }

  /** Python's `s.split()`: the maximal runs of non-whitespace, in order. */
  function Words(s: string): (r: seq<string>)
    ensures forall k :: 0 <= k < |r| ==> IsWord(r[k])
    decreases |s|
  {
    if |s| == 0 then []
    else if IsSpace(s[0]) then Words(s[1..])
    else
      var n := WordLen(s);
      [s[..n]] + Words(s[n..])
  }

  lemma {:induction false} WordLenOfWord(w: string, rest: string)
    requires IsWord(w)
    requires |rest| == 0 || IsSpace(rest[0])
    ensures WordLen(w + rest) == |w|
    decreases |w|
  {
    if |w| > 1 {
      assert (w + rest)[1..] == w[1..] + rest;
      WordLenOfWord(w[1..], rest);
    } else {
      assert (w + rest)[1..] == rest;
    }
  }

  lemma WordsCons(w: string, rest: string)
    requires IsWord(w)
    requires |rest| == 0 || IsSpace(rest[0])
    ensures Words(w + rest) == [w] + Words(rest)
  {
    WordLenOfWord(w, rest);
    assert (w + rest)[..|w|] == w;
    assert (w + rest)[|w|..] == rest;
  }

  lemma {:induction false} WordsBlank(p: string, s: string)
    requires Blank(p)
    ensures Words(p + s) == Words(s)
    decreases |p|
  {
    if |p| > 0 {
      assert (p + s)[1..] == p[1..] + s;
      WordsBlank(p[1..], s);
    } else {
      assert p + s == s;
    }
  }

  /** The fields separated by single spaces: `" ".join(ts)`. */
  function Join(ts: seq<string>): string
    decreases |ts|
  {
    if |ts| == 0 then ""
    else if |ts| == 1 then ts[0]
    else ts[0] + " " + Join(ts[1..])
  }

  /** `split()` undoes `" ".join` of words. */
  lemma {:induction false} WordsJoin(ts: seq<string>)
    requires forall k :: 0 <= k < |ts| ==> IsWord(ts[k])
    ensures Words(Join(ts)) == ts
    decreases |ts|
  {
    if |ts| == 1 {
      WordsCons(ts[0], "");
      assert ts[0] + "" == ts[0];
    } else if |ts| > 1 {
      var tail := Join(ts[1..]);
      WordsJoin(ts[1..]);
      assert ts[0] + " " + tail == ts[0] + (" " + tail);
      WordsCons(ts[0], " " + tail);
      WordsBlank(" ", tail);
    }
  }

  lemma {:induction false} JoinChars(ts: seq<string>, cs: set<char>)
    requires ' ' in cs
    requires forall k :: 0 <= k < |ts| ==> OnlyChars(ts[k], cs)
    ensures OnlyChars(Join(ts), cs)
    decreases |ts|
  {
    if |ts| > 1 {
      JoinChars(ts[1..], cs);
    }
  }

  lemma {:induction false} JoinTrimmed(ts: seq<string>)
    requires forall k :: 0 <= k < |ts| ==> IsWord(ts[k])
    ensures Trimmed(Join(ts))
    decreases |ts|
  {
    if |ts| > 1 {
      JoinTrimmed(ts[1..]);
      var tail := Join(ts[1..]);
      assert |tail| > 0 by { JoinNonEmpty(ts[1..]); }
      assert (ts[0] + " " + tail)[0] == ts[0][0];
      assert (ts[0] + " " + tail)[|ts[0] + " " + tail| - 1] == tail[|tail| - 1];
    }
  }

  lemma {:induction false} JoinNonEmpty(ts: seq<string>)
    requires |ts| > 0 && forall k :: 0 <= k < |ts| ==> IsWord(ts[k])
    ensures |Join(ts)| > 0
    decreases |ts|
  {
  }

  // ---------------------------------------------------------------- split(sep)

  /** Python's `s.split(sep)` for a one-character separator. */
  function SplitOn(s: string, sep: char): (r: seq<string>)
    ensures |r| >= 1
    decreases |s|
  {
    if |s| == 0 then [""]
    else
      var rest := SplitOn(s[1..], sep);
      if s[0] == sep then [""] + rest else [[s[0]] + rest[0]] + rest[1..]
  }

  lemma {:induction false} SplitOnAbsent(s: string, sep: char)
    requires sep !in s
    ensures SplitOn(s, sep) == [s]
    decreases |s|
  {
    if |s| > 0 {
      SplitOnAbsent(s[1..], sep);
      assert [s[0]] + s[1..] == s;
    }
  }

  lemma {:induction false} SplitOnFirst(a: string, sep: char, b: string)
    requires sep !in a
    ensures SplitOn(a + [sep] + b, sep) == [a] + SplitOn(b, sep)
    decreases |a|
  {
    var s := a + [sep] + b;
    if |a| == 0 {
      assert s[1..] == b;
    } else {
      assert s[1..] == a[1..] + [sep] + b;
      SplitOnFirst(a[1..], sep, b);
      assert [a[0]] + a[1..] == a;
    }
  }

  /** Python's `s.replace(from, to)` for single characters. */
  function Replace(s: string, from: char, to: char): (r: string)
    ensures |r| == |s|
    ensures forall i :: 0 <= i < |s| ==> r[i] == if s[i] == from then to else s[i]
  {
    seq(|s|, i requires 0 <= i < |s| => if s[i] == from then to else s[i])
  }

  lemma ReplaceConcat(a: string, b: string, from: char, to: char)
    ensures Replace(a + b, from, to) == Replace(a, from, to) + Replace(b, from, to)
  {
  }

  lemma ReplaceAbsent(a: string, from: char, to: char)
    requires from !in a
    ensures Replace(a, from, to) == a
  {
  }

  // ---------------------------------------------------------------- `in`

  predicate Occurs(s: string, m: string, i: int)
  {
    0 <= i <= |s| - |m| && s[i..i + |m|] == m
  }

  /** Python's substring test `m in s`. */
  predicate Contains(s: string, m: string)
  {
    exists i | 0 <= i <= |s| - |m| :: Occurs(s, m, i)
  }

  lemma ContainsMiddle(a: string, m: string, b: string)
    ensures Contains(a + m + b, m)
  {
    assert Occurs(a + m + b, m, |a|);
  }

  /** A line whose characters all lie in `cs` holds no marker that has a character outside `cs`. */
  lemma AbsentChar(s: string, cs: set<char>, m: string, k: nat)
    requires OnlyChars(s, cs)
    requires k < |m| && m[k] !in cs
    ensures !Contains(s, m)
  {
    forall i | 0 <= i <= |s| - |m|
      ensures !Occurs(s, m, i)
    {
      assert s[i..i + |m|][k] == s[i + k];
    }
  }

  /** An occurrence of `m` in `[c] + t` is at the front or lies in `t`. */
  lemma ContainsCons(c: char, t: string, m: string)
    requires Contains([c] + t, m)
    ensures Occurs([c] + t, m, 0) || Contains(t, m)
  {
    var s := [c] + t;
    var i :| 0 <= i <= |s| - |m| && Occurs(s, m, i);
    if i > 0 {
      assert t[i - 1..i - 1 + |m|] == s[i..i + |m|];
      assert Occurs(t, m, i - 1);
    }
  }

  /** If `m` is neither at the front of `[c] + t` nor in `t`, it is nowhere in `[c] + t`. */
  lemma AbsentCons(c: char, t: string, m: string)
    requires !Occurs([c] + t, m, 0) && !Contains(t, m)
    ensures !Contains([c] + t, m)
  {
    var s := [c] + t;
    forall i | 0 <= i <= |s| - |m|
      ensures !Occurs(s, m, i)
    {
      if i > 0 {
        assert s[i..i + |m|] == t[i - 1..i - 1 + |m|];
        assert !Occurs(t, m, i - 1);
      }
    }
  }

  lemma OnlyCharsAppend(a: string, b: string, cs: set<char>)
    requires OnlyChars(a, cs) && OnlyChars(b, cs)
    ensures OnlyChars(a + b, cs)
  {
  }

  /** An occurrence of `m` cannot straddle a character that `m` does not contain. */
  lemma ContainsAround(a: string, d: char, b: string, m: string)
    requires d !in m
    requires Contains(a + [d] + b, m)
    ensures Contains(a, m) || Contains(b, m)
  {
    var s := a + [d] + b;
    var i :| 0 <= i <= |s| - |m| && Occurs(s, m, i);
    forall j | i <= j < i + |m|
      ensures s[j] == m[j - i]
    {
      assert s[i..i + |m|][j - i] == s[j];
    }
    assert s[|a|] == d;
    assert i + |m| <= |a| || i > |a|;
    if i + |m| <= |a| {
      assert a[i..i + |m|] == s[i..i + |m|];
      assert Occurs(a, m, i);
    } else {
      assert b[i - |a| - 1..i - |a| - 1 + |m|] == s[i..i + |m|];
      assert Occurs(b, m, i - |a| - 1);
    }
  }

  /** An occurrence of `m` in `a + [d]` lies in `a` when `m` does not end with `d`. */
  lemma ContainsDropLast(a: string, d: char, m: string)
    requires |m| > 0 && m[|m| - 1] != d
    requires Contains(a + [d], m)
    ensures Contains(a, m)
  {
    var s := a + [d];
    var i :| 0 <= i <= |s| - |m| && Occurs(s, m, i);
    assert s[i..i + |m|][|m| - 1] == s[i + |m| - 1];
    assert s[|s| - 1] == d;
    assert i + |m| < |s|;
    assert a[i..i + |m|] == s[i..i + |m|];
    assert Occurs(a, m, i);
  }

  // ---------------------------------------------------------------- integers

  predicate IsDigit(c: char)
  {
    '0' <= c <= '9'
  }

  function DigitChar(d: nat): (c: char)
    requires d < 10
    ensures IsDigit(c)
  {
    "0123456789"[d]
  }

  /** `"%d" % n` for a non-negative `n`. */
  function ShowNat(n: nat): (r: string)
    ensures |r| > 0
    ensures forall i :: 0 <= i < |r| ==> IsDigit(r[i])
    decreases n
  {
    if n < 10 then [DigitChar(n)] else ShowNat(n / 10) + [DigitChar(n % 10)]
  }

  function DigitValue(c: char): nat
    requires IsDigit(c)
  {
    (c as int) - ('0' as int)
  }

  function DigitsValue(d: string): nat
    requires forall i :: 0 <= i < |d| ==> IsDigit(d[i])
    decreases |d|
  {
    if |d| == 0 then 0
    else DigitsValue(d[..|d| - 1]) * 10 + DigitValue(d[|d| - 1])
  }

  function ParseDigits(d: string): Option<nat>
  {
    if |d| > 0 && forall i :: 0 <= i < |d| ==> IsDigit(d[i]) then Some(DigitsValue(d)) else None
  }

  /** Python's `int(s)` on a decimal literal: surrounding whitespace, an optional sign, at least one digit. */
  function ParseInt(s: string): Option<int>
  {
    var t := Strip(s);
    if |t| > 0 && t[0] == '-' then
      match ParseDigits(t[1..])
      case Some(v) => Some(-(v as int))
      case None => None
    else if |t| > 0 && t[0] == '+' then
      match ParseDigits(t[1..])
      case Some(v) => Some(v as int)
      case None => None
    else
      match ParseDigits(t)
      case Some(v) => Some(v as int)
      case None => None
  }

  lemma {:induction false} DigitsOfShowNat(n: nat)
    ensures DigitsValue(ShowNat(n)) == n
    decreases n
  {
    var s := ShowNat(n);
    if n < 10 {
      assert DigitValue("0123456789"[n]) == n;
    } else {
      DigitsOfShowNat(n / 10);
      assert s[..|s| - 1] == ShowNat(n / 10);
      assert DigitValue("0123456789"[n % 10]) == n % 10;
    }
  }

  /** `int("%d" % n) == n`. */
  lemma ParseShowNat(n: nat)
    ensures ParseInt(ShowNat(n)) == Some(n as int)
  {
    var s := ShowNat(n);
    assert Trimmed(s) by {
      assert IsDigit(s[0]) && IsDigit(s[|s| - 1]);
    }
    StripTrimmed(s);
    DigitsOfShowNat(n);
  }

  /** `"%d"` is injective on non-negative numbers. */
  lemma ShowNatInjective(a: nat, b: nat)
    requires ShowNat(a) == ShowNat(b)
    ensures a == b
  {
    ParseShowNat(a);
    ParseShowNat(b);
  }

  lemma ShowNatIsWord(n: nat)
    ensures IsWord(ShowNat(n)) && Trimmed(ShowNat(n))
  {
    var s := ShowNat(n);
    assert IsDigit(s[0]) && IsDigit(s[|s| - 1]);
  }

  // ---------------------------------------------------------------- lower()

  function LowerChar(c: char): char
  {
    if 'A' <= c <= 'Z' then (c as int + 32) as char else c
  }

  /** `t.lower() == "atom"`; only ASCII letters can fold onto the letters of "atom". */
  predicate IsAtomWord(t: string)
  {
    |t| == 4 && LowerChar(t[0]) == 'a' && LowerChar(t[1]) == 't' && LowerChar(t[2]) == 'o' && LowerChar(t[3]) == 'm'
  }
}
